=== FILE: README.md ===
# LangChisel: LL(1) grammar analysis, table-driven parsing and maximal-munch lexing

This project is a Dafny model of the two front-end components of LangChisel.

**The LL(1) engine** (`LangChisel/parse/ll1_parser.py`) covers:
- the grammar model: `CFSymbol`, `CFProduction`, `CFGrammar`, `is_terminal`, `get_non_terminals` and `get_terminals`;
- the memoised FIRST computation (`LL1_first`, `extract_LL1_first_sets`);
- the FOLLOW computation with its visiting guard (`LL1_follow`, `extract_LL1_follow_sets`);
- the parse-table builder (`build_LL1_table`);
- the stack-machine driver that produces the leftmost derivation (`get_LL1_derivation_seq`);
- syntax-tree assembly from that derivation (`generate_syntax_tree_symbols`);
- the attachment of tokens to the tree's terminals (`extract_terminal_children`, `tokenise_syntax_tree_terminals`).

**The maximal-munch lexer** has two copies: `LangChisel/lex/greedy_backtrack_lexer.py` and its older snapshot `src/lexer.py`. Both provide `check_for_match`, `find_lexemes` and `construct_tokens`.

Each operation is stated against an independent meaning:
- a maximal-munch scan for the lexer;
- the FIRST relation defined by nullable prefixes;
- the FOLLOW equations: every set lies within any solution, and holds the end marker and the FIRST contributions the equations demand;
- the lookahead sets of each production, for the table;
- leftmost derivations, for the driver and the tree builder.

Four defects found in the code are modelled twice: once as written, and once corrected (see "## Findings").

Modules, one per file:

| file | module | models |
|---|---|---|
| results.dfy | `Results` | `Option` and `Result`, for Python's `None` and raised exceptions |
| tokens.dfy | `Tokens` | `TokenTag` and `Token` (`LangChisel/lex/token.py`) |
| grammar.dfy | `CFG` | symbols, productions, grammars, `is_terminal`, `get_(non_)terminals` |
| lexer.dfy | `Lexer` | both lexers |
| first.dfy | `FirstSets` | `LL1_first`, `extract_LL1_first_sets` |
| follow.dfy | `FollowSets` | `LL1_follow`, `extract_LL1_follow_sets` |
| table.dfy | `LL1Table` | `build_LL1_table` |
| forms.dfy | `Derivations` | leftmost derivations, the meaning of the driver and tree results |
| driver.dfy | `Driver` | `get_LL1_derivation_seq` |
| tree.dfy | `SyntaxTree` | `generate_syntax_tree_symbols`, `extract_terminal_children`, `tokenise_syntax_tree_terminals` |
| pipeline.dfy | `Pipeline` | the driver, the tree builder and tokenising chained |
| examples.dfy | `Examples` | the expression grammar of `tests/test_parser.py`, its parse and table, and the inputs behind the findings |
| first_examples.dfy | `FirstExamples` | the FIRST sets of the expression grammar |
| follow_examples.dfy | `FollowExamples` | the FOLLOW sets of the expression grammar, and a grammar with a repeated nullable symbol |

Modelling choices:
- **Symbols.** A symbol is `T(tag)` (a `TokenTag`), `N(name)` (a string) or `Eps` (the grammar's `None` epsilon).
- **End-of-string marker.** It is a grammar field; the repository's grammars use `N("$")`.
- **Regular expressions.** A regex is an abstract full-match predicate, and the dictionary of patterns is a sequence in insertion order.
- **Extractors.** An extractor is an uninterpreted function in a map keyed by tag.
- **Hash-ordered iteration.** Python iterates `set`s and `dict`s in hash order. Where that order decides anything, it becomes an explicit `order` sequence.
- **The walk's stop at a repeat.** FOLLOW is computed in one of two `Scan` modes. `StopsAtRepeat` is the code as written: the walk right of an occurrence ends at the next occurrence of the same symbol. `PassesRepeat` walks past it like any other symbol.
- **FIRST termination.** FIRST is computed under a certificate: a rank on non-terminals that decreases along nullable prefixes, together with the set of nullable symbols. The Python recursion has no cycle guard and does not terminate on a left-recursive grammar.
- **The driver.** It is a step function run on fuel. Nothing in the Python loop bounds it for an arbitrary table.

## Model

| member | source | states |
|---|---|---|
| CFG.NonTerminals | LangChisel/parse/ll1_parser.py:69-71 | the result holds exactly the left-hand sides of the productions |
| CFG.Terminals | LangChisel/parse/ll1_parser.py:74-81 | the result holds exactly the terminals that occur in some right-hand side |
| Lexer.CheckForMatchSpec | LangChisel/lex/greedy_backtrack_lexer.py:6-21 | `CheckForMatch`: no tag exactly when no pattern fully matches; otherwise the tag of a matching pattern that no earlier pattern matches (src/lexer.py:44-59 is the same function) |
| Lexer.LongestMatch | LangChisel/lex/greedy_backtrack_lexer.py:37-46 | the shrinking window for one start finds a matching window that no longer window beats, or reports that no non-empty window matches |
| Lexer.LexIsMaximalMunch | LangChisel/lex/greedy_backtrack_lexer.py:35-47 | the lexemes found (`Lex`) form a maximal-munch scan: non-empty, contiguous from the start, each tagged by the first matching pattern, each the longest matching prefix of the rest, and scanning stops where nothing matches |
| Lexer.MaximalMunchUnique | src/lexer.py:73-84 | two maximal-munch scans of the same input are equal, so the scan is fully determined by the definition |
| Lexer.MaximalMunchCoversPrefix | src/lexer.py:76-84 | the lexemes concatenate to a prefix of the input, and no non-empty prefix of the dropped rest matches any pattern |
| Lexer.MaximalMunchEmpty | LangChisel/lex/greedy_backtrack_lexer.py:38-47 | no lexeme is found exactly when nothing matches at the start |
| Lexer.MaximalMunchHead | LangChisel/lex/greedy_backtrack_lexer.py:38-43 | the first lexeme ends where the shrinking-window search for the start position stops |
| Lexer.MaximalMunchTail | LangChisel/lex/greedy_backtrack_lexer.py:41-44 | the first lexeme is the input's own substring with its first-match tag, and the scan resumes right after it |
| Lexer.FindLexemes | src/lexer.py:62-86 | the result is the maximal-munch scan of the whole input followed by the sentinel: with the older copy's `EOF` sentinel it is never empty, ends in `("", EOF)` and is one longer than the lexemes matched; without one (LangChisel/lex/greedy_backtrack_lexer.py:24-47) it is the scan alone |
| Lexer.ConstructTokens | LangChisel/lex/greedy_backtrack_lexer.py:50-67 | one token per lexeme, in order; each token's tag is the lexeme's tag; its value is present exactly when the tag has an extractor, and is then the extractor applied to the substring (src/lexer.py:89-105 is the same function) |
| FirstSets.FirstOfTerminals | LangChisel/parse/ll1_parser.py:107-137 | every FIRST set holds only terminals and epsilon |
| FirstSets.SequenceFirstSpec | LangChisel/parse/ll1_parser.py:126-137 | the walk over a right-hand side from position j collects exactly the symbols the rest begins with: FIRST of each symbol without epsilon, up to and including the first non-nullable one, plus epsilon exactly when the whole rest is nullable |
| FirstSets.AlternativesFirstSpec | LangChisel/parse/ll1_parser.py:112-137 | the union over a non-terminal's productions, from the i-th on, is exactly what some of those right-hand sides begin with |
| FirstSets.FirstOfNonTerminal | LangChisel/parse/ll1_parser.py:112-140 | `FirstOf`, the reference FIRST: FIRST(A) holds exactly the symbols some right-hand side of A begins with; epsilon is in it exactly when some right-hand side is entirely nullable |
| FirstSets.FirstMemo | LangChisel/parse/ll1_parser.py:89-140 | the memoised recursion returns the reference FIRST set and records it; a cached symbol comes back unchanged; a terminal or epsilon gets itself; no existing entry is overwritten; new keys are the symbol or symbols of right-hand sides |
| FirstSets.AlternativesMemo | LangChisel/parse/ll1_parser.py:119-137 | the loop over a non-terminal's productions adds the reference FIRST of the remaining alternatives to what was gathered, and keeps the cache consistent |
| FirstSets.SequenceMemo | LangChisel/parse/ll1_parser.py:126-137 | the walk over one right-hand side adds the reference FIRST of the rest to what was gathered, and keeps the cache consistent |
| FirstSets.ExtractFirstSets | LangChisel/parse/ll1_parser.py:143-155 | every non-terminal and terminal gets an entry; every entry is its reference FIRST set (`FirstOf`); besides the listed symbols, only right-hand-side symbols that the walks reach, epsilon among them, can become keys |
| FollowSets.Follow | LangChisel/parse/ll1_parser.py:158-235 | `LL1_follow`, with `ProdLoop`, `OccLoop`, `Occurrence` and `ScanLoop` as its loops: a revisited symbol returns its cached-or-empty set and leaves the state alone; otherwise the symbol is marked visited and its result cached; the start symbol's set holds the end-of-string marker; calls only grow the state |
| FollowSets.ProdLoopGathers | LangChisel/parse/ll1_parser.py:188-232 | the loop over the productions from index i (`ProdLoop`) collects, for each of them, FIRST without epsilon of every symbol that stands after an occurrence of the symbol with only nullable symbols between; as written, a symbol counts only when it is not the symbol itself |
| FollowSets.OccLoopGathers | LangChisel/parse/ll1_parser.py:200-232 | the loop over the occurrences from position j (`OccLoop`) collects the contributions of every occurrence from j on |
| FollowSets.OccurrenceGathers | LangChisel/parse/ll1_parser.py:202-225 | one occurrence (`Occurrence`) collects every contribution its own walk reaches |
| FollowSets.ScanLoopGathers | LangChisel/parse/ll1_parser.py:214-225 | the walk (`ScanLoop`) adds FIRST without epsilon of each symbol up to and including the first non-nullable one; as written it ends before another occurrence of the symbol |
| FollowSets.LastOccurrence | LangChisel/parse/ll1_parser.py:216-219 | as written, a contribution skipped by a walk that stops at a repeat is reached from the last occurrence before it |
| FollowSets.FollowCovers | LangChisel/parse/ll1_parser.py:158-235 | every set the computation caches holds what its symbol always collects: the end marker for the start symbol and every FIRST contribution; a symbol not being visited gets all of it |
| FollowSets.FollowKeys | LangChisel/parse/ll1_parser.py:169-180 | new cache keys are the symbol itself or left-hand sides; a start entry holding the marker keeps it |
| FollowSets.FollowFails | LangChisel/parse/ll1_parser.py:221 | the computation fails only on a right-hand-side symbol with no FIRST entry (the `KeyError`), and never fails when every such symbol has one |
| FollowSets.FollowWithin | LangChisel/parse/ll1_parser.py:158-235 | for any solution B of the FOLLOW equations, the result and every cache entry lie within B |
| FollowSets.ScanLoopWithin | LangChisel/parse/ll1_parser.py:214-232 | the scan after an occurrence adds only FIRST symbols of a nullable-prefixed continuation and FOLLOW of the left-hand side once the rest vanishes, so it stays within any solution |
| FollowSets.OccurrenceWithin | LangChisel/parse/ll1_parser.py:202-210 | an occurrence at the end adds FOLLOW of another left-hand side only, and stays within any solution |
| FollowSets.AlphabetBound | LangChisel/parse/ll1_parser.py:182-232 | the marker plus all non-epsilon FIRST symbols solve the FOLLOW equations |
| FollowSets.SoundIsEpsFree | LangChisel/parse/ll1_parser.py:182-232 | a sound FOLLOW cache never holds epsilon when the marker is not epsilon |
| FollowSets.TopLevelFollow | LangChisel/parse/ll1_parser.py:246-247 | one top-level call, with a fresh visiting set, keeps earlier entries and adds the symbol's entry; the cache stays keyed by left-hand sides, sound, covered from below and with the end marker after the start symbol; it fails only on a symbol that occurs on a right-hand side and lacks a FIRST entry, never when all are present |
| FollowSets.Sweep | LangChisel/parse/ll1_parser.py:246-247 | the top-level calls, made in turn on one dictionary, leave an entry for every symbol swept |
| FollowSets.SweepFailureStays | LangChisel/parse/ll1_parser.py:246-247 | once a top-level call fails, sweeping more symbols ends with that same failure |
| FollowSets.SweepOnce | LangChisel/parse/ll1_parser.py:246-247 | one more top-level call either extends the sweep by the cache it leaves, or ends the whole sweep with its failure |
| FollowSets.SweepConsistent | LangChisel/parse/ll1_parser.py:246-247 | a sweep over left-hand sides keeps the dictionary keyed by left-hand sides, sound, covered and with the end marker after the start symbol, or fails on a right-hand-side symbol without a FIRST entry, and cannot fail when every entry is present |
| FollowSets.SweepOutcome | LangChisel/parse/ll1_parser.py:240-247 | a sweep over exactly the non-terminals yields keys that are exactly the non-terminals, with the same guarantees, and no epsilon in any set when the end marker is not epsilon |
| FollowSets.ExtractFollowSets | LangChisel/parse/ll1_parser.py:238-249 | the loop is the sweep over `order`; it fails only on a missing FIRST entry (never when all are present); keys are exactly the non-terminals; every set lies within any solution of the FOLLOW equations; the start set holds the marker; every set holds every FIRST contribution to its symbol; no set holds epsilon |
| FollowSets.CoveredFirstClause | LangChisel/parse/ll1_parser.py:212-225 | a finished FOLLOW dictionary meets the FIRST clause of the FOLLOW equations at every key: walking past repeats, in full; as written, except for FIRST of the repeated symbol itself |
| LL1Table.RhsFirst | LangChisel/parse/ll1_parser.py:267-272 | the walk fails exactly on a right-hand-side symbol missing from the FIRST sets (the `KeyError`) |
| LL1Table.WalksCompared | LangChisel/parse/ll1_parser.py:267-272 | as written and corrected, the walk gathers the same terminals; corrected, epsilon is kept exactly when every symbol is nullable; as written, exactly when the first symbol is nullable |
| LL1Table.CorrectedWalkIsFirst | LangChisel/parse/ll1_parser.py:267-272 | the corrected walk is the reference FIRST of the rest of the right-hand side |
| LL1Table.AddProductionOk | LangChisel/parse/ll1_parser.py:262-291 | a successful step creates the row if missing and fills each lookahead cell with the production, changing nothing else |
| LL1Table.AddProductionFails | LangChisel/parse/ll1_parser.py:262-291 | a step fails only on a lookup error or a conflict; with both lookups present it succeeds exactly when its lookaheads avoid the row's cells and the FIRST and FOLLOW lookaheads do not overlap each other |
| LL1Table.AddProductionSpec | LangChisel/parse/ll1_parser.py:262-291 | each step (`AddProduction`) keeps the table built from the productions so far, and fails on a conflict exactly when a lookahead was claimed by an earlier production of the same non-terminal or by the production's own other half |
| LL1Table.BuildFromSpec | LangChisel/parse/ll1_parser.py:262-293 | the rest of the loop ends with the table built from every production, or fails at some production; with every lookup present, it succeeds exactly when no lookahead is claimed twice |
| LL1Table.NoClashSequentially | LangChisel/parse/ll1_parser.py:262-291 | the production-by-production conflict test agrees with the global one: no two productions of a non-terminal share a lookahead, and no production claims one through both FIRST and FOLLOW |
| LL1Table.FinishedTable | LangChisel/parse/ll1_parser.py:262-293 | a finished table has a row for every left-hand side and no other rows; each cell holds a production of the grammar for that row, entered under one of its lookaheads |
| LL1Table.FinishedTableComplete | LangChisel/parse/ll1_parser.py:275-291 | for a grammar without conflicts, each production sits in every cell of its lookaheads |
| LL1Table.BuildTableSpec | LangChisel/parse/ll1_parser.py:252-293 | `build_LL1_table` (`BuildTable`): with every lookup present, the builder succeeds exactly when no lookahead is claimed twice; failures name a failing production; rows are exactly the non-terminals; each cell holds a production of its row under one of its lookaheads; without conflicts every lookahead is entered |
| Driver.InputSymbols | LangChisel/parse/ll1_parser.py:313-321 | the lookaheads are the tokens' tags, in order, then the end-of-string marker |
| Driver.Step | LangChisel/parse/ll1_parser.py:318-338 | a step keeps the marker at the bottom of the stack and the marker as the last lookahead |
| Driver.StepShape | LangChisel/parse/ll1_parser.py:323-338 | a step pops an epsilon without reading input, pops a matching terminal and reads exactly one lookahead, or replaces the top by a right-hand side reversed (leftmost on top) of a production for the top and records it; when neither pop applies, the production is the table's entry for the top and the lookahead, a missing entry raises `NoStep` and an entry for another left-hand side fails the assertion (`WrongEntry`) |
| Driver.StepReadsOneEntry | LangChisel/parse/ll1_parser.py:329-330 | the step consults the table only at the top's row under the lookahead: two tables that agree on that cell step alike |
| Driver.TerminalMismatchFails | LangChisel/parse/ll1_parser.py:325-338 | a terminal on top that differs from the lookahead is never popped; on a table whose entries expand non-terminals the step fails |
| Driver.ConsumeNeverMarker | LangChisel/parse/ll1_parser.py:318-327 | the terminal branch pops a terminal equal to the lookahead while the loop runs only with a top other than the marker, so it never consumes the marker: what it reads is one token's terminal, and the marker stays as the last lookahead |
| Driver.Run | LangChisel/parse/ll1_parser.py:318 | the loop stops only with the marker on top |
| Driver.RunFuel | LangChisel/parse/ll1_parser.py:318-338 | more fuel does not change a run that did not run out |
| Driver.InitialTracks | LangChisel/parse/ll1_parser.py:312-314 | the stack starts as marker then start symbol, and the driver invariant holds with nothing consumed |
| Driver.StepTracks | LangChisel/parse/ll1_parser.py:323-336 | every step keeps the invariant: consumed symbols, then the stack read top-down, are the leftmost form the recorded productions derive, and the consumed terminals followed by the lookaheads are the input |
| Driver.RunTracks | LangChisel/parse/ll1_parser.py:318-339 | the whole loop keeps the invariant |
| Driver.StoppedTracks | LangChisel/parse/ll1_parser.py:318 | when the marker is on top, the stack is the marker alone and the derivation reaches the consumed form |
| Driver.ParseSound | LangChisel/parse/ll1_parser.py:307-339 | as written (`Parse`), a returned sequence is a leftmost derivation from the start symbol to a form of terminals and epsilons that spells a prefix of the input only |
| Driver.BuiltIsSane | LangChisel/parse/ll1_parser.py:252-291 | on a grammar whose productions rewrite non-terminals to non-empty right-hand sides without the marker, and whose start symbol is a non-terminal other than the marker, a table `build_LL1_table` returns meets the driver's `Sane` precondition |
| Driver.ParseAllSound | LangChisel/parse/ll1_parser.py:307-339 | corrected (`ParseAll`), a returned sequence derives exactly the input |
| Driver.ParseAllIsParseWithoutLeftover | LangChisel/parse/ll1_parser.py:318 | the corrected driver returns what the driver as written returns: the same derivation when it accepts, the same error when the driver as written fails, and otherwise an `Unfinished` refusal of unread input |
| Driver.ParseAllExpanding | LangChisel/parse/ll1_parser.py:326-336 | every recorded production has a non-empty right-hand side |
| SyntaxTree.Expand | LangChisel/parse/ll1_parser.py:383-405 | an expanded node carries the symbol it was queued for, and consumes productions left to right; the only failure is a popped node whose symbol is not the next left-hand side |
| SyntaxTree.Children | LangChisel/parse/ll1_parser.py:392-405 | a node's children are exactly its production's right-hand side, one per symbol, in order |
| SyntaxTree.BuildTree | LangChisel/parse/ll1_parser.py:375-379 | the root's symbol is the first production's left-hand side; an empty derivation is the first assertion failure |
| SyntaxTree.ExpandShape | LangChisel/parse/ll1_parser.py:383-405 | the productions a subtree uses, read in pre-order, are exactly the consecutive slice of the derivation it consumed |
| SyntaxTree.BuildTreeShape | LangChisel/parse/ll1_parser.py:370-407 | the tree's productions, in pre-order, are exactly the derivation prefix consumed |
| SyntaxTree.ExpandDerives | LangChisel/parse/ll1_parser.py:383-405 | corrected, expanding a non-terminal along a leftmost derivation succeeds, and the slice it consumes derives the subtree's yield |
| SyntaxTree.TreeOfDerivation | LangChisel/parse/ll1_parser.py:370-407 | corrected, a complete leftmost derivation from a non-terminal is turned into a tree that uses all of it and whose yield is the derived form |
| SyntaxTree.FiltersAgreeExpand | LangChisel/parse/ll1_parser.py:402-405 | when epsilon stands alone in every right-hand side, the epsilon test as written and the corrected one build the same tree |
| SyntaxTree.BuildTreeTerminalLeaves | LangChisel/parse/ll1_parser.py:393-405 | terminals are never expanded: every terminal node of the tree is a leaf |
| SyntaxTree.TerminalsSpellYield | LangChisel/parse/ll1_parser.py:410-416 | the terminal nodes (`TerminalNodes`), collected in pre-order, spell the tree's yield with its epsilons removed |
| SyntaxTree.LabelSpec | LangChisel/parse/ll1_parser.py:425-429 | labelling succeeds exactly when each collected terminal's tag equals its token's; the k-th terminal then gets the k-th token; a failure is at the first missing token or mismatching tag; surplus tokens are ignored |
| SyntaxTree.AttachIsLabel | LangChisel/parse/ll1_parser.py:420-429 | attaching tokens (`Attach`, under `Tokenise`) in the tree agrees with labelling the collected terminal list, and changes nothing but the tokens |
| SyntaxTree.AttachAllIsLabel | LangChisel/parse/ll1_parser.py:410-416 | the same for a list of sibling subtrees |
| Pipeline.AcceptedInputTokenises | LangChisel/parse/ll1_parser.py:307-429 | whatever the corrected driver accepts becomes, through the corrected builder, a tree that uses every recorded production in order, and tokenising, given a copy of the token list made before the driver ran, gives each terminal its own token with none left over |
| Examples.ExprParse | tests/test_parser.py:324-326 | on `test_grammar_1` with `expected_table_1`, the tokens of `id + ( id * id )` give exactly `expected_derivations_1`, as written and corrected |
| Examples.ExprTableBuilds | tests/test_parser.py:311-322 | the builder as written turns `test_grammar_1`, `expected_first_1` and `expected_follow_1` into `expected_table_1` |
| Examples.ExprTree | tests/test_parser.py:328-330 | the tree builder as written succeeds on `expected_derivations_1`, uses all of it, and agrees with the corrected builder |
| FirstExamples.ExprAnalysable | LangChisel/parse/ll1_parser.py:112-140 | the FIRST recursion terminates on `test_grammar_1`: E' and T' are the nullable symbols, and every walk recurses into a symbol of lower rank |
| FirstExamples.ExprFirstSets | tests/test_parser.py:43-52 | `test_first_1` (tests/test_parser.py:286-296): every entry of `expected_first_1` is the FIRST set of its symbol |
| FollowExamples.ExprFollowSets | tests/test_parser.py:55-74 | `test_follow_1` (tests/test_parser.py:299-308): sweeping E, E', T, T', F with `expected_first_1` yields exactly `expected_follow_1`, with the walk as written or corrected |
| FollowExamples.RepeatedOccurrenceDrops | LangChisel/parse/ll1_parser.py:216-219 | on `X -> A A c`, `A -> a` or epsilon, FOLLOW(A) is {c} as written and {a, c} when the walk passes the second A |
| FollowExamples.TwiceSweep | LangChisel/parse/ll1_parser.py:238-249 | the whole FOLLOW dictionary of that grammar, as written and corrected |
| FollowExamples.TwiceTables | LangChisel/parse/ll1_parser.py:262-291 | from the FOLLOW sets as written the builder fills a table for that ambiguous grammar; from the corrected ones it reports the clash of `A -> a` and `A -> epsilon` on `a` |
| Examples.LeftoverInput | LangChisel/parse/ll1_parser.py:318 | on `id )` the driver as written returns the derivation of `id` alone; the corrected driver reports the unread `)` |
| Examples.WalkABc | LangChisel/parse/ll1_parser.py:267-272 | for `A -> B c` with B nullable, the walk as written keeps epsilon; the corrected walk does not |
| Examples.TailAsWrittenConflicts | LangChisel/parse/ll1_parser.py:267-291 | on the LL(1) grammar `S -> A x`, `A -> B c` or epsilon, `B -> epsilon`, the builder as written reports a conflict at (A, x) |
| Examples.TailCorrectedBuilds | LangChisel/parse/ll1_parser.py:262-293 | the corrected builder finds no conflict on that grammar and builds the textbook table |
| Examples.TreeQueuesEpsilon | LangChisel/parse/ll1_parser.py:402-405 | on `S -> eps A`, `A -> x` the builder as written queues the epsilon child and fails against `A -> x`; the corrected builder builds the tree |
| Examples.TreeSkipsChild | LangChisel/parse/ll1_parser.py:402-405 | on `S -> A eps`, `A -> x` the builder as written queues nothing and leaves A unexpanded; the corrected builder expands it |

## Left out

- Printing, `__repr__`, `__hash__` and the error-message texts are not modelled. `ParseError.__str__` reads an attribute that is never set, so it is left out too. Errors are constructors that carry the offending symbols.
- Regular expressions and extractor lambdas are foreign library code. Patterns are abstract full-match predicates; extractors are uninterpreted functions.
- Python's hash-ordered iteration of `set`s and `dict`s is not modelled:
  - the symbol orders of both `extract_*` functions are explicit `order` parameters;
  - a table conflict reports every clashing lookahead of the production, where Python reports the first one in hash order.
- Aliasing is not modelled. The driver appends to, reverses and pops the caller's token list, and `SyntaxNode` shares a mutable default `children` list. Both are modelled on immutable sequences and trees. One consequence is outside the model: after an accepted parse the caller's list holds only the end-of-string token, so passing that same list object on to `tokenise_syntax_tree_terminals` fails its assertion at ll1_parser.py:428 when the tree has a terminal; the pipeline lemma speaks of a copy taken before the driver ran.
- LL1Table.AddProduction: FIRST and FOLLOW sets are sets, while `build_LL1_table` loops over the caller's FOLLOW list. A list that repeats a terminal, under a production whose right-hand side can vanish, makes the second visit find the cell its own first visit filled and raise the conflict `ValueError`; the model drops the duplicate and succeeds. `extract_LL1_follow_sets` never produces such a list, since it stores `list(set(...))` (ll1_parser.py:234).
- FirstSets.FirstOf requires a rank certificate. The Python recursion has no cycle guard and does not terminate on a left-recursive grammar, and this model says nothing about such grammars.
- FirstSets.FirstMemo requires every cache entry to be the reference FIRST set. This is what `extract_LL1_first_sets` passes, an empty cache. A caller-supplied cache holding wrong sets is not modelled.
- FirstSets.ExtractFirstSets requires every right-hand side to be non-empty. This is the assertion at `LangChisel/parse/ll1_parser.py:122`; the assertion failure itself is not modelled.
- FollowSets.ExtractFollowSets bounds each set from above by every solution of the FOLLOW equations, and from below by the end marker and the FIRST contributions; it does not state equality with the least solution. Two things keep the least solution out of reach:
  - on a grammar where FOLLOW sets depend on each other in a cycle, the visiting guard returns a partial set, which is cached for good, so what a set receives from other FOLLOW sets depends on the order of the visits. This falls short of the definition in the docstring at ll1_parser.py:174-176: for `S -> A b`, `A -> c B`, `B -> d A` or epsilon, visiting S, A, B leaves FOLLOW(B) empty where the equations give {b}, so `B -> epsilon` gets no table cell and `c b` is rejected, while the order S, B, A gets {b}. A corrected computation would iterate the equations to their least solution, a different algorithm that this model does not define;
  - as written, the walk's stop at a repeated occurrence drops FIRST of that symbol (see "## Findings").
- FollowSets.FollowCovers: the FOLLOW set of the left-hand side, added at an occurrence whose rest can vanish, is not part of the lower bound, for the cycle reason above.
- Driver.Run is bounded by fuel; running out is an `OutOfFuel` error. The Python loop has no bound, and nothing is claimed about how it behaves beyond the fuel.
- Driver.ParseSound and Driver.ParseAllSound require a `Sane` table and grammar: the start symbol is a non-terminal other than the marker, and every entry rewrites a non-terminal to a non-empty right-hand side without the marker. The assertion at `LangChisel/parse/ll1_parser.py:122` gives only the non-empty right-hand sides. `Driver.BuiltIsSane` shows that `build_LL1_table` returns a `Sane` table when, in addition, every left-hand side is a non-terminal, no right-hand side holds the marker, and the start symbol is a non-terminal other than the marker; an augmented production such as `S' -> S $` breaks the last-but-one condition and is outside these lemmas.
- `LangChisel/lex/token.py` and the `Token`/`TokenType` classes of `src/lexer.py` become one `Token` datatype whose tags are strings. Python compares them field by field, which is datatype equality.
- `src/parser.py` (a stub), `src/__init__.py` and `code/__main__.py` (demo scripts) are not part of this model.
- The FIRST, FOLLOW and table expectations of the second test grammar are not restated as examples.

## Findings

| source | as written | input that shows it | evidently intended | confidence | as-written member | corrected member |
|---|---|---|---|---|---|---|
| LangChisel/parse/ll1_parser.py:267-272 | the walk adds each FIRST set whole, epsilon included, so epsilon is in the gathered set as soon as the first symbol is nullable, and FOLLOW cells are filled for a right-hand side that cannot vanish | `S -> A x`, `A -> B c` or epsilon, `B -> epsilon`: `A -> B c` is entered under FOLLOW(A) = {x} and clashes with `A -> epsilon`, a conflict on an LL(1) grammar | keep epsilon only when every symbol of the right-hand side is nullable | high; not executed | Examples.TailAsWrittenConflicts | Examples.TailCorrectedBuilds |
| LangChisel/parse/ll1_parser.py:318 | the loop ends as soon as the marker is on top of the stack, without checking that the input is used up | `id )` on `test_grammar_1` gives the derivation of `id` and ignores `)` | accept only when the lookahead is the marker too | high; not executed | Examples.LeftoverInput | Driver.ParseAllSound |
| LangChisel/parse/ll1_parser.py:218-219 | the walk right of an occurrence stops at the next occurrence of the same symbol, and that occurrence's own walk starts after it, so FIRST of the symbol never reaches the earlier occurrence's set | `X -> A A c`, `A -> a` or epsilon: FOLLOW(A) comes out {c}, not {a, c}, and the table for this ambiguous grammar gets no conflict | walk past a repeated occurrence as past any other nullable symbol | high; not executed | FollowExamples.RepeatedOccurrenceDrops | FollowSets.CoveredFirstClause |
| LangChisel/parse/ll1_parser.py:404 | the epsilon test reads `to_symbol`, left over from the loop at line 393, which is the production's last right-hand-side symbol, not the child being queued | derivation `S -> eps A`, `A -> x`: the epsilon child is queued, popped first, and the assertion at line 389 fails | test each child's own symbol | high; not executed | Examples.TreeQueuesEpsilon | SyntaxTree.TreeOfDerivation |

=== FILE: driver.dfy ===
/** The table-driven derivation driver `get_LL1_derivation_seq` of
    LangChisel/parse/ll1_parser.py: a stack machine that records the
    productions it expands. The Python loop need not terminate for an
    arbitrary table, so the model runs it on fuel. */
module Driver {
  import opened Results
  import opened Tokens
  import opened CFG
  import opened Derivations
  import LL1Table

  /** The machine's state. `stack` has its top at the end, like the Python
      list. `input` holds the lookahead symbols still to read, next one first
      (Python keeps the reversed token list and reads its last element).
      `derivation` is the productions recorded so far. */
  datatype Config = Config(stack: seq<Symbol>, input: seq<Symbol>, derivation: seq<Production>)

  /** Why the driver stops without a derivation: the `ParseError` when the
      table has no entry for the top and the lookahead, the `AssertionError`
      when an entry's left-hand side is not the top, the fuel running out
      (the Python loop would go on), and, for the corrected driver only,
      input or stack left over when the end-of-string marker is reached. */
  datatype ParseError =
    | NoStep(top: Symbol, lookahead: Symbol)
    | WrongEntry(top: Symbol, entry: Production)
    | OutOfFuel
    | Unfinished(stack: seq<Symbol>, input: seq<Symbol>)

  /** The lookahead symbols the driver reads: `CFSymbol(token.tag)` for each
      token, then the end-of-string token it appends, whose symbol is the
      grammar's marker. */
  function InputSymbols<V>(tokens: seq<Token<V>>, eos: Symbol): (r: seq<Symbol>)
    ensures |r| == |tokens| + 1 && r[|tokens|] == eos
    ensures forall i :: 0 <= i < |tokens| ==> r[i] == T(tokens[i].tag)
  {
    TokenSymbols(tokens) + [eos]
  }

  /** The terminal each token stands for. */
  function TokenSymbols<V>(tokens: seq<Token<V>>): (r: seq<Symbol>)
    ensures |r| == |tokens|
    ensures forall i :: 0 <= i < |tokens| ==> r[i] == T(tokens[i].tag)
  {
    seq(|tokens|, i requires 0 <= i < |tokens| => T(tokens[i].tag))
  }

  /** The state before the loop: `[$, start]` on the stack, nothing recorded. */
  function Initial<V>(g: Grammar, tokens: seq<Token<V>>): Config
  {
    Config([g.eos, g.start], InputSymbols(tokens, g.eos), [])
  }

  /** What holds of every state the loop reaches: the end-of-string marker
      at the bottom of the stack and at the end of the input. Neither is ever
      removed, so the Python `stack[-1]` and `tokens[-1]` never fail. */
  predicate Wellformed(g: Grammar, c: Config)
  {
    && |c.stack| > 0 && c.stack[0] == g.eos
    && |c.input| > 0 && c.input[|c.input| - 1] == g.eos
  }

  function Top(c: Config): Symbol
    requires |c.stack| > 0
  {
    c.stack[|c.stack| - 1]
  }

  /** One iteration of the loop, taken while the top is not the marker: pop
      an epsilon; pop a terminal equal to the lookahead and consume that
      lookahead; or replace the top by the right-hand side, reversed, of the
      table's production for the top and the lookahead, and record that
      production. Python compares a terminal's tag with the token's tag; since
      the appended token carries the marker's own value, that is equality of
      the top with the lookahead symbol. */
  function Step(g: Grammar, table: LL1Table.Table, c: Config): (r: Result<Config, ParseError>)
    requires Wellformed(g, c) && Top(c) != g.eos
    ensures r.Ok? ==> Wellformed(g, r.value)
  {
    var top := Top(c);
    var la := c.input[0];
    var pop := c.stack[..|c.stack| - 1];
    if top == Eps then Ok(c.(stack := pop))
    else if IsTerminal(top) && top == la then Ok(c.(stack := pop, input := c.input[1..]))
    else if top in table && la in table[top] then
      var p := table[top][la];
      if top != p.lhs then Err(WrongEntry(top, p))
      else Ok(c.(stack := pop + Reverse(p.rhs), derivation := c.derivation + [p]))
    else Err(NoStep(top, la))
  }

  /** An iteration does one of three things: pops an epsilon; pops a
      terminal and consumes the equal lookahead, only that one; or replaces
      the top by the right-hand side, leftmost symbol on top, of a production
      whose left-hand side is the top, and records that production. The loop
      fails only for a missing or mismatched table entry. When neither pop
      applies, the production is the table's entry for the top and the
      lookahead; without that entry the step raises `NoStep`, and with an
      entry for another left-hand side it fails the assertion (`WrongEntry`). */
  lemma StepShape(g: Grammar, table: LL1Table.Table, c: Config)
    requires Wellformed(g, c) && Top(c) != g.eos
    ensures var r := Step(g, table, c);
      var pop := c.stack[..|c.stack| - 1];
      && (r.Ok? ==>
           || (Top(c) == Eps && r.value == c.(stack := pop))
           || (IsTerminal(Top(c)) && [Top(c)] + r.value.input == c.input && r.value == c.(stack := pop, input := r.value.input))
           || (exists p: Production :: p.lhs == Top(c) && r.value == c.(stack := pop + Reverse(p.rhs), derivation := c.derivation + [p])))
      && (r.Err? ==> r.error.NoStep? || r.error.WrongEntry?)
    ensures var r := Step(g, table, c);
      var top, la, pop := Top(c), c.input[0], c.stack[..|c.stack| - 1];
      top != Eps && !(IsTerminal(top) && top == la) ==>
        && (!(top in table && la in table[top]) ==> r == Err(NoStep(top, la)))
        && (top in table && la in table[top] && table[top][la].lhs != top ==> r == Err(WrongEntry(top, table[top][la])))
        && (top in table && la in table[top] && table[top][la].lhs == top ==>
              r == Ok(c.(stack := pop + Reverse(table[top][la].rhs), derivation := c.derivation + [table[top][la]])))
  {
    var r := Step(g, table, c);
    if r.Ok? && Top(c) != Eps && !(IsTerminal(Top(c)) && Top(c) == c.input[0]) {
      var p := table[Top(c)][c.input[0]];
      assert r.value == c.(stack := c.stack[..|c.stack| - 1] + Reverse(p.rhs), derivation := c.derivation + [p]);
    } else if r.Ok? && Top(c) != Eps {
      assert [Top(c)] + c.input[1..] == c.input;
    }
  }

  /** A step reads the table at one cell only, the top's row under the
      lookahead: two tables that agree there take the same step. */
  lemma StepReadsOneEntry(g: Grammar, t1: LL1Table.Table, t2: LL1Table.Table, c: Config)
    requires Wellformed(g, c) && Top(c) != g.eos
    requires var top, la := Top(c), c.input[0];
      && (top in t1 && la in t1[top] <==> top in t2 && la in t2[top])
      && (top in t1 && la in t1[top] ==> t1[top][la] == t2[top][la])
    ensures Step(g, t1, c) == Step(g, t2, c)
  {
  }

  /** A terminal on top that differs from the lookahead is never popped: on a
      table whose entries all expand non-terminals, the step fails. */
  lemma TerminalMismatchFails(g: Grammar, table: LL1Table.Table, c: Config)
    requires Wellformed(g, c) && Top(c) != g.eos && Sane(g, table)
    requires IsTerminal(Top(c)) && Top(c) != c.input[0]
    ensures Step(g, table, c).Err?
  {
  }

  /** Only the terminal branch reads input, and it never consumes the
      marker: it pops a terminal equal to the lookahead, and the loop runs only
      while the top is not the marker. What it consumes is a token's terminal,
      and the marker stays in the input. */
  lemma ConsumeNeverMarker(g: Grammar, table: LL1Table.Table, c: Config)
    requires Wellformed(g, c) && Top(c) != g.eos
    ensures var r := Step(g, table, c);
      r.Ok? && r.value.input != c.input ==>
        && IsTerminal(c.input[0]) && c.input[0] != g.eos
        && r.value.input == c.input[1..] && |r.value.input| > 0
  {
  }

  /** The loop, on at most `fuel` iterations; it stops as soon as the marker
      is on top. */
  function Run(g: Grammar, table: LL1Table.Table, c: Config, fuel: nat): (r: Result<Config, ParseError>)
    requires Wellformed(g, c)
    ensures r.Ok? ==> Wellformed(g, r.value) && Top(r.value) == g.eos
    decreases fuel
  {
    if Top(c) == g.eos then Ok(c)
    else if fuel == 0 then Err(OutOfFuel)
    else
      match Step(g, table, c)
      case Err(e) => Err(e)
      case Ok(c') => Run(g, table, c', fuel - 1)
  }

  /** `get_LL1_derivation_seq`, as written: the recorded productions once the
      marker is on top, whatever input is left. */
  function Parse<V>(g: Grammar, table: LL1Table.Table, tokens: seq<Token<V>>, fuel: nat): Result<seq<Production>, ParseError>
  {
    match Run(g, table, Initial(g, tokens), fuel)
    case Err(e) => Err(e)
    case Ok(c) => Ok(c.derivation)
  }

  /** The driver as evidently intended: accept only when the stack and the
      input are both down to the marker. */
  function ParseAll<V>(g: Grammar, table: LL1Table.Table, tokens: seq<Token<V>>, fuel: nat): Result<seq<Production>, ParseError>
  {
    match Run(g, table, Initial(g, tokens), fuel)
    case Err(e) => Err(e)
    case Ok(c) => if c.stack == [g.eos] && c.input == [g.eos] then Ok(c.derivation) else Err(Unfinished(c.stack, c.input))
  }

  /** More fuel changes nothing once a run has stopped without running out. */
  lemma {:induction false} RunFuel(g: Grammar, table: LL1Table.Table, c: Config, fuel: nat, more: nat)
    requires Wellformed(g, c) && fuel <= more
    requires Run(g, table, c, fuel) != Err(OutOfFuel)
    ensures Run(g, table, c, more) == Run(g, table, c, fuel)
    decreases fuel
  {
    if Top(c) != g.eos && fuel > 0 {
      match Step(g, table, c)
      case Err(_) =>
      case Ok(c') => RunFuel(g, table, c', fuel - 1, more - 1);
    }
  }

  /** Every entry of the table rewrites a non-terminal (as the tables of
      `build_LL1_table` for grammars with non-terminal left-hand sides do)
      and never pushes the marker. */
  ghost predicate Sane(g: Grammar, table: LL1Table.Table)
  {
    && g.start.N? && g.start != g.eos
    && forall a, la :: a in table && la in table[a] ==>
         table[a][la].lhs.N? && table[a][la].rhs != [] && g.eos !in table[a][la].rhs
  }
  /** A table `build_LL1_table` returns is sane when the grammar's productions
      rewrite non-terminals to non-empty right-hand sides without the marker
      and its start symbol is a non-terminal other than the marker. */
  lemma BuiltIsSane(g: Grammar, first: SymbolSets, follow: SymbolSets, w: LL1Table.Walk)
    requires g.start.N? && g.start != g.eos
    requires forall p :: p in g.productions ==> p.lhs.N? && p.rhs != [] && g.eos !in p.rhs
    ensures var r := LL1Table.BuildTable(g, first, follow, w);
      r.Ok? ==> Sane(g, r.value)
  {
    LL1Table.BuildTableSpec(g, first, follow, w);
  }


  /** The loop invariant behind the driver, with `done` the symbols popped so
      far (the Python loop does not keep them): the recorded productions
      derive, leftmost from the start symbol, `done` followed by the stack read
      from the top down; `done` holds only terminals and epsilons, and its
      terminals followed by the remaining input are the whole input; the
      marker occurs only at the bottom of the stack. */
  ghost predicate Tracks(g: Grammar, input0: seq<Symbol>, c: Config, done: seq<Symbol>)
    requires Wellformed(g, c)
  {
    && g.eos !in c.stack[1..]
    && Derive([g.start], c.derivation) == Some(done + Reverse(c.stack[1..]))
    && Settled(done)
    && WithoutEps(done) + c.input == input0
  }

  lemma InitialTracks<V>(g: Grammar, tokens: seq<Token<V>>)
    requires g.start != g.eos
    ensures var c := Initial(g, tokens); Wellformed(g, c) && Tracks(g, c.input, c, [])
  {
    var c := Initial(g, tokens);
    assert c.stack[1..] == [g.start];
    assert Reverse([g.start]) == [g.start] by {
      assert [g.start][1..] == [];
    }
    assert Derive([g.start], []) == Some([g.start]);
  }

  /** Reading the stack from the top down: the top, then the rest. */
  lemma TopFirst(stack: seq<Symbol>)
    requires |stack| > 1
    ensures Reverse(stack[1..]) == [stack[|stack| - 1]] + Reverse(stack[1..|stack| - 1])
  {
    var n := |stack|;
    assert stack[1..] == stack[1..n - 1] + [stack[n - 1]];
    ReverseAppend(stack[1..n - 1], [stack[n - 1]]);
    assert Reverse([stack[n - 1]]) == [stack[n - 1]] by {
      assert [stack[n - 1]][1..] == [];
    }
  }

  /** Reading the stack from the top down after pushing `rhs` reversed
      gives `rhs` first. */
  lemma PushedReversed(stack: seq<Symbol>, rhs: seq<Symbol>)
    requires |stack| > 1
    ensures (stack[..|stack| - 1] + Reverse(rhs))[1..] == stack[1..|stack| - 1] + Reverse(rhs)
    ensures Reverse((stack[..|stack| - 1] + Reverse(rhs))[1..]) == rhs + Reverse(stack[1..|stack| - 1])
  {
    assert (stack[..|stack| - 1] + Reverse(rhs))[1..] == stack[1..|stack| - 1] + Reverse(rhs);
    ReverseAppend(stack[1..|stack| - 1], Reverse(rhs));
    ReverseReverse(rhs);
  }

  /** Each iteration keeps the invariant, with the popped symbol, if any,
      moved to the end of `done`. */
  lemma StepTracks(g: Grammar, table: LL1Table.Table, input0: seq<Symbol>, c: Config, done: seq<Symbol>)
    returns (done': seq<Symbol>)
    requires Sane(g, table) && Wellformed(g, c) && Top(c) != g.eos && Tracks(g, input0, c, done)
    ensures var r := Step(g, table, c); r.Ok? ==> Tracks(g, input0, r.value, done')
  {
    var r := Step(g, table, c);
    done' := done;
    if r.Ok? {
      var c' := r.value;
      var top := Top(c);
      var n := |c.stack|;
      TopFirst(c.stack);
      var rest := Reverse(c.stack[1..n - 1]);
      assert c'.stack[..n - 1] == c.stack[..n - 1];
      if top == Eps || (IsTerminal(top) && top == c.input[0]) {
        done' := done + [top];
        PoppedTracks(g, input0, c, c', done, top, rest);
      } else {
        var p := table[top][c.input[0]];
        ExpandedTracks(g, input0, c, p, done, rest);
        assert c' == c.(stack := c.stack[..n - 1] + Reverse(p.rhs), derivation := c.derivation + [p]);
      }
    }
  }

  /** Popping an epsilon or a matched terminal moves it to the end of `done`. */
  lemma PoppedTracks(g: Grammar, input0: seq<Symbol>, c: Config, c': Config, done: seq<Symbol>, top: Symbol, rest: seq<Symbol>)
    requires Wellformed(g, c) && Wellformed(g, c') && |c.stack| > 1 && Top(c) == top && Tracks(g, input0, c, done)
    requires top == Eps || (top.T? && top == c.input[0])
    requires c'.stack == c.stack[..|c.stack| - 1] && c'.derivation == c.derivation
    requires c'.input == if top == Eps then c.input else c.input[1..]
    requires Reverse(c.stack[1..]) == [top] + rest && rest == Reverse(c.stack[1..|c.stack| - 1])
    ensures Tracks(g, input0, c', done + [top])
  {
    assert c'.stack[1..] == c.stack[1..|c.stack| - 1];
    Assoc(done, [top], rest);
    ConsumeOne(done, top, c.input, c'.input);
  }

  /** Popping moves a terminal from the input to the settled part, or an
      epsilon from nowhere; either way the settled part stays settled and
      still spells the consumed input. */
  lemma ConsumeOne(done: seq<Symbol>, top: Symbol, input: seq<Symbol>, input': seq<Symbol>)
    requires top == Eps || (top.T? && |input| > 0 && input[0] == top)
    requires input' == if top == Eps then input else input[1..]
    ensures WithoutEps(done + [top]) + input' == WithoutEps(done) + input
    ensures Settled(done) ==> Settled(done + [top])
  {
    WithoutEpsAppend(done, [top]);
    assert [top][1..] == [];
    if top != Eps {
      assert input == [top] + input';
    }
  }

  /** Expanding the top by an entry rewrites the leftmost non-terminal. */
  lemma ExpandedTracks(g: Grammar, input0: seq<Symbol>, c: Config, p: Production, done: seq<Symbol>, rest: seq<Symbol>)
    requires Wellformed(g, c) && |c.stack| > 1 && Tracks(g, input0, c, done)
    requires Top(c) == p.lhs && p.lhs.N? && g.eos !in p.rhs
    requires Reverse(c.stack[1..]) == [p.lhs] + rest && rest == Reverse(c.stack[1..|c.stack| - 1])
    ensures Tracks(g, input0, c.(stack := c.stack[..|c.stack| - 1] + Reverse(p.rhs), derivation := c.derivation + [p]), done)
  {
    Assoc(done, [p.lhs], rest);
    ApplyAfterSettled(done, p.lhs, rest, p);
    DeriveLast(g.start, c.derivation, p, done + [p.lhs] + rest);
    PushedReversed(c.stack, p.rhs);
    ReverseHas(p.rhs, g.eos);
    Assoc(done, p.rhs, rest);
  }

  lemma Assoc(a: seq<Symbol>, b: seq<Symbol>, c: seq<Symbol>)
    ensures a + (b + c) == (a + b) + c
  {
  }

  lemma DeriveLast(start: Symbol, ds: seq<Production>, p: Production, form: seq<Symbol>)
    requires Derive([start], ds) == Some(form)
    ensures Derive([start], ds + [p]) == Apply(form, p)
  {
    assert (ds + [p])[..|ds|] == ds;
  }

  /** The invariant holds when the loop stops. */
  lemma {:induction false} RunTracks(g: Grammar, table: LL1Table.Table, input0: seq<Symbol>, c: Config, done: seq<Symbol>, fuel: nat)
    returns (done': seq<Symbol>)
    requires Sane(g, table) && Wellformed(g, c) && Tracks(g, input0, c, done)
    ensures var r := Run(g, table, c, fuel); r.Ok? ==> Tracks(g, input0, r.value, done')
    decreases fuel
  {
    done' := done;
    if Top(c) != g.eos && fuel > 0 {
      var d := StepTracks(g, table, input0, c, done);
      var r := Step(g, table, c);
      if r.Ok? {
        RunStep(g, table, c, fuel);
        done' := RunTracks(g, table, input0, r.value, d, fuel - 1);
      }
    }
  }

  /** A run that does not stop at once is a step and then a run. */
  lemma RunStep(g: Grammar, table: LL1Table.Table, c: Config, fuel: nat)
    requires Wellformed(g, c) && Top(c) != g.eos && fuel > 0 && Step(g, table, c).Ok?
    ensures Wellformed(g, Step(g, table, c).value)
    ensures Run(g, table, c, fuel) == Run(g, table, Step(g, table, c).value, fuel - 1)
  {
  }

  /** When the loop stops the stack is down to the marker, so the recorded
      productions derive exactly the popped symbols. */
  lemma StoppedTracks(g: Grammar, input0: seq<Symbol>, c: Config, done: seq<Symbol>)
    requires Wellformed(g, c) && Top(c) == g.eos && Tracks(g, input0, c, done)
    ensures c.stack == [g.eos]
    ensures Derive([g.start], c.derivation) == Some(done)
  {
    assert c.stack[1..] == [];
    assert Reverse(c.stack[1..]) == [];
    assert done + [] == done;
  }

  /** What `get_LL1_derivation_seq` returns, for a table whose entries
      rewrite non-terminals: a leftmost derivation from the start symbol of a
      string of terminals (and epsilons) that spells a prefix of the input,
      not necessarily all of it. */
  lemma ParseSound<V>(g: Grammar, table: LL1Table.Table, tokens: seq<Token<V>>, fuel: nat)
    requires Sane(g, table)
    ensures var r := Parse(g, table, tokens, fuel);
      r.Ok? ==> var f := Derive([g.start], r.value);
        f.Some? && Settled(f.value) && WithoutEps(f.value) <= TokenSymbols(tokens)
  {
    var c := Initial(g, tokens);
    InitialTracks(g, tokens);
    var done := RunTracks(g, table, c.input, c, [], fuel);
    var r := Run(g, table, c, fuel);
    if r.Ok? {
      StoppedTracks(g, c.input, r.value, done);
      var w := WithoutEps(done);
      assert w + r.value.input == TokenSymbols(tokens) + [g.eos];
      assert w <= TokenSymbols(tokens) by {
        assert |r.value.input| > 0;
        assert w == (TokenSymbols(tokens) + [g.eos])[..|w|];
      }
    }
  }

  /** The corrected driver accepts only leftmost derivations of exactly the
      input. */
  lemma ParseAllSound<V>(g: Grammar, table: LL1Table.Table, tokens: seq<Token<V>>, fuel: nat)
    requires Sane(g, table)
    ensures var r := ParseAll(g, table, tokens, fuel);
      r.Ok? ==> var f := Derive([g.start], r.value);
        f.Some? && Settled(f.value) && WithoutEps(f.value) == TokenSymbols(tokens)
  {
    var c := Initial(g, tokens);
    InitialTracks(g, tokens);
    var done := RunTracks(g, table, c.input, c, [], fuel);
    var r := Run(g, table, c, fuel);
    if r.Ok? && r.value.input == [g.eos] {
      StoppedTracks(g, c.input, r.value, done);
      assert WithoutEps(done) + [g.eos] == TokenSymbols(tokens) + [g.eos];
    }
  }

  /** The corrected driver differs only by refusing leftover input. */
  lemma ParseAllIsParseWithoutLeftover<V>(g: Grammar, table: LL1Table.Table, tokens: seq<Token<V>>, fuel: nat)
    requires Sane(g, table)
    ensures ParseAll(g, table, tokens, fuel).Ok? ==> Parse(g, table, tokens, fuel) == ParseAll(g, table, tokens, fuel)
    ensures Parse(g, table, tokens, fuel).Err? ==> ParseAll(g, table, tokens, fuel) == Parse(g, table, tokens, fuel)
    ensures Parse(g, table, tokens, fuel).Ok? && !ParseAll(g, table, tokens, fuel).Ok? ==>
      ParseAll(g, table, tokens, fuel).error.Unfinished? && ParseAll(g, table, tokens, fuel).error.input != [g.eos]
  {
    var c := Initial(g, tokens);
    InitialTracks(g, tokens);
    var done := RunTracks(g, table, c.input, c, [], fuel);
    var r := Run(g, table, c, fuel);
    if r.Ok? {
      StoppedTracks(g, c.input, r.value, done);
    }
  }

  /** Every production the driver records comes from the table, so none has
      an empty right-hand side. */
  lemma StepExpanding(g: Grammar, table: LL1Table.Table, c: Config)
    requires Sane(g, table) && Wellformed(g, c) && Top(c) != g.eos && Expanding(c.derivation)
    ensures var r := Step(g, table, c); r.Ok? ==> Expanding(r.value.derivation)
  {
    var top, la := Top(c), c.input[0];
    if top != Eps && !(IsTerminal(top) && top == la) && top in table && la in table[top] {
      ExpandingSnoc(c.derivation, table[top][la]);
    }
  }

  lemma {:induction false} RunExpanding(g: Grammar, table: LL1Table.Table, c: Config, fuel: nat)
    requires Sane(g, table) && Wellformed(g, c) && Expanding(c.derivation)
    ensures var r := Run(g, table, c, fuel); r.Ok? ==> Expanding(r.value.derivation)
    decreases fuel
  {
    if Top(c) != g.eos && fuel > 0 {
      StepExpanding(g, table, c);
      match Step(g, table, c)
      case Err(_) =>
      case Ok(c') => RunExpanding(g, table, c', fuel - 1);
    }
  }

  lemma ParseAllExpanding<V>(g: Grammar, table: LL1Table.Table, tokens: seq<Token<V>>, fuel: nat)
    requires Sane(g, table)
    ensures var r := ParseAll(g, table, tokens, fuel); r.Ok? ==> Expanding(r.value)
  {
    RunExpanding(g, table, Initial(g, tokens), fuel);
  }
}

=== FILE: examples.dfy ===
/** Concrete grammars, tables and inputs: the expression grammar of
    tests/test_parser.py with its expected table and derivation, and the
    inputs on which the parser as written and the parser as evidently
    intended part ways. */
module Examples {
  import opened Results
  import opened Tokens
  import opened CFG
  import opened Derivations
  import opened LL1Table
  import opened Driver
  import opened SyntaxTree
  import Pipeline

  // The expression grammar `test_grammar_1`.
  const E := N("E")
  const ERest := N("E'")
  const Term := N("T")
  const TRest := N("T'")
  const F := N("F")
  const Dollar := N("$")
  const Plus := T("+")
  const Star := T("*")
  const Open := T("(")
  const Close := T(")")
  const Id := T("id")

  const ETerm := Production(E, [Term, ERest])
  const ESum := Production(ERest, [Plus, Term, ERest])
  const ESumEnd := Production(ERest, [Eps])
  const TFactor := Production(Term, [F, TRest])
  const TProduct := Production(TRest, [Star, F, TRest])
  const TProductEnd := Production(TRest, [Eps])
  const FParen := Production(F, [Open, E, Close])
  const FId := Production(F, [Id])

  const Expr := Grammar([ETerm, ESum, ESumEnd, TFactor, TProduct, TProductEnd, FParen, FId], E, Dollar)

  /** `expected_first_1`, terminals included. */
  const ExprFirst: SymbolSets := map[
    E := {Id, Open}, ERest := {Plus, Eps}, Term := {Id, Open}, TRest := {Star, Eps}, F := {Id, Open},
    Eps := {Eps}, Plus := {Plus}, Star := {Star}, Open := {Open}, Close := {Close}, Id := {Id}]

  /** `expected_follow_1`. */
  const ExprFollow: SymbolSets := map[
    E := {Dollar, Close}, ERest := {Dollar, Close}, Term := {Dollar, Close, Plus},
    TRest := {Dollar, Close, Plus}, F := {Dollar, Close, Plus, Star}]

  /** `expected_table_1`. */
  const ExprTable: Table := map[
    E := map[Id := ETerm, Open := ETerm],
    ERest := map[Plus := ESum, Close := ESumEnd, Dollar := ESumEnd],
    Term := map[Id := TFactor, Open := TFactor],
    TRest := map[Star := TProduct, Plus := TProductEnd, Close := TProductEnd, Dollar := TProductEnd],
    F := map[Id := FId, Open := FParen]]

  function Tok(tag: Tag): Token<int>
  {
    Token(tag, None)
  }

  /** `test_token_seq_1`: `id + ( id * id )`. */
  const ExprTokens: seq<Token<int>> := [Tok("id"), Tok("+"), Tok("("), Tok("id"), Tok("*"), Tok("id"), Tok(")")]

  /** `expected_derivations_1`. */
  const ExprDerivation := [ETerm, TFactor, FId, TProductEnd, ESum, TFactor, FParen, ETerm, TFactor, FId,
                           TProduct, FId, TProductEnd, ESumEnd, TProductEnd, ESumEnd]

  lemma ReverseOne(a: Symbol)
    ensures Reverse([a]) == [a]
  {
    assert [a][1..] == [];
  }

  lemma ReverseTwo(a: Symbol, b: Symbol)
    ensures Reverse([a, b]) == [b, a]
  {
    assert [a, b][1..] == [b];
    ReverseOne(b);
  }

  lemma ReverseThree(a: Symbol, b: Symbol, c: Symbol)
    ensures Reverse([a, b, c]) == [c, b, a]
  {
    assert [a, b, c][1..] == [b, c];
    ReverseTwo(b, c);
  }

  /** The configuration `c'` is what expanding production `p`, the table's
      entry for the top of `c` and its lookahead, leads to. */
  lemma Expands(g: Grammar, table: Table, c: Config, c': Config, below: seq<Symbol>, p: Production)
    requires Wellformed(g, c) && c.stack == below + [p.lhs]
    requires p.lhs != g.eos && p.lhs != Eps && !IsTerminal(p.lhs)
    requires p.lhs in table && c.input[0] in table[p.lhs] && table[p.lhs][c.input[0]] == p
    requires c'.stack == below + Reverse(p.rhs) && c'.input == c.input && c'.derivation == c.derivation + [p]
    ensures Top(c) != g.eos && Step(g, table, c) == Ok(c')
  {
    assert c.stack[..|c.stack| - 1] == below;
  }

  /** The configuration `c'` is what popping the epsilon or the matched
      terminal on top of `c` leads to. */
  lemma Pops(g: Grammar, table: Table, c: Config, c': Config, below: seq<Symbol>, top: Symbol)
    requires Wellformed(g, c) && c.stack == below + [top] && top != g.eos
    requires top == Eps || (IsTerminal(top) && top == c.input[0])
    requires c'.stack == below && c'.input == (if top == Eps then c.input else c.input[1..]) && c'.derivation == c.derivation
    ensures Top(c) != g.eos && Step(g, table, c) == Ok(c')
  {
    assert c.stack[..|c.stack| - 1] == below;
  }

  /** A run whose first step leads from `c` to `c'` ends where the run from
      `c'` ends. */
  lemma StepThen(g: Grammar, table: Table, c: Config, c': Config, fuel: nat, fin: Config)
    requires Wellformed(g, c) && Wellformed(g, c') && Top(c) != g.eos
    requires Step(g, table, c) == Ok(c')
    requires Run(g, table, c', fuel) == Ok(fin)
    ensures Run(g, table, c, fuel + 1) == Ok(fin)
  {
  }

  /** After `id`, with `)` ahead, the driver pops its way down to the marker
      in four steps. */
  lemma CloseAhead()
    ensures Run(Expr, ExprTable, Config([Dollar, ERest, TRest], [Close, Dollar], [ETerm, TFactor, FId]), 4)
         == Ok(Config([Dollar], [Close, Dollar], [ETerm, TFactor, FId, TProductEnd, ESumEnd]))
  {
    ReverseOne(Eps);
    var c4 := Config([Dollar, ERest, TRest], [Close, Dollar], [ETerm, TFactor, FId]);
    var c5 := Config([Dollar, ERest, Eps], [Close, Dollar], [ETerm, TFactor, FId, TProductEnd]);
    var c6 := Config([Dollar, ERest], [Close, Dollar], [ETerm, TFactor, FId, TProductEnd]);
    var c7 := Config([Dollar, Eps], [Close, Dollar], [ETerm, TFactor, FId, TProductEnd, ESumEnd]);
    var c8 := Config([Dollar], [Close, Dollar], [ETerm, TFactor, FId, TProductEnd, ESumEnd]);
    Expands(Expr, ExprTable, c4, c5, [Dollar, ERest], TProductEnd);
    Pops(Expr, ExprTable, c5, c6, [Dollar, ERest], Eps);
    Expands(Expr, ExprTable, c6, c7, [Dollar], ESumEnd);
    Pops(Expr, ExprTable, c7, c8, [Dollar], Eps);
    StepThen(Expr, ExprTable, c7, c8, 0, c8);
    StepThen(Expr, ExprTable, c6, c7, 1, c8);
    StepThen(Expr, ExprTable, c5, c6, 2, c8);
    StepThen(Expr, ExprTable, c4, c5, 3, c8);
  }

  /** From the start on `id )`, the driver reaches the marker in eight steps
      with `)` still unread. */
  lemma IdThenClose()
    ensures Run(Expr, ExprTable, Initial(Expr, [Tok("id"), Tok(")")]), 8)
         == Ok(Config([Dollar], [Close, Dollar], [ETerm, TFactor, FId, TProductEnd, ESumEnd]))
  {
    ReverseTwo(Term, ERest);
    ReverseTwo(F, TRest);
    ReverseOne(Id);
    var c0 := Config([Dollar, E], [Id, Close, Dollar], []);
    var c1 := Config([Dollar, ERest, Term], [Id, Close, Dollar], [ETerm]);
    var c2 := Config([Dollar, ERest, TRest, F], [Id, Close, Dollar], [ETerm, TFactor]);
    var c3 := Config([Dollar, ERest, TRest, Id], [Id, Close, Dollar], [ETerm, TFactor, FId]);
    var c4 := Config([Dollar, ERest, TRest], [Close, Dollar], [ETerm, TFactor, FId]);
    var c8 := Config([Dollar], [Close, Dollar], [ETerm, TFactor, FId, TProductEnd, ESumEnd]);
    Expands(Expr, ExprTable, c0, c1, [Dollar], ETerm);
    Expands(Expr, ExprTable, c1, c2, [Dollar, ERest], TFactor);
    Expands(Expr, ExprTable, c2, c3, [Dollar, ERest, TRest], FId);
    Pops(Expr, ExprTable, c3, c4, [Dollar, ERest, TRest], Id);
    CloseAhead();
    StepThen(Expr, ExprTable, c3, c4, 4, c8);
    StepThen(Expr, ExprTable, c2, c3, 5, c8);
    StepThen(Expr, ExprTable, c1, c2, 6, c8);
    StepThen(Expr, ExprTable, c0, c1, 7, c8);
    assert Initial(Expr, [Tok("id"), Tok(")")]) == c0;
  }

  /** On `id )` the driver as written stops as soon as the marker is on top
      and returns the derivation of `id` alone; the corrected driver refuses
      the unread `)`. */
  lemma LeftoverInput()
    ensures Parse(Expr, ExprTable, [Tok("id"), Tok(")")], 8) == Ok([ETerm, TFactor, FId, TProductEnd, ESumEnd])
    ensures ParseAll(Expr, ExprTable, [Tok("id"), Tok(")")], 8) == Err(Unfinished([Dollar], [Close, Dollar]))
  {
    IdThenClose();
  }

  /** `test_parse_1`: on `id + ( id * id )` the driver reaches the marker
      after 28 iterations with `expected_derivations_1` recorded and the
      input used up. Each lemma below covers four iterations and the rest of
      the run. */
  lemma ExprRun0()
    ensures Run(Expr, ExprTable, Config([Dollar, E], [Id, Plus, Open, Id, Star, Id, Close, Dollar], []), 28)
         == Ok(Config([Dollar], [Dollar], [ETerm, TFactor, FId, TProductEnd, ESum, TFactor, FParen, ETerm, TFactor, FId, TProduct, FId, TProductEnd, ESumEnd, TProductEnd, ESumEnd]))
  {
    var c0 := Config([Dollar, E], [Id, Plus, Open, Id, Star, Id, Close, Dollar], []);
    var c1 := Config([Dollar, ERest, Term], [Id, Plus, Open, Id, Star, Id, Close, Dollar], [ETerm]);
    var c2 := Config([Dollar, ERest, TRest, F], [Id, Plus, Open, Id, Star, Id, Close, Dollar], [ETerm, TFactor]);
    var c3 := Config([Dollar, ERest, TRest, Id], [Id, Plus, Open, Id, Star, Id, Close, Dollar], [ETerm, TFactor, FId]);
    var c4 := Config([Dollar, ERest, TRest], [Plus, Open, Id, Star, Id, Close, Dollar], [ETerm, TFactor, FId]);
    var c28 := Config([Dollar], [Dollar], [ETerm, TFactor, FId, TProductEnd, ESum, TFactor, FParen, ETerm, TFactor, FId, TProduct, FId, TProductEnd, ESumEnd, TProductEnd, ESumEnd]);
    ReverseTwo(Term, ERest);
    ReverseTwo(F, TRest);
    ReverseOne(Id);
    Expands(Expr, ExprTable, c0, c1, [Dollar], ETerm);
    Expands(Expr, ExprTable, c1, c2, [Dollar, ERest], TFactor);
    Expands(Expr, ExprTable, c2, c3, [Dollar, ERest, TRest], FId);
    Pops(Expr, ExprTable, c3, c4, [Dollar, ERest, TRest], Id);
    ExprRun4();
    StepThen(Expr, ExprTable, c3, c4, 24, c28);
    StepThen(Expr, ExprTable, c2, c3, 25, c28);
    StepThen(Expr, ExprTable, c1, c2, 26, c28);
    StepThen(Expr, ExprTable, c0, c1, 27, c28);
  }

  lemma ExprRun4()
    ensures Run(Expr, ExprTable, Config([Dollar, ERest, TRest], [Plus, Open, Id, Star, Id, Close, Dollar], [ETerm, TFactor, FId]), 24)
         == Ok(Config([Dollar], [Dollar], [ETerm, TFactor, FId, TProductEnd, ESum, TFactor, FParen, ETerm, TFactor, FId, TProduct, FId, TProductEnd, ESumEnd, TProductEnd, ESumEnd]))
  {
    var c4 := Config([Dollar, ERest, TRest], [Plus, Open, Id, Star, Id, Close, Dollar], [ETerm, TFactor, FId]);
    var c5 := Config([Dollar, ERest, Eps], [Plus, Open, Id, Star, Id, Close, Dollar], [ETerm, TFactor, FId, TProductEnd]);
    var c6 := Config([Dollar, ERest], [Plus, Open, Id, Star, Id, Close, Dollar], [ETerm, TFactor, FId, TProductEnd]);
    var c7 := Config([Dollar, ERest, Term, Plus], [Plus, Open, Id, Star, Id, Close, Dollar], [ETerm, TFactor, FId, TProductEnd, ESum]);
    var c8 := Config([Dollar, ERest, Term], [Open, Id, Star, Id, Close, Dollar], [ETerm, TFactor, FId, TProductEnd, ESum]);
    var c28 := Config([Dollar], [Dollar], [ETerm, TFactor, FId, TProductEnd, ESum, TFactor, FParen, ETerm, TFactor, FId, TProduct, FId, TProductEnd, ESumEnd, TProductEnd, ESumEnd]);
    ReverseOne(Eps);
    ReverseThree(Plus, Term, ERest);
    Expands(Expr, ExprTable, c4, c5, [Dollar, ERest], TProductEnd);
    Pops(Expr, ExprTable, c5, c6, [Dollar, ERest], Eps);
    Expands(Expr, ExprTable, c6, c7, [Dollar], ESum);
    Pops(Expr, ExprTable, c7, c8, [Dollar, ERest, Term], Plus);
    ExprRun8();
    StepThen(Expr, ExprTable, c7, c8, 20, c28);
    StepThen(Expr, ExprTable, c6, c7, 21, c28);
    StepThen(Expr, ExprTable, c5, c6, 22, c28);
    StepThen(Expr, ExprTable, c4, c5, 23, c28);
  }

  lemma ExprRun8()
    ensures Run(Expr, ExprTable, Config([Dollar, ERest, Term], [Open, Id, Star, Id, Close, Dollar], [ETerm, TFactor, FId, TProductEnd, ESum]), 20)
         == Ok(Config([Dollar], [Dollar], [ETerm, TFactor, FId, TProductEnd, ESum, TFactor, FParen, ETerm, TFactor, FId, TProduct, FId, TProductEnd, ESumEnd, TProductEnd, ESumEnd]))
  {
    var c8 := Config([Dollar, ERest, Term], [Open, Id, Star, Id, Close, Dollar], [ETerm, TFactor, FId, TProductEnd, ESum]);
    var c9 := Config([Dollar, ERest, TRest, F], [Open, Id, Star, Id, Close, Dollar], [ETerm, TFactor, FId, TProductEnd, ESum, TFactor]);
    var c10 := Config([Dollar, ERest, TRest, Close, E, Open], [Open, Id, Star, Id, Close, Dollar], [ETerm, TFactor, FId, TProductEnd, ESum, TFactor, FParen]);
    var c11 := Config([Dollar, ERest, TRest, Close, E], [Id, Star, Id, Close, Dollar], [ETerm, TFactor, FId, TProductEnd, ESum, TFactor, FParen]);
    var c12 := Config([Dollar, ERest, TRest, Close, ERest, Term], [Id, Star, Id, Close, Dollar], [ETerm, TFactor, FId, TProductEnd, ESum, TFactor, FParen, ETerm]);
    var c28 := Config([Dollar], [Dollar], [ETerm, TFactor, FId, TProductEnd, ESum, TFactor, FParen, ETerm, TFactor, FId, TProduct, FId, TProductEnd, ESumEnd, TProductEnd, ESumEnd]);
    ReverseTwo(F, TRest);
    ReverseThree(Open, E, Close);
    ReverseTwo(Term, ERest);
    Expands(Expr, ExprTable, c8, c9, [Dollar, ERest], TFactor);
    Expands(Expr, ExprTable, c9, c10, [Dollar, ERest, TRest], FParen);
    Pops(Expr, ExprTable, c10, c11, [Dollar, ERest, TRest, Close, E], Open);
    Expands(Expr, ExprTable, c11, c12, [Dollar, ERest, TRest, Close], ETerm);
    ExprRun12();
    StepThen(Expr, ExprTable, c11, c12, 16, c28);
    StepThen(Expr, ExprTable, c10, c11, 17, c28);
    StepThen(Expr, ExprTable, c9, c10, 18, c28);
    StepThen(Expr, ExprTable, c8, c9, 19, c28);
  }

  lemma ExprRun12()
    ensures Run(Expr, ExprTable, Config([Dollar, ERest, TRest, Close, ERest, Term], [Id, Star, Id, Close, Dollar], [ETerm, TFactor, FId, TProductEnd, ESum, TFactor, FParen, ETerm]), 16)
         == Ok(Config([Dollar], [Dollar], [ETerm, TFactor, FId, TProductEnd, ESum, TFactor, FParen, ETerm, TFactor, FId, TProduct, FId, TProductEnd, ESumEnd, TProductEnd, ESumEnd]))
  {
    var c12 := Config([Dollar, ERest, TRest, Close, ERest, Term], [Id, Star, Id, Close, Dollar], [ETerm, TFactor, FId, TProductEnd, ESum, TFactor, FParen, ETerm]);
    var c13 := Config([Dollar, ERest, TRest, Close, ERest, TRest, F], [Id, Star, Id, Close, Dollar], [ETerm, TFactor, FId, TProductEnd, ESum, TFactor, FParen, ETerm, TFactor]);
    var c14 := Config([Dollar, ERest, TRest, Close, ERest, TRest, Id], [Id, Star, Id, Close, Dollar], [ETerm, TFactor, FId, TProductEnd, ESum, TFactor, FParen, ETerm, TFactor, FId]);
    var c15 := Config([Dollar, ERest, TRest, Close, ERest, TRest], [Star, Id, Close, Dollar], [ETerm, TFactor, FId, TProductEnd, ESum, TFactor, FParen, ETerm, TFactor, FId]);
    var c16 := Config([Dollar, ERest, TRest, Close, ERest, TRest, F, Star], [Star, Id, Close, Dollar], [ETerm, TFactor, FId, TProductEnd, ESum, TFactor, FParen, ETerm, TFactor, FId, TProduct]);
    var c28 := Config([Dollar], [Dollar], [ETerm, TFactor, FId, TProductEnd, ESum, TFactor, FParen, ETerm, TFactor, FId, TProduct, FId, TProductEnd, ESumEnd, TProductEnd, ESumEnd]);
    ReverseTwo(F, TRest);
    ReverseOne(Id);
    ReverseThree(Star, F, TRest);
    Expands(Expr, ExprTable, c12, c13, [Dollar, ERest, TRest, Close, ERest], TFactor);
    Expands(Expr, ExprTable, c13, c14, [Dollar, ERest, TRest, Close, ERest, TRest], FId);
    Pops(Expr, ExprTable, c14, c15, [Dollar, ERest, TRest, Close, ERest, TRest], Id);
    Expands(Expr, ExprTable, c15, c16, [Dollar, ERest, TRest, Close, ERest], TProduct);
    ExprRun16();
    StepThen(Expr, ExprTable, c15, c16, 12, c28);
    StepThen(Expr, ExprTable, c14, c15, 13, c28);
    StepThen(Expr, ExprTable, c13, c14, 14, c28);
    StepThen(Expr, ExprTable, c12, c13, 15, c28);
  }

  lemma ExprRun16()
    ensures Run(Expr, ExprTable, Config([Dollar, ERest, TRest, Close, ERest, TRest, F, Star], [Star, Id, Close, Dollar], [ETerm, TFactor, FId, TProductEnd, ESum, TFactor, FParen, ETerm, TFactor, FId, TProduct]), 12)
         == Ok(Config([Dollar], [Dollar], [ETerm, TFactor, FId, TProductEnd, ESum, TFactor, FParen, ETerm, TFactor, FId, TProduct, FId, TProductEnd, ESumEnd, TProductEnd, ESumEnd]))
  {
    var c16 := Config([Dollar, ERest, TRest, Close, ERest, TRest, F, Star], [Star, Id, Close, Dollar], [ETerm, TFactor, FId, TProductEnd, ESum, TFactor, FParen, ETerm, TFactor, FId, TProduct]);
    var c17 := Config([Dollar, ERest, TRest, Close, ERest, TRest, F], [Id, Close, Dollar], [ETerm, TFactor, FId, TProductEnd, ESum, TFactor, FParen, ETerm, TFactor, FId, TProduct]);
    var c18 := Config([Dollar, ERest, TRest, Close, ERest, TRest, Id], [Id, Close, Dollar], [ETerm, TFactor, FId, TProductEnd, ESum, TFactor, FParen, ETerm, TFactor, FId, TProduct, FId]);
    var c19 := Config([Dollar, ERest, TRest, Close, ERest, TRest], [Close, Dollar], [ETerm, TFactor, FId, TProductEnd, ESum, TFactor, FParen, ETerm, TFactor, FId, TProduct, FId]);
    var c20 := Config([Dollar, ERest, TRest, Close, ERest, Eps], [Close, Dollar], [ETerm, TFactor, FId, TProductEnd, ESum, TFactor, FParen, ETerm, TFactor, FId, TProduct, FId, TProductEnd]);
    var c28 := Config([Dollar], [Dollar], [ETerm, TFactor, FId, TProductEnd, ESum, TFactor, FParen, ETerm, TFactor, FId, TProduct, FId, TProductEnd, ESumEnd, TProductEnd, ESumEnd]);
    ReverseOne(Id);
    ReverseOne(Eps);
    Pops(Expr, ExprTable, c16, c17, [Dollar, ERest, TRest, Close, ERest, TRest, F], Star);
    Expands(Expr, ExprTable, c17, c18, [Dollar, ERest, TRest, Close, ERest, TRest], FId);
    Pops(Expr, ExprTable, c18, c19, [Dollar, ERest, TRest, Close, ERest, TRest], Id);
    Expands(Expr, ExprTable, c19, c20, [Dollar, ERest, TRest, Close, ERest], TProductEnd);
    ExprRun20();
    StepThen(Expr, ExprTable, c19, c20, 8, c28);
    StepThen(Expr, ExprTable, c18, c19, 9, c28);
    StepThen(Expr, ExprTable, c17, c18, 10, c28);
    StepThen(Expr, ExprTable, c16, c17, 11, c28);
  }

  lemma ExprRun20()
    ensures Run(Expr, ExprTable, Config([Dollar, ERest, TRest, Close, ERest, Eps], [Close, Dollar], [ETerm, TFactor, FId, TProductEnd, ESum, TFactor, FParen, ETerm, TFactor, FId, TProduct, FId, TProductEnd]), 8)
         == Ok(Config([Dollar], [Dollar], [ETerm, TFactor, FId, TProductEnd, ESum, TFactor, FParen, ETerm, TFactor, FId, TProduct, FId, TProductEnd, ESumEnd, TProductEnd, ESumEnd]))
  {
    var c20 := Config([Dollar, ERest, TRest, Close, ERest, Eps], [Close, Dollar], [ETerm, TFactor, FId, TProductEnd, ESum, TFactor, FParen, ETerm, TFactor, FId, TProduct, FId, TProductEnd]);
    var c21 := Config([Dollar, ERest, TRest, Close, ERest], [Close, Dollar], [ETerm, TFactor, FId, TProductEnd, ESum, TFactor, FParen, ETerm, TFactor, FId, TProduct, FId, TProductEnd]);
    var c22 := Config([Dollar, ERest, TRest, Close, Eps], [Close, Dollar], [ETerm, TFactor, FId, TProductEnd, ESum, TFactor, FParen, ETerm, TFactor, FId, TProduct, FId, TProductEnd, ESumEnd]);
    var c23 := Config([Dollar, ERest, TRest, Close], [Close, Dollar], [ETerm, TFactor, FId, TProductEnd, ESum, TFactor, FParen, ETerm, TFactor, FId, TProduct, FId, TProductEnd, ESumEnd]);
    var c24 := Config([Dollar, ERest, TRest], [Dollar], [ETerm, TFactor, FId, TProductEnd, ESum, TFactor, FParen, ETerm, TFactor, FId, TProduct, FId, TProductEnd, ESumEnd]);
    var c28 := Config([Dollar], [Dollar], [ETerm, TFactor, FId, TProductEnd, ESum, TFactor, FParen, ETerm, TFactor, FId, TProduct, FId, TProductEnd, ESumEnd, TProductEnd, ESumEnd]);
    ReverseOne(Eps);
    Pops(Expr, ExprTable, c20, c21, [Dollar, ERest, TRest, Close, ERest], Eps);
    Expands(Expr, ExprTable, c21, c22, [Dollar, ERest, TRest, Close], ESumEnd);
    Pops(Expr, ExprTable, c22, c23, [Dollar, ERest, TRest, Close], Eps);
    Pops(Expr, ExprTable, c23, c24, [Dollar, ERest, TRest], Close);
    ExprRun24();
    StepThen(Expr, ExprTable, c23, c24, 4, c28);
    StepThen(Expr, ExprTable, c22, c23, 5, c28);
    StepThen(Expr, ExprTable, c21, c22, 6, c28);
    StepThen(Expr, ExprTable, c20, c21, 7, c28);
  }

  lemma ExprRun24()
    ensures Run(Expr, ExprTable, Config([Dollar, ERest, TRest], [Dollar], [ETerm, TFactor, FId, TProductEnd, ESum, TFactor, FParen, ETerm, TFactor, FId, TProduct, FId, TProductEnd, ESumEnd]), 4)
         == Ok(Config([Dollar], [Dollar], [ETerm, TFactor, FId, TProductEnd, ESum, TFactor, FParen, ETerm, TFactor, FId, TProduct, FId, TProductEnd, ESumEnd, TProductEnd, ESumEnd]))
  {
    var c24 := Config([Dollar, ERest, TRest], [Dollar], [ETerm, TFactor, FId, TProductEnd, ESum, TFactor, FParen, ETerm, TFactor, FId, TProduct, FId, TProductEnd, ESumEnd]);
    var c25 := Config([Dollar, ERest, Eps], [Dollar], [ETerm, TFactor, FId, TProductEnd, ESum, TFactor, FParen, ETerm, TFactor, FId, TProduct, FId, TProductEnd, ESumEnd, TProductEnd]);
    var c26 := Config([Dollar, ERest], [Dollar], [ETerm, TFactor, FId, TProductEnd, ESum, TFactor, FParen, ETerm, TFactor, FId, TProduct, FId, TProductEnd, ESumEnd, TProductEnd]);
    var c27 := Config([Dollar, Eps], [Dollar], [ETerm, TFactor, FId, TProductEnd, ESum, TFactor, FParen, ETerm, TFactor, FId, TProduct, FId, TProductEnd, ESumEnd, TProductEnd, ESumEnd]);
    var c28 := Config([Dollar], [Dollar], [ETerm, TFactor, FId, TProductEnd, ESum, TFactor, FParen, ETerm, TFactor, FId, TProduct, FId, TProductEnd, ESumEnd, TProductEnd, ESumEnd]);
    ReverseOne(Eps);
    ReverseOne(Eps);
    Expands(Expr, ExprTable, c24, c25, [Dollar, ERest], TProductEnd);
    Pops(Expr, ExprTable, c25, c26, [Dollar, ERest], Eps);
    Expands(Expr, ExprTable, c26, c27, [Dollar], ESumEnd);
    Pops(Expr, ExprTable, c27, c28, [Dollar], Eps);
    assert Run(Expr, ExprTable, c28, 0) == Ok(c28);
    StepThen(Expr, ExprTable, c27, c28, 0, c28);
    StepThen(Expr, ExprTable, c26, c27, 1, c28);
    StepThen(Expr, ExprTable, c25, c26, 2, c28);
    StepThen(Expr, ExprTable, c24, c25, 3, c28);
  }

  /** `test_parse_1`: the driver, as written and corrected, returns
      `expected_derivations_1` for `test_token_seq_1`. */
  lemma ExprParse()
    ensures Parse(Expr, ExprTable, ExprTokens, 28) == Ok(ExprDerivation)
    ensures ParseAll(Expr, ExprTable, ExprTokens, 28) == Ok(ExprDerivation)
  {
    assert InputSymbols(ExprTokens, Dollar) == [Id, Plus, Open, Id, Star, Id, Close, Dollar];
    ExprRun0();
  }

  /** `test_syntax_node_parse_1`: the tree builder as written succeeds on
      `expected_derivations_1` and uses every production of it, building the
      same tree as the corrected builder, since epsilon stands alone in every
      right-hand side of the expression grammar. */
  lemma ExprTree()
    ensures BuildTree<int>(LastSymbol, ExprDerivation) == BuildTree<int>(EachChild, ExprDerivation)
    ensures BuildTree<int>(LastSymbol, ExprDerivation).Ok?
    ensures BuildTree<int>(LastSymbol, ExprDerivation).value.1 == |ExprDerivation|
  {
    ExprTreeCorrected();
    ExprEpsAlone();
    FiltersAgreeExpand<int>(ExprDerivation, ExprDerivation[0].lhs, 0);
  }

  lemma ExprTreeCorrected()
    ensures BuildTree<int>(EachChild, ExprDerivation).Ok?
    ensures BuildTree<int>(EachChild, ExprDerivation).value.1 == |ExprDerivation|
  {
    ExprParse();
    ExprSane();
    Pipeline.AcceptedInputTokenises(Expr, ExprTable, ExprTokens, 28);
  }

  lemma ExprEpsAlone()
    ensures EpsAloneAll(ExprDerivation)
  {
  }

  /** The entries of `expected_table_1` rewrite non-terminals, never to
      nothing and never to the marker. */
  lemma ExprSane()
    ensures Sane(Expr, ExprTable)
  {
    ExprNamesDistinct();
  }

  /** `test_table_1`: the builder as written turns `test_grammar_1`,
      `expected_first_1` and `expected_follow_1` into `expected_table_1`. */
  lemma ExprTableBuilds()
    ensures BuildTable(Expr, ExprFirst, ExprFollow, AsWritten) == Ok(ExprTable)
  {
    ExprTableFrom0();
  }

  /** The symbols of `test_grammar_1` are pairwise distinct. */
  lemma ExprNamesDistinct()
    ensures E != ERest && E != Term && E != TRest && E != F && E != Dollar
    ensures ERest != Term && ERest != TRest && ERest != F && ERest != Dollar
    ensures Term != TRest && Term != F && Term != Dollar && TRest != F && TRest != Dollar && F != Dollar
    ensures Plus != Star && Plus != Open && Plus != Close && Plus != Id
    ensures Star != Open && Star != Close && Star != Id && Open != Close && Open != Id && Close != Id
  {
    assert E.name[0] != Term.name[0] && E.name[0] != F.name[0] && Term.name[0] != F.name[0];
    assert Dollar.name[0] != E.name[0] && Dollar.name[0] != Term.name[0] && Dollar.name[0] != F.name[0];
    assert Plus.tag[0] != Star.tag[0] && Plus.tag[0] != Open.tag[0] && Plus.tag[0] != Close.tag[0] && Plus.tag[0] != Id.tag[0];
    assert Star.tag[0] != Open.tag[0] && Star.tag[0] != Close.tag[0] && Star.tag[0] != Id.tag[0];
    assert Open.tag[0] != Close.tag[0] && Open.tag[0] != Id.tag[0] && Close.tag[0] != Id.tag[0];
  }

  /** The productions of `test_grammar_1`, by index. */
  lemma ExprProductions()
    ensures Expr.productions[0] == ETerm && Expr.productions[1] == ESum && Expr.productions[2] == ESumEnd
    ensures Expr.productions[3] == TFactor && Expr.productions[4] == TProduct && Expr.productions[5] == TProductEnd
    ensures Expr.productions[6] == FParen && Expr.productions[7] == FId && |Expr.productions| == 8
  {
  }

  /** The table after each production of `test_grammar_1`, as `build_LL1_table` fills it. */
  const ExprTable1: Table := map[E := map[Id := ETerm, Open := ETerm]]
  const ExprTable2: Table := map[E := map[Id := ETerm, Open := ETerm], ERest := map[Plus := ESum]]
  const ExprTable3: Table := map[E := map[Id := ETerm, Open := ETerm], ERest := map[Plus := ESum, Close := ESumEnd, Dollar := ESumEnd]]
  const ExprTable4: Table := map[E := map[Id := ETerm, Open := ETerm], ERest := map[Plus := ESum, Close := ESumEnd, Dollar := ESumEnd], Term := map[Id := TFactor, Open := TFactor]]
  const ExprTable5: Table := map[E := map[Id := ETerm, Open := ETerm], ERest := map[Plus := ESum, Close := ESumEnd, Dollar := ESumEnd], Term := map[Id := TFactor, Open := TFactor], TRest := map[Star := TProduct]]
  const ExprTable6: Table := map[E := map[Id := ETerm, Open := ETerm], ERest := map[Plus := ESum, Close := ESumEnd, Dollar := ESumEnd], Term := map[Id := TFactor, Open := TFactor], TRest := map[Star := TProduct, Plus := TProductEnd, Close := TProductEnd, Dollar := TProductEnd]]
  const ExprTable7: Table := map[E := map[Id := ETerm, Open := ETerm], ERest := map[Plus := ESum, Close := ESumEnd, Dollar := ESumEnd], Term := map[Id := TFactor, Open := TFactor], TRest := map[Star := TProduct, Plus := TProductEnd, Close := TProductEnd, Dollar := TProductEnd], F := map[Open := FParen]]
  const ExprTable8: Table := map[E := map[Id := ETerm, Open := ETerm], ERest := map[Plus := ESum, Close := ESumEnd, Dollar := ESumEnd], Term := map[Id := TFactor, Open := TFactor], TRest := map[Star := TProduct, Plus := TProductEnd, Close := TProductEnd, Dollar := TProductEnd], F := map[Open := FParen, Id := FId]]

  /** `build_LL1_table` on production 0 of `test_grammar_1`. */
  lemma ExprTableStep0()
    ensures AddProduction(ExprFirst, ExprFollow, AsWritten, map[], ETerm) == Ok(ExprTable1)
  {
    var p := ETerm;
    var row: map<Symbol, Production> := map[];
    ExprNamesDistinct();
    assert RhsFirst(ExprFirst, p.rhs, AsWritten) == Ok({Id, Open});
    assert {Id, Open} - {Eps} == {Id, Open};
    assert {Id, Open} * row.Keys == {};
    FillPair(row, Id, Open, p);
    assert Fill(row, {Id, Open}, p) == map[Id := ETerm, Open := ETerm];
  }

  /** `build_LL1_table` on production 1 of `test_grammar_1`. */
  lemma ExprTableStep1()
    ensures AddProduction(ExprFirst, ExprFollow, AsWritten, ExprTable1, ESum) == Ok(ExprTable2)
  {
    var p := ESum;
    var row: map<Symbol, Production> := map[];
    ExprNamesDistinct();
    assert RhsFirst(ExprFirst, p.rhs, AsWritten) == Ok({Plus});
    assert {Plus} - {Eps} == {Plus};
    assert {Plus} * row.Keys == {};
    FillOne(row, Plus, p);
    assert Fill(row, {Plus}, p) == map[Plus := ESum];
  }

  /** `build_LL1_table` on production 2 of `test_grammar_1`. */
  lemma ExprTableStep2()
    ensures AddProduction(ExprFirst, ExprFollow, AsWritten, ExprTable2, ESumEnd) == Ok(ExprTable3)
  {
    var p := ESumEnd;
    var row: map<Symbol, Production> := map[Plus := ESum];
    ExprNamesDistinct();
    assert ExprTable2[ERest] == row;
    assert p.rhs == [Eps] && {Eps} + {} == {Eps};
    assert ExprFirst[Eps] == {Eps};
    assert [Eps][1..] == [];
    assert RhsFirst(ExprFirst, [], AsWritten) == Ok({});
    assert RhsFirst(ExprFirst, [Eps], AsWritten) == Ok({Eps} + {});
    assert RhsFirst(ExprFirst, p.rhs, AsWritten) == Ok({Eps});
    assert {Eps} - {Eps} == {};
    assert {} * row.Keys == {};
    FillNone(row, p);
    assert Fill(row, {}, p) == map[Plus := ESum];
    assert ExprFollow[ERest] == {Close, Dollar};
    assert {Close, Dollar} * map[Plus := ESum].Keys == {};
    FillPair(map[Plus := ESum], Close, Dollar, p);
    assert Fill(map[Plus := ESum], {Close, Dollar}, p) == map[Plus := ESum, Close := ESumEnd, Dollar := ESumEnd];
    assert ExprTable2[ERest := map[Plus := ESum, Close := ESumEnd, Dollar := ESumEnd]] == ExprTable3;
  }

  /** `build_LL1_table` on production 3 of `test_grammar_1`. */
  lemma ExprTableStep3()
    ensures AddProduction(ExprFirst, ExprFollow, AsWritten, ExprTable3, TFactor) == Ok(ExprTable4)
  {
    var p := TFactor;
    var row: map<Symbol, Production> := map[];
    ExprNamesDistinct();
    assert RhsFirst(ExprFirst, p.rhs, AsWritten) == Ok({Id, Open});
    assert {Id, Open} - {Eps} == {Id, Open};
    assert {Id, Open} * row.Keys == {};
    FillPair(row, Id, Open, p);
    assert Fill(row, {Id, Open}, p) == map[Id := TFactor, Open := TFactor];
  }

  /** `build_LL1_table` on production 4 of `test_grammar_1`. */
  lemma ExprTableStep4()
    ensures AddProduction(ExprFirst, ExprFollow, AsWritten, ExprTable4, TProduct) == Ok(ExprTable5)
  {
    var p := TProduct;
    var row: map<Symbol, Production> := map[];
    ExprNamesDistinct();
    assert RhsFirst(ExprFirst, p.rhs, AsWritten) == Ok({Star});
    assert {Star} - {Eps} == {Star};
    assert {Star} * row.Keys == {};
    FillOne(row, Star, p);
    assert Fill(row, {Star}, p) == map[Star := TProduct];
  }

  /** `build_LL1_table` on production 5 of `test_grammar_1`. */
  lemma ExprTableStep5()
    ensures AddProduction(ExprFirst, ExprFollow, AsWritten, ExprTable5, TProductEnd) == Ok(ExprTable6)
  {
    var p := TProductEnd;
    var row: map<Symbol, Production> := map[Star := TProduct];
    ExprNamesDistinct();
    assert ExprTable5[TRest] == row;
    assert p.rhs == [Eps] && {Eps} + {} == {Eps};
    assert ExprFirst[Eps] == {Eps};
    assert [Eps][1..] == [];
    assert RhsFirst(ExprFirst, [], AsWritten) == Ok({});
    assert RhsFirst(ExprFirst, [Eps], AsWritten) == Ok({Eps} + {});
    assert RhsFirst(ExprFirst, p.rhs, AsWritten) == Ok({Eps});
    assert {Eps} - {Eps} == {};
    assert {} * row.Keys == {};
    FillNone(row, p);
    assert Fill(row, {}, p) == map[Star := TProduct];
    assert ExprFollow[TRest] == {Plus, Close, Dollar};
    assert {Plus, Close, Dollar} * map[Star := TProduct].Keys == {};
    FillTriple(map[Star := TProduct], Plus, Close, Dollar, p);
    assert Fill(map[Star := TProduct], {Plus, Close, Dollar}, p) == map[Star := TProduct, Plus := TProductEnd, Close := TProductEnd, Dollar := TProductEnd];
    assert ExprTable5[TRest := map[Star := TProduct, Plus := TProductEnd, Close := TProductEnd, Dollar := TProductEnd]] == ExprTable6;
  }

  /** `build_LL1_table` on production 6 of `test_grammar_1`. */
  lemma ExprTableStep6()
    ensures AddProduction(ExprFirst, ExprFollow, AsWritten, ExprTable6, FParen) == Ok(ExprTable7)
  {
    var p := FParen;
    var row: map<Symbol, Production> := map[];
    ExprNamesDistinct();
    assert RhsFirst(ExprFirst, p.rhs, AsWritten) == Ok({Open});
    assert {Open} - {Eps} == {Open};
    assert {Open} * row.Keys == {};
    FillOne(row, Open, p);
    assert Fill(row, {Open}, p) == map[Open := FParen];
  }

  /** `build_LL1_table` on production 7 of `test_grammar_1`. */
  lemma ExprTableStep7()
    ensures AddProduction(ExprFirst, ExprFollow, AsWritten, ExprTable7, FId) == Ok(ExprTable8)
  {
    var p := FId;
    var row: map<Symbol, Production> := map[Open := FParen];
    ExprNamesDistinct();
    assert ExprTable7[F] == row;
    assert RhsFirst(ExprFirst, p.rhs, AsWritten) == Ok({Id});
    assert {Id} - {Eps} == {Id};
    assert {Id} * row.Keys == {};
    FillOne(row, Id, p);
    assert Fill(row, {Id}, p) == map[Open := FParen, Id := FId];
    assert ExprTable7[F := map[Open := FParen, Id := FId]] == ExprTable8;
  }

  lemma ExprTableFrom0()
    ensures BuildFrom(Expr, ExprFirst, ExprFollow, AsWritten, 0, map[]) == Ok(ExprTable)
  {
    ExprTableStep0();
    BuildFromStep(Expr, ExprFirst, ExprFollow, AsWritten, 0, map[]);
    ExprTableFrom1();
  }

  lemma ExprTableFrom1()
    ensures BuildFrom(Expr, ExprFirst, ExprFollow, AsWritten, 1, ExprTable1) == Ok(ExprTable)
  {
    ExprTableStep1();
    BuildFromStep(Expr, ExprFirst, ExprFollow, AsWritten, 1, ExprTable1);
    ExprTableFrom2();
  }

  lemma ExprTableFrom2()
    ensures BuildFrom(Expr, ExprFirst, ExprFollow, AsWritten, 2, ExprTable2) == Ok(ExprTable)
  {
    ExprTableStep2();
    BuildFromStep(Expr, ExprFirst, ExprFollow, AsWritten, 2, ExprTable2);
    ExprTableFrom3();
  }

  lemma ExprTableFrom3()
    ensures BuildFrom(Expr, ExprFirst, ExprFollow, AsWritten, 3, ExprTable3) == Ok(ExprTable)
  {
    ExprTableStep3();
    BuildFromStep(Expr, ExprFirst, ExprFollow, AsWritten, 3, ExprTable3);
    ExprTableFrom4();
  }

  lemma ExprTableFrom4()
    ensures BuildFrom(Expr, ExprFirst, ExprFollow, AsWritten, 4, ExprTable4) == Ok(ExprTable)
  {
    ExprTableStep4();
    BuildFromStep(Expr, ExprFirst, ExprFollow, AsWritten, 4, ExprTable4);
    ExprTableFrom5();
  }

  lemma ExprTableFrom5()
    ensures BuildFrom(Expr, ExprFirst, ExprFollow, AsWritten, 5, ExprTable5) == Ok(ExprTable)
  {
    ExprTableStep5();
    BuildFromStep(Expr, ExprFirst, ExprFollow, AsWritten, 5, ExprTable5);
    ExprTableFrom6();
  }

  lemma ExprTableFrom6()
    ensures BuildFrom(Expr, ExprFirst, ExprFollow, AsWritten, 6, ExprTable6) == Ok(ExprTable)
  {
    ExprTableStep6();
    BuildFromStep(Expr, ExprFirst, ExprFollow, AsWritten, 6, ExprTable6);
    ExprTableFrom7();
  }

  lemma ExprTableFrom7()
    ensures BuildFrom(Expr, ExprFirst, ExprFollow, AsWritten, 7, ExprTable7) == Ok(ExprTable)
  {
    ExprTableStep7();
    BuildFromStep(Expr, ExprFirst, ExprFollow, AsWritten, 7, ExprTable7);
    ExprTableFrom8();
  }

  lemma ExprTableFrom8()
    ensures BuildFrom(Expr, ExprFirst, ExprFollow, AsWritten, 8, ExprTable8) == Ok(ExprTable)
  {
    ExprNamesDistinct();
    assert ExprTable[E] == map[Id := ETerm, Open := ETerm];
    assert ExprTable[ERest] == map[Plus := ESum, Close := ESumEnd, Dollar := ESumEnd];
    assert ExprTable[Term] == map[Id := TFactor, Open := TFactor];
    assert ExprTable[TRest] == map[Star := TProduct, Plus := TProductEnd, Close := TProductEnd, Dollar := TProductEnd];
    assert ExprTable[F] == map[Open := FParen, Id := FId];
    assert ExprTable8 == ExprTable;
  }

  /** The symbols of a grammar on which the FIRST walk of `build_LL1_table`
      goes wrong: S -> A x, A -> B c | eps, B -> eps, with end-of-string
      marker `eos`. The grammar is LL(1): A is entered under c for A -> B c
      and under FOLLOW(A) = {x} for A -> eps. */
  datatype Names = Names(s: Symbol, a: Symbol, b: Symbol, x: Symbol, c: Symbol, eos: Symbol)

  /** Three distinct non-terminals, two distinct terminals and a marker
      that is none of them. */
  predicate Distinct(n: Names)
  {
    && n.s.N? && n.a.N? && n.b.N? && n.eos.N? && n.x.T? && n.c.T?
    && n.s != n.a && n.s != n.b && n.a != n.b && n.x != n.c
    && n.eos != n.s && n.eos != n.a && n.eos != n.b
  }

  function Tail(n: Names): Grammar
  {
    Grammar([Production(n.s, [n.a, n.x]), Production(n.a, [n.b, n.c]), Production(n.a, [Eps]), Production(n.b, [Eps])], n.s, n.eos)
  }

  /** The FIRST sets of `Tail(n)`, epsilon and the terminals included. */
  function TailFirst(n: Names): SymbolSets
  {
    map[n.s := {n.c, n.x}, n.a := {n.c, Eps}, n.b := {Eps}, n.x := {n.x}, n.c := {n.c}, Eps := {Eps}]
  }

  /** The FOLLOW sets of `Tail(n)`. */
  function TailFollow(n: Names): SymbolSets
  {
    map[n.s := {n.eos}, n.a := {n.x}, n.b := {n.c}]
  }

  /** The walk over S -> A x: A can vanish, x cannot. As written, epsilon
      is kept from FIRST(A). */
  lemma WalkSAx(n: Names)
    requires Distinct(n)
    ensures RhsFirst(TailFirst(n), [n.a, n.x], AsWritten) == Ok({n.c, Eps, n.x})
    ensures RhsFirst(TailFirst(n), [n.a, n.x], Corrected) == Ok({n.c, n.x})
  {
    var first := TailFirst(n);
    assert [n.a, n.x][1..] == [n.x];
    assert RhsFirst(first, [n.x], AsWritten) == Ok({n.x}) && RhsFirst(first, [n.x], Corrected) == Ok({n.x});
    assert first[n.a] == {n.c, Eps};
    assert RhsFirst(first, [n.a, n.x], AsWritten) == Ok(first[n.a] + {n.x});
    assert RhsFirst(first, [n.a, n.x], Corrected) == Ok((first[n.a] - {Eps}) + {n.x});
    assert first[n.a] + {n.x} == {n.c, Eps, n.x} && (first[n.a] - {Eps}) + {n.x} == {n.c, n.x};
  }

  /** The walk over A -> B c: B can vanish, c cannot, yet as written the
      walk holds epsilon. */
  lemma WalkABc(n: Names)
    requires Distinct(n)
    ensures RhsFirst(TailFirst(n), [n.b, n.c], AsWritten) == Ok({Eps, n.c})
    ensures RhsFirst(TailFirst(n), [n.b, n.c], Corrected) == Ok({n.c})
  {
    var first := TailFirst(n);
    assert [n.b, n.c][1..] == [n.c];
    assert RhsFirst(first, [n.c], AsWritten) == Ok({n.c}) && RhsFirst(first, [n.c], Corrected) == Ok({n.c});
    assert first[n.b] == {Eps};
    assert RhsFirst(first, [n.b, n.c], AsWritten) == Ok(first[n.b] + {n.c});
    assert RhsFirst(first, [n.b, n.c], Corrected) == Ok((first[n.b] - {Eps}) + {n.c});
    assert first[n.b] + {n.c} == {Eps, n.c} && (first[n.b] - {Eps}) + {n.c} == {n.c};
  }

  /** The walk over an epsilon production. */
  lemma WalkEps(n: Names, w: Walk)
    requires Distinct(n)
    ensures RhsFirst(TailFirst(n), [Eps], w) == Ok({Eps})
  {
    var first := TailFirst(n);
    assert [Eps][1..] == [];
    assert first[Eps] == {Eps};
    if w == AsWritten {
      assert RhsFirst(first, [Eps], w) == Ok(first[Eps] + {});
      assert first[Eps] + {} == {Eps};
    } else {
      assert RhsFirst(first, [Eps], w) == Ok((first[Eps] - {Eps}) + {Eps});
      assert (first[Eps] - {Eps}) + {Eps} == {Eps};
    }
  }

  /** As written, the builder enters A -> B c under FOLLOW(A) as well, and
      A -> eps then clashes with it on x. */
  lemma TailAsWrittenConflicts(n: Names)
    requires Distinct(n)
    ensures BuildTable(Tail(n), TailFirst(n), TailFollow(n), AsWritten) == Err(Conflict(n.a, {n.x}))
  {
    var g, first, follow, w := Tail(n), TailFirst(n), TailFollow(n), AsWritten;
    var t1 := AsWrittenStart(n);
    var t2 := AsWrittenRowA(n, t1);
    BuildFromStep(g, first, follow, w, 0, map[]);
    BuildFromStep(g, first, follow, w, 1, t1);
    WalkEps(n, w);
    var row := t2[n.a];
    assert Fill(row, {Eps} - {Eps}, g.productions[2]).Keys == {n.c, n.x};
    assert follow[n.a] * {n.c, n.x} == {n.x};
    assert AddProduction(first, follow, w, t2, g.productions[2]) == Err(Conflict(n.a, {n.x}));
  }

  /** As written, S -> A x gets the row of S, A not yet having one. */
  lemma AsWrittenStart(n: Names) returns (t: Table)
    requires Distinct(n)
    ensures AddProduction(TailFirst(n), TailFollow(n), AsWritten, map[], Tail(n).productions[0]) == Ok(t)
    ensures n.a !in t
  {
    WalkSAx(n);
    var r := AddProduction(TailFirst(n), TailFollow(n), AsWritten, map[], Tail(n).productions[0]);
    assert r.Ok? && r.value.Keys == {n.s};
    t := r.value;
  }

  /** As written, A -> B c takes the row of A under c and, because of the
      stray epsilon, under x. */
  lemma AsWrittenRowA(n: Names, t: Table) returns (t': Table)
    requires Distinct(n) && n.a !in t
    ensures AddProduction(TailFirst(n), TailFollow(n), AsWritten, t, Tail(n).productions[1]) == Ok(t')
    ensures n.a in t' && t'[n.a].Keys == {n.c, n.x}
  {
    WalkABc(n);
    var r := AddProduction(TailFirst(n), TailFollow(n), AsWritten, t, Tail(n).productions[1]);
    assert r.Ok? && n.a in r.value && r.value[n.a].Keys == {n.c, n.x};
    t' := r.value;
  }

  /** One production further into the builder's loop. */
  lemma BuildFromStep(g: Grammar, first: SymbolSets, follow: SymbolSets, w: Walk, i: nat, t: Table)
    requires i < |g.productions|
    requires AddProduction(first, follow, w, t, g.productions[i]).Ok?
    ensures BuildFrom(g, first, follow, w, i, t) ==
      BuildFrom(g, first, follow, w, i + 1, AddProduction(first, follow, w, t, g.productions[i]).value)
  {
  }

  /** Corrected, the builder succeeds, so the grammar is LL(1) for these
      sets, and the table is the textbook one. */
  lemma TailCorrectedBuilds(n: Names)
    requires Distinct(n)
    ensures BuildTable(Tail(n), TailFirst(n), TailFollow(n), Corrected) == Ok(TailTable(n))
    ensures NoClash(Tail(n), TailFirst(n), TailFollow(n), Corrected)
  {
    var g, first, follow, w := Tail(n), TailFirst(n), TailFollow(n), Corrected;
    TailCorrectedTable(n);
    BuildTableSpec(g, first, follow, w);
    assert LookupsSucceed(g, first, follow);
  }

  /** The LL(1) table of `Tail(n)`: S -> A x under c and x, A -> B c under c,
      A -> eps under x, B -> eps under c. */
  function TailTable(n: Names): Table
  {
    var P := Tail(n).productions;
    map[n.s := map[n.c := P[0], n.x := P[0]], n.a := map[n.c := P[1], n.x := P[2]], n.b := map[n.c := P[3]]]
  }

  lemma TailCorrectedTable(n: Names)
    requires Distinct(n)
    ensures BuildTable(Tail(n), TailFirst(n), TailFollow(n), Corrected) == Ok(TailTable(n))
  {
    var t2 := TailCorrectedHalf(n);
    TailCorrectedFrom2(n, t2);
  }

  /** The corrected builder from A -> eps on. */
  lemma TailCorrectedFrom2(n: Names, t2: Table)
    requires Distinct(n)
    requires t2 == map[n.s := map[n.c := Tail(n).productions[0], n.x := Tail(n).productions[0]], n.a := map[n.c := Tail(n).productions[1]]]
    ensures BuildFrom(Tail(n), TailFirst(n), TailFollow(n), Corrected, 2, t2) == Ok(TailTable(n))
  {
    var P := Tail(n).productions;
    var t3 := CorrectedRowAEps(n, t2);
    BuildFromStep(Tail(n), TailFirst(n), TailFollow(n), Corrected, 2, t2);
    assert t3 == map[n.s := map[n.c := P[0], n.x := P[0]], n.a := map[n.c := P[1], n.x := P[2]]];
    TailCorrectedFrom3(n, t3);
  }

  /** The corrected builder from B -> eps on. */
  lemma TailCorrectedFrom3(n: Names, t3: Table)
    requires Distinct(n)
    requires t3 == map[n.s := map[n.c := Tail(n).productions[0], n.x := Tail(n).productions[0]],
                       n.a := map[n.c := Tail(n).productions[1], n.x := Tail(n).productions[2]]]
    ensures BuildFrom(Tail(n), TailFirst(n), TailFollow(n), Corrected, 3, t3) == Ok(TailTable(n))
  {
    var t4 := CorrectedRowB(n, t3);
    BuildFromStep(Tail(n), TailFirst(n), TailFollow(n), Corrected, 3, t3);
    assert t4 == TailTable(n);
  }

  /** The corrected builder after S -> A x and A -> B c. */
  lemma TailCorrectedHalf(n: Names) returns (t: Table)
    requires Distinct(n)
    ensures BuildTable(Tail(n), TailFirst(n), TailFollow(n), Corrected) == BuildFrom(Tail(n), TailFirst(n), TailFollow(n), Corrected, 2, t)
    ensures t == map[n.s := map[n.c := Tail(n).productions[0], n.x := Tail(n).productions[0]], n.a := map[n.c := Tail(n).productions[1]]]
  {
    var g, first, follow, w := Tail(n), TailFirst(n), TailFollow(n), Corrected;
    var t1 := CorrectedRowS(n);
    t := CorrectedRowA(n, t1);
    BuildFromStep(g, first, follow, w, 0, map[]);
    BuildFromStep(g, first, follow, w, 1, t1);
  }

  lemma CorrectedRowS(n: Names) returns (t: Table)
    requires Distinct(n)
    ensures AddProduction(TailFirst(n), TailFollow(n), Corrected, map[], Tail(n).productions[0]) == Ok(t)
    ensures t == map[n.s := map[n.c := Tail(n).productions[0], n.x := Tail(n).productions[0]]]
  {
    WalkSAx(n);
    var p := Tail(n).productions[0];
    assert {n.c, n.x} - {Eps} == {n.c, n.x};
    FillPair(map[], n.c, n.x, p);
    t := map[n.s := map[n.c := p, n.x := p]];
  }

  lemma CorrectedRowA(n: Names, t: Table) returns (t': Table)
    requires Distinct(n) && n.a !in t
    ensures AddProduction(TailFirst(n), TailFollow(n), Corrected, t, Tail(n).productions[1]) == Ok(t')
    ensures t' == t[n.a := map[n.c := Tail(n).productions[1]]]
  {
    WalkABc(n);
    var p := Tail(n).productions[1];
    assert {n.c} - {Eps} == {n.c};
    FillOne(map[], n.c, p);
    t' := t[n.a := map[n.c := p]];
  }

  lemma CorrectedRowAEps(n: Names, t: Table) returns (t': Table)
    requires Distinct(n) && n.a in t && t[n.a] == map[n.c := Tail(n).productions[1]]
    ensures AddProduction(TailFirst(n), TailFollow(n), Corrected, t, Tail(n).productions[2]) == Ok(t')
    ensures t' == t[n.a := map[n.c := Tail(n).productions[1], n.x := Tail(n).productions[2]]]
  {
    WalkEps(n, Corrected);
    var p := Tail(n).productions[2];
    var row := t[n.a];
    assert {Eps} - {Eps} == {} && {n.x} * {n.c} == {};
    FillNone(row, p);
    FillOne(row, n.x, p);
    t' := t[n.a := row[n.x := p]];
  }

  lemma CorrectedRowB(n: Names, t: Table) returns (t': Table)
    requires Distinct(n) && n.b !in t
    ensures AddProduction(TailFirst(n), TailFollow(n), Corrected, t, Tail(n).productions[3]) == Ok(t')
    ensures t' == t[n.b := map[n.c := Tail(n).productions[3]]]
  {
    WalkEps(n, Corrected);
    var p := Tail(n).productions[3];
    assert {Eps} - {Eps} == {} && {n.c} * {} == {};
    FillNone(map[], p);
    FillOne(map[], n.c, p);
    t' := t[n.b := map[n.c := p]];
  }

  lemma FillNone(row: map<Symbol, Production>, p: Production)
    ensures Fill(row, {}, p) == row
  {
  }

  lemma FillOne(row: map<Symbol, Production>, a: Symbol, p: Production)
    ensures Fill(row, {a}, p) == row[a := p]
  {
  }

  lemma FillPair(row: map<Symbol, Production>, a: Symbol, b: Symbol, p: Production)
    ensures Fill(row, {a, b}, p) == row[a := p][b := p]
  {
  }

  lemma FillTriple(row: map<Symbol, Production>, a: Symbol, b: Symbol, c: Symbol, p: Production)
    ensures Fill(row, {a, b, c}, p) == row[a := p][b := p][c := p]
  {
  }

  /** Derivation `S -> A eps`, `A -> x`: the builder as written tests the
      right-hand side's last symbol, which is epsilon, queues no child at all
      and leaves `A` unexpanded, using one production of two; testing each
      child expands `A` with the second production. */
  lemma TreeSkipsChild(s: Symbol, a: Symbol, x: Symbol)
    requires s.N? && a.N? && x.T?
    ensures BuildTree<int>(LastSymbol, [Production(s, [a, Eps]), Production(a, [x])])
         == Ok((Node(s, None, [Leaf(a), Leaf(Eps)]), 1))
    ensures BuildTree<int>(EachChild, [Production(s, [a, Eps]), Production(a, [x])])
         == Ok((Node(s, None, [Node(a, None, [Leaf(x)]), Leaf(Eps)]), 2))
  {
    var ds := [Production(s, [a, Eps]), Production(a, [x])];
    var rhs := [a, Eps];
    var ax: Node<int> := Node(a, None, [Leaf(x)]);
    LeafUnfold<int>(LastSymbol, ds, rhs, 1, 1);
    assert [Leaf<int>(Eps)] + [] == [Leaf(Eps)];
    LeafUnfold<int>(LastSymbol, ds, rhs, 0, 1);
    assert [Leaf<int>(a)] + [Leaf(Eps)] == [Leaf(a), Leaf(Eps)];
    LeafUnfold<int>(EachChild, ds, [x], 0, 2);
    assert [Leaf<int>(x)] + [] == [Leaf(x)];
    ExpandUnfold<int>(EachChild, ds, a, 1);
    LeafUnfold<int>(EachChild, ds, rhs, 1, 2);
    QueuedUnfold<int>(EachChild, ds, rhs, 0, 1);
    assert [ax] + [Leaf(Eps)] == [ax, Leaf(Eps)];
    ExpandUnfold<int>(EachChild, ds, s, 0);
    ExpandUnfold<int>(LastSymbol, ds, s, 0);
  }

  /** Derivation `S -> eps A`, `A -> x`: the builder as written tests the last
      symbol `A`, so it queues the epsilon child too, pops it first and fails
      against `A -> x`; testing each child builds the tree. */
  lemma TreeQueuesEpsilon(s: Symbol, a: Symbol, x: Symbol)
    requires s.N? && a.N? && x.T?
    ensures BuildTree<int>(LastSymbol, [Production(s, [Eps, a]), Production(a, [x])])
         == Err(LhsMismatch(Eps, Production(a, [x])))
    ensures BuildTree<int>(EachChild, [Production(s, [Eps, a]), Production(a, [x])])
         == Ok((Node(s, None, [Leaf(Eps), Node(a, None, [Leaf(x)])]), 2))
  {
    var ds := [Production(s, [Eps, a]), Production(a, [x])];
    var rhs := [Eps, a];
    var ax: Node<int> := Node(a, None, [Leaf(x)]);
    QueuedUnfold<int>(LastSymbol, ds, rhs, 0, 1);
    ExpandUnfold<int>(LastSymbol, ds, s, 0);
    LeafUnfold<int>(EachChild, ds, [x], 0, 2);
    assert [Leaf<int>(x)] + [] == [Leaf(x)];
    ExpandUnfold<int>(EachChild, ds, a, 1);
    QueuedUnfold<int>(EachChild, ds, rhs, 1, 1);
    assert [ax] + [] == [ax];
    LeafUnfold<int>(EachChild, ds, rhs, 0, 1);
    assert [Leaf<int>(Eps)] + [ax] == [Leaf(Eps), ax];
    ExpandUnfold<int>(EachChild, ds, s, 0);
  }
}

=== FILE: first.dfy ===
/** FIRST sets: `LL1_first` and `extract_LL1_first_sets` of
    LangChisel/parse/ll1_parser.py.

    The source recursion has no cycle guard: a grammar in which a non-terminal
    reaches itself through nullable prefixes (left recursion) recurses without
    bound. The model therefore takes a termination certificate: a rank on
    non-terminal names and a set of symbols that over-approximates the
    nullable ones, such that walking a right-hand side up to the first
    symbol outside that set only visits symbols of smaller rank. */
module FirstSets {
  import opened CFG

  /** Termination certificate for the FIRST recursion. */
  datatype Certificate = Certificate(rank: string -> nat, nullable: set<Symbol>)

  /** Terminals and epsilon are base cases; non-terminals sit above them. */
  function Measure(c: Certificate, s: Symbol): nat
  {
    if s.N? then c.rank(s.name) + 1 else 0
  }

  /** The assertion at ll1_parser.py:122: no production has an empty
      right-hand side (epsilon is written `[Eps]`). */
  predicate NonEmptyRhs(g: Grammar)
  {
    forall p :: p in g.productions ==> |p.rhs| > 0
  }

  /** Every symbol of `rhs` lies in the certificate's nullable set. */
  predicate AllNullable(c: Certificate, rhs: seq<Symbol>)
  {
    forall k :: 0 <= k < |rhs| ==> rhs[k] in c.nullable
  }

  /** The nullable set contains epsilon and is closed under productions whose
      whole right-hand side is nullable. */
  predicate Closed(g: Grammar, c: Certificate)
  {
    && Eps in c.nullable
    && forall p :: p in g.productions && p.lhs.N? && AllNullable(c, p.rhs) ==> p.lhs in c.nullable
  }

  /** The walk of a right-hand side only recurses into symbols of smaller
      measure, as long as the prefix before them is nullable. */
  predicate Ranked(g: Grammar, c: Certificate)
  {
    forall p, i :: p in g.productions && p.lhs.N? && 0 <= i < |p.rhs| && AllNullable(c, p.rhs[..i]) ==>
      Measure(c, p.rhs[i]) < Measure(c, p.lhs)
  }

  /** The grammars on which `LL1_first` terminates without failing its assertion. */
  predicate Analysable(g: Grammar, c: Certificate)
  {
    NonEmptyRhs(g) && Closed(g, c) && Ranked(g, c)
  }

  /** FIRST of a symbol, by plain recursion: the reference that the memoised
      computation is proved against. A terminal or epsilon is its own FIRST
      set; a non-terminal's is the union of its productions' walks. */
  function FirstOf(g: Grammar, c: Certificate, s: Symbol): (r: set<Symbol>)
    requires Analysable(g, c)
    ensures Eps in r ==> s in c.nullable
    decreases Measure(c, s), 2, 0
  {
    if IsTerminal(s) || s == Eps then {s}
    else AlternativesFirst(g, c, s, 0)
  }

  /** The union of the walks of the productions `i..` whose left-hand side is `a`. */
  function AlternativesFirst(g: Grammar, c: Certificate, a: Symbol, i: nat): (r: set<Symbol>)
    requires Analysable(g, c) && a.N? && i <= |g.productions|
    ensures Eps in r ==> exists j :: i <= j < |g.productions| && g.productions[j].lhs == a && AllNullable(c, g.productions[j].rhs)
    decreases Measure(c, a), 1, |g.productions| - i
  {
    if i == |g.productions| then {}
    else
      var p := g.productions[i];
      (if p.lhs == a then SequenceFirst(g, c, p, 0) else {}) + AlternativesFirst(g, c, a, i + 1)
  }

  /** The walk of `p.rhs` from position `j`: add FIRST of each symbol without
      epsilon, stop after the first symbol whose FIRST lacks epsilon, and add
      epsilon when the walk passes the last symbol. */
  function SequenceFirst(g: Grammar, c: Certificate, p: Production, j: nat): (r: set<Symbol>)
    requires Analysable(g, c) && p in g.productions && p.lhs.N? && j < |p.rhs|
    requires AllNullable(c, p.rhs[..j])
    ensures Eps in r ==> AllNullable(c, p.rhs)
    decreases Measure(c, p.lhs), 0, |p.rhs| - j
  {
    var f := FirstOf(g, c, p.rhs[j]);
    assert AllNullable(c, p.rhs[..j + 1]) <== Eps in f by {
      if Eps in f {
        assert p.rhs[..j + 1] == p.rhs[..j] + [p.rhs[j]];
      }
    }
    (f - {Eps}) +
      (if Eps !in f then {}
       else if j == |p.rhs| - 1 then (assert p.rhs[..j + 1] == p.rhs; {Eps})
       else SequenceFirst(g, c, p, j + 1))
  }

  /** FIRST sets hold only terminals and epsilon. */
  lemma {:induction false} FirstOfTerminals(g: Grammar, c: Certificate, s: Symbol, x: Symbol)
    requires Analysable(g, c) && x in FirstOf(g, c, s)
    ensures IsTerminal(x) || x == Eps
    decreases Measure(c, s), 2, 0
  {
    if !IsTerminal(s) && s != Eps {
      AlternativesTerminals(g, c, s, 0, x);
    }
  }

  lemma {:induction false} AlternativesTerminals(g: Grammar, c: Certificate, a: Symbol, i: nat, x: Symbol)
    requires Analysable(g, c) && a.N? && i <= |g.productions| && x in AlternativesFirst(g, c, a, i)
    ensures IsTerminal(x) || x == Eps
    decreases Measure(c, a), 1, |g.productions| - i
  {
    if i < |g.productions| {
      var p := g.productions[i];
      if p.lhs == a && x in SequenceFirst(g, c, p, 0) {
        assert p.rhs[..0] == [];
        SequenceTerminals(g, c, p, 0, x);
      } else {
        AlternativesTerminals(g, c, a, i + 1, x);
      }
    }
  }

  lemma {:induction false} SequenceTerminals(g: Grammar, c: Certificate, p: Production, j: nat, x: Symbol)
    requires Analysable(g, c) && p in g.productions && p.lhs.N? && j < |p.rhs|
    requires AllNullable(c, p.rhs[..j]) && x in SequenceFirst(g, c, p, j)
    ensures IsTerminal(x) || x == Eps
    decreases Measure(c, p.lhs), 0, |p.rhs| - j
  {
    var f := FirstOf(g, c, p.rhs[j]);
    if x in f && x != Eps {
      FirstOfTerminals(g, c, p.rhs[j], x);
    } else if x != Eps {
      NullableExtend(c, p.rhs, j);
      SequenceTerminals(g, c, p, j + 1, x);
    }
  }

  /** `x` can begin a string derived from `rhs[j..]`: the textbook FIRST of
      a sequence, stated over the FIRST sets of its symbols. Epsilon begins it
      when every symbol can vanish; any other `x` when it begins some symbol
      all of whose predecessors can vanish. */
  ghost predicate BeginsFrom(g: Grammar, c: Certificate, rhs: seq<Symbol>, j: nat, x: Symbol)
    requires Analysable(g, c)
  {
    if x == Eps then forall k :: j <= k < |rhs| ==> Eps in FirstOf(g, c, rhs[k])
    else exists i :: j <= i < |rhs| && x in FirstOf(g, c, rhs[i]) && forall k :: j <= k < i ==> Eps in FirstOf(g, c, rhs[k])
  }

  /** Peeling the first symbol off `rhs[j..]`. */
  lemma {:induction false} BeginsFromStep(g: Grammar, c: Certificate, rhs: seq<Symbol>, j: nat, x: Symbol)
    requires Analysable(g, c) && j < |rhs|
    ensures BeginsFrom(g, c, rhs, j, x) <==>
      if x == Eps then Eps in FirstOf(g, c, rhs[j]) && BeginsFrom(g, c, rhs, j + 1, x)
      else x in FirstOf(g, c, rhs[j]) || (Eps in FirstOf(g, c, rhs[j]) && BeginsFrom(g, c, rhs, j + 1, x))
  {
    if x != Eps {
      if BeginsFrom(g, c, rhs, j, x) && x !in FirstOf(g, c, rhs[j]) {
        var i :| j <= i < |rhs| && x in FirstOf(g, c, rhs[i]) && forall k :: j <= k < i ==> Eps in FirstOf(g, c, rhs[k]);
        assert i != j;
        assert Eps in FirstOf(g, c, rhs[j]);
      }
      if Eps in FirstOf(g, c, rhs[j]) && BeginsFrom(g, c, rhs, j + 1, x) {
        var i :| j + 1 <= i < |rhs| && x in FirstOf(g, c, rhs[i]) && forall k :: j + 1 <= k < i ==> Eps in FirstOf(g, c, rhs[k]);
        assert forall k :: j <= k < i ==> Eps in FirstOf(g, c, rhs[k]);
      }
    }
  }

  /** The walk from position `j` collects exactly the symbols that begin `rhs[j..]`. */
  lemma {:induction false} SequenceFirstSpec(g: Grammar, c: Certificate, p: Production, j: nat, x: Symbol)
    requires Analysable(g, c) && p in g.productions && p.lhs.N? && j < |p.rhs|
    requires AllNullable(c, p.rhs[..j])
    ensures x in SequenceFirst(g, c, p, j) <==> BeginsFrom(g, c, p.rhs, j, x)
    decreases |p.rhs| - j
  {
    var f := FirstOf(g, c, p.rhs[j]);
    BeginsFromStep(g, c, p.rhs, j, x);
    if Eps in f && j < |p.rhs| - 1 {
      NullableExtend(c, p.rhs, j);
      SequenceFirstSpec(g, c, p, j + 1, x);
      SequenceFirstUnfold(g, c, p, j);
    } else if Eps in f {
      SequenceFirstLast(g, c, p, j);
      BeginsFromEnd(g, c, p.rhs, x);
    } else {
      SequenceFirstStops(g, c, p, j);
    }
  }

  lemma SequenceFirstUnfold(g: Grammar, c: Certificate, p: Production, j: nat)
    requires Analysable(g, c) && p in g.productions && p.lhs.N? && j < |p.rhs| - 1
    requires AllNullable(c, p.rhs[..j + 1]) && Eps in FirstOf(g, c, p.rhs[j])
    ensures SequenceFirst(g, c, p, j) == (FirstOf(g, c, p.rhs[j]) - {Eps}) + SequenceFirst(g, c, p, j + 1)
  {
    assert AllNullable(c, p.rhs[..j]) by {
      assert p.rhs[..j] == p.rhs[..j + 1][..j];
    }
  }

  lemma SequenceFirstLast(g: Grammar, c: Certificate, p: Production, j: nat)
    requires Analysable(g, c) && p in g.productions && p.lhs.N? && j == |p.rhs| - 1
    requires AllNullable(c, p.rhs[..j]) && Eps in FirstOf(g, c, p.rhs[j])
    ensures SequenceFirst(g, c, p, j) == (FirstOf(g, c, p.rhs[j]) - {Eps}) + {Eps}
  {
  }

  lemma SequenceFirstStops(g: Grammar, c: Certificate, p: Production, j: nat)
    requires Analysable(g, c) && p in g.productions && p.lhs.N? && j < |p.rhs|
    requires AllNullable(c, p.rhs[..j]) && Eps !in FirstOf(g, c, p.rhs[j])
    ensures SequenceFirst(g, c, p, j) == FirstOf(g, c, p.rhs[j]) - {Eps}
  {
  }

  /** Only epsilon begins the empty remainder. */
  lemma BeginsFromEnd(g: Grammar, c: Certificate, rhs: seq<Symbol>, x: Symbol)
    requires Analysable(g, c)
    ensures BeginsFrom(g, c, rhs, |rhs|, x) <==> x == Eps
  {
  }

  /** The productions `i..` for `a` contribute exactly what begins one of
      their right-hand sides. */
  lemma {:induction false} AlternativesFirstSpec(g: Grammar, c: Certificate, a: Symbol, i: nat, x: Symbol)
    requires Analysable(g, c) && a.N? && i <= |g.productions|
    ensures x in AlternativesFirst(g, c, a, i) <==>
      exists j :: i <= j < |g.productions| && g.productions[j].lhs == a && BeginsFrom(g, c, g.productions[j].rhs, 0, x)
    decreases |g.productions| - i
  {
    if i < |g.productions| {
      var p := g.productions[i];
      AlternativesFirstSpec(g, c, a, i + 1, x);
      if p.lhs == a {
        assert p.rhs[..0] == [];
        SequenceFirstSpec(g, c, p, 0, x);
      }
    }
  }

  /** FIRST of a non-terminal `a` (ll1_parser.py:112-139): `x` is in it
      exactly when `x` begins the right-hand side of some production for `a`.
      In particular epsilon is in it exactly when some right-hand side can
      vanish entirely, and any other symbol exactly when it is in FIRST of a
      right-hand-side symbol up to and including the first non-nullable one. */
  lemma FirstOfNonTerminal(g: Grammar, c: Certificate, a: Symbol, x: Symbol)
    requires Analysable(g, c) && a.N?
    ensures x in FirstOf(g, c, a) <==>
      exists p :: p in g.productions && p.lhs == a && BeginsFrom(g, c, p.rhs, 0, x)
  {
    AlternativesFirstSpec(g, c, a, 0, x);
    if exists p :: p in g.productions && p.lhs == a && BeginsFrom(g, c, p.rhs, 0, x) {
      var p :| p in g.productions && p.lhs == a && BeginsFrom(g, c, p.rhs, 0, x);
      var j :| 0 <= j < |g.productions| && g.productions[j] == p;
    }
  }

  /** Every entry of `cache` is the FIRST set of its key. */
  ghost predicate Agrees(g: Grammar, c: Certificate, cache: SymbolSets)
    requires Analysable(g, c)
  {
    forall k :: k in cache ==> cache[k] == FirstOf(g, c, k)
  }

  /** `LL1_first` with its memo table threaded through explicitly (the
      Python dictionary is mutated in place). A cached symbol is answered from
      the cache; a terminal or epsilon gets `{s}`; a non-terminal gets the union
      of its productions' walks, and is cached once that union is complete.
      The cache is required to hold FIRST sets, as the source's docstring asks. */
  function FirstMemo(g: Grammar, c: Certificate, s: Symbol, cache: SymbolSets)
    : (res: (set<Symbol>, SymbolSets))
    requires Analysable(g, c) && Agrees(g, c, cache)
    ensures res.0 == FirstOf(g, c, s)
    ensures Agrees(g, c, res.1) && Extends(cache, res.1)
    ensures s in res.1 && res.1[s] == res.0
    ensures s in cache ==> res == (cache[s], cache)
    ensures s !in cache && (IsTerminal(s) || s == Eps) ==> res == ({s}, cache[s := {s}])
    ensures res.1.Keys <= cache.Keys + {s} + RhsSymbols(g.productions)
    decreases Measure(c, s), 2, 0
  {
    if s in cache then (cache[s], cache)
    else if IsTerminal(s) || s == Eps then ({s}, cache[s := {s}])
    else
      var (r, cache') := AlternativesMemo(g, c, s, 0, {}, cache);
      (r, cache'[s := r])
  }

  /** The loop over the productions of `a` from index `i`, accumulating into `acc`. */
  function AlternativesMemo(g: Grammar, c: Certificate, a: Symbol, i: nat, acc: set<Symbol>, cache: SymbolSets)
    : (res: (set<Symbol>, SymbolSets))
    requires Analysable(g, c) && a.N? && i <= |g.productions| && Agrees(g, c, cache)
    ensures res.0 == acc + AlternativesFirst(g, c, a, i)
    ensures Agrees(g, c, res.1) && Extends(cache, res.1)
    ensures res.1.Keys <= cache.Keys + RhsSymbols(g.productions)
    decreases Measure(c, a), 1, |g.productions| - i
  {
    if i == |g.productions| then (acc, cache)
    else
      var p := g.productions[i];
      if p.lhs == a then
        var (acc', cache') := SequenceMemo(g, c, p, 0, acc, cache);
        AlternativesMemo(g, c, a, i + 1, acc', cache')
      else AlternativesMemo(g, c, a, i + 1, acc, cache)
  }

  /** The inner loop of `LL1_first` over `p.rhs` from position `j`. */
  function SequenceMemo(g: Grammar, c: Certificate, p: Production, j: nat, acc: set<Symbol>, cache: SymbolSets)
    : (res: (set<Symbol>, SymbolSets))
    requires Analysable(g, c) && p in g.productions && p.lhs.N? && j < |p.rhs| && Agrees(g, c, cache)
    requires AllNullable(c, p.rhs[..j])
    ensures res.0 == acc + SequenceFirst(g, c, p, j)
    ensures Agrees(g, c, res.1) && Extends(cache, res.1)
    ensures res.1.Keys <= cache.Keys + RhsSymbols(g.productions)
    decreases Measure(c, p.lhs), 0, |p.rhs| - j
  {
    var (f, cache') := FirstMemo(g, c, p.rhs[j], cache);
    var acc' := acc + (f - {Eps});
    if Eps !in f then (acc', cache')
    else if j == |p.rhs| - 1 then (acc' + {Eps}, cache')
    else
      NullableExtend(c, p.rhs, j);
      SequenceMemo(g, c, p, j + 1, acc', cache')
  }

  lemma NullableExtend(c: Certificate, rhs: seq<Symbol>, j: nat)
    requires j < |rhs| && AllNullable(c, rhs[..j]) && rhs[j] in c.nullable
    ensures AllNullable(c, rhs[..j + 1])
  {
    assert rhs[..j + 1] == rhs[..j] + [rhs[j]];
  }

  /** `extract_LL1_first_sets`: FIRST of every non-terminal and terminal of
      the grammar. Python enumerates them in the order of a `set`; the model
      takes that enumeration as `order`. Every listed symbol gets its FIRST
      set, every entry is a FIRST set, and besides the listed symbols only
      right-hand-side symbols reached by the walks appear as keys. */
  method ExtractFirstSets(g: Grammar, c: Certificate, order: seq<Symbol>) returns (first: SymbolSets)
    requires Analysable(g, c)
    requires forall x :: x in order <==> x in NonTerminals(g.productions) + Terminals(g.productions)
    ensures forall x :: x in order ==> x in first
    ensures forall x :: x in first ==> first[x] == FirstOf(g, c, x)
    ensures first.Keys <= NonTerminals(g.productions) + RhsSymbols(g.productions)
  {
    first := map[];
    var bound := NonTerminals(g.productions) + RhsSymbols(g.productions);
    OrderWithin(g, order);
    for i := 0 to |order|
      invariant Agrees(g, c, first)
      invariant forall k :: 0 <= k < i ==> order[k] in first
      invariant first.Keys <= bound
    {
      var (_, cache') := FirstMemo(g, c, order[i], first);
      KeepsListed(order, i, first, cache');
      first := cache';
    }
  }

  /** The grammar's terminals appear on right-hand sides. */
  lemma OrderWithin(g: Grammar, order: seq<Symbol>)
    requires forall x :: x in order <==> x in NonTerminals(g.productions) + Terminals(g.productions)
    ensures forall k :: 0 <= k < |order| ==> order[k] in NonTerminals(g.productions) + RhsSymbols(g.productions)
  {
    forall k | 0 <= k < |order|
      ensures order[k] in NonTerminals(g.productions) + RhsSymbols(g.productions)
    {
      var x := order[k];
      assert x in NonTerminals(g.productions) + Terminals(g.productions);
      if x !in NonTerminals(g.productions) {
        var i, j :| 0 <= i < |g.productions| && 0 <= j < |g.productions[i].rhs| && g.productions[i].rhs[j] == x;
      }
    }
  }

  /** Growing the memo table keeps the symbols already listed in it. */
  lemma KeepsListed(order: seq<Symbol>, i: nat, cache: SymbolSets, cache': SymbolSets)
    requires i < |order| && (forall k :: 0 <= k < i ==> order[k] in cache)
    requires Extends(cache, cache') && order[i] in cache'
    ensures forall k :: 0 <= k < i + 1 ==> order[k] in cache'
  {
  }
}

=== FILE: first_examples.dfy ===
/** The FIRST computation of LangChisel/parse/ll1_parser.py on the expression
    grammar of tests/test_parser.py: a termination certificate for it, and
    the FIRST set of every symbol, which is `expected_first_1`. */
module FirstExamples {
  import opened CFG
  import opened FirstSets
  import opened Examples

  /** Ranks E > T > F and E', T' and a nullable set holding E', T' and epsilon. */
  const ExprCert := Certificate(n => if n == "E" then 3 else if n == "T" then 2 else 1, {ERest, TRest, Eps})

  /** No right-hand side of `test_grammar_1` is empty. */
  lemma ExprNonEmpty()
    ensures NonEmptyRhs(Expr)
  {
  }

  /** Only E' and T' derive epsilon, each through its epsilon production. */
  lemma ExprClosed()
    ensures Closed(Expr, ExprCert)
  {
    ExprNamesDistinct();
    forall p | p in Expr.productions && p.lhs.N?
      ensures AllNullable(ExprCert, p.rhs) ==> p.lhs in ExprCert.nullable
    {
      if p == ETerm {
        assert p.rhs[0] == Term;
      } else if p == TFactor {
        assert p.rhs[0] == F;
      } else if p == ESum || p == TProduct || p == FParen || p == FId {
        assert p.rhs[0].T?;
      }
    }
  }

  /** The `Ranked` condition for one production. */
  predicate WalksDown(c: Certificate, p: Production)
  {
    forall i :: 0 <= i < |p.rhs| && AllNullable(c, p.rhs[..i]) ==> Measure(c, p.rhs[i]) < Measure(c, p.lhs)
  }

  /** A production whose first symbol is not nullable, or which has only one
      symbol, only recurses into that symbol. */
  lemma RankedHead(c: Certificate, p: Production)
    requires |p.rhs| > 0 && p.lhs.N? && (p.rhs[0] !in c.nullable || |p.rhs| == 1)
    requires Measure(c, p.rhs[0]) < Measure(c, p.lhs)
    ensures WalksDown(c, p)
  {
    forall i | 0 < i < |p.rhs|
      ensures !AllNullable(c, p.rhs[..i])
    {
      assert p.rhs[..i][0] == p.rhs[0];
    }
  }

  /** Every walk of `test_grammar_1` recurses into a symbol of lower rank. */
  lemma ExprRanked()
    ensures Ranked(Expr, ExprCert)
  {
    ExprRankedSums();
    ExprRankedProducts();
  }

  /** The walks of the productions for E and E' only recurse downwards. */
  lemma ExprRankedSums()
    ensures WalksDown(ExprCert, ETerm) && WalksDown(ExprCert, ESum) && WalksDown(ExprCert, ESumEnd)
  {
    ExprNamesDistinct();
    RankedHead(ExprCert, ETerm);
    RankedHead(ExprCert, ESum);
    RankedHead(ExprCert, ESumEnd);
  }

  /** The walks of the productions for T, T' and F only recurse downwards. */
  lemma ExprRankedProducts()
    ensures WalksDown(ExprCert, TFactor) && WalksDown(ExprCert, TProduct) && WalksDown(ExprCert, TProductEnd)
    ensures WalksDown(ExprCert, FParen) && WalksDown(ExprCert, FId)
  {
    ExprNamesDistinct();
    RankedHead(ExprCert, TFactor);
    RankedHead(ExprCert, TProduct);
    RankedHead(ExprCert, TProductEnd);
    RankedHead(ExprCert, FParen);
    RankedHead(ExprCert, FId);
  }

  /** `LL1_first` terminates on `test_grammar_1` under the certificate. */
  lemma ExprAnalysable()
    ensures Analysable(Expr, ExprCert)
  {
    ExprNonEmpty();
    ExprClosed();
    ExprRanked();
  }

  // One production of the loop over alternatives at a time.

  /** A production for another non-terminal adds nothing. */
  lemma AltSkip(g: Grammar, c: Certificate, a: Symbol, i: nat, p: Production)
    requires Analysable(g, c) && a.N? && i < |g.productions| && g.productions[i] == p && p.lhs != a
    ensures AlternativesFirst(g, c, a, i) == AlternativesFirst(g, c, a, i + 1)
  {
  }

  /** A production for `a` adds the walk of its right-hand side. */
  lemma AltTake(g: Grammar, c: Certificate, a: Symbol, i: nat, p: Production)
    requires Analysable(g, c) && a.N? && i < |g.productions| && g.productions[i] == p && p.lhs == a
    ensures AlternativesFirst(g, c, a, i) == SequenceFirst(g, c, p, 0) + AlternativesFirst(g, c, a, i + 1)
  {
  }

  /** A right-hand side that starts with a symbol whose FIRST set lacks
      epsilon begins with exactly that FIRST set. */
  lemma HeadOnly(g: Grammar, c: Certificate, p: Production, f: set<Symbol>)
    requires Analysable(g, c) && p in g.productions && p.lhs.N? && |p.rhs| > 0
    requires FirstOf(g, c, p.rhs[0]) == f && Eps !in f
    ensures SequenceFirst(g, c, p, 0) == f
  {
    assert p.rhs[..0] == [];
    SequenceFirstStops(g, c, p, 0);
  }

  /** An epsilon production begins with epsilon alone. */
  lemma EpsOnly(g: Grammar, c: Certificate, p: Production)
    requires Analysable(g, c) && p in g.productions && p.lhs.N? && p.rhs == [Eps]
    ensures SequenceFirst(g, c, p, 0) == {Eps}
  {
    assert p.rhs[..0] == [];
    SequenceFirstLast(g, c, p, 0);
  }

  /** None of the first six productions is for F. */
  lemma ExprFSkips()
    ensures Analysable(Expr, ExprCert)
    ensures AlternativesFirst(Expr, ExprCert, F, 0) == AlternativesFirst(Expr, ExprCert, F, 6)
  {
    ExprAnalysable();
    ExprNamesDistinct();
    ExprProductions();
    var g, c := Expr, ExprCert;
    ExprFSkipsSums();
    AltSkip(g, c, F, 3, TFactor);
    AltSkip(g, c, F, 4, TProduct);
    AltSkip(g, c, F, 5, TProductEnd);
  }

  /** The productions for E and E' are not for F. */
  lemma ExprFSkipsSums()
    ensures Analysable(Expr, ExprCert)
    ensures AlternativesFirst(Expr, ExprCert, F, 0) == AlternativesFirst(Expr, ExprCert, F, 3)
  {
    ExprAnalysable();
    ExprNamesDistinct();
    ExprProductions();
    var g, c := Expr, ExprCert;
    AltSkip(g, c, F, 0, ETerm);
    AltSkip(g, c, F, 1, ESum);
    AltSkip(g, c, F, 2, ESumEnd);
  }

  /** FIRST(F) = {id, (}: F -> ( E ) and F -> id, the last two productions. */
  lemma ExprFirstF()
    ensures Analysable(Expr, ExprCert) && FirstOf(Expr, ExprCert, F) == {Id, Open}
  {
    ExprFSkips();
    ExprProductions();
    var g, c := Expr, ExprCert;
    AltTake(g, c, F, 6, FParen);
    AltTake(g, c, F, 7, FId);
    HeadOnly(g, c, FParen, {Open});
    HeadOnly(g, c, FId, {Id});
  }

  /** FIRST(T) = FIRST(F), through T -> F T'. */
  lemma ExprFirstTerm()
    ensures Analysable(Expr, ExprCert) && FirstOf(Expr, ExprCert, Term) == {Id, Open}
  {
    ExprFirstF();
    ExprTermSkips();
    ExprProductions();
    var g, c := Expr, ExprCert;
    AltTake(g, c, Term, 3, TFactor);
    HeadOnly(g, c, TFactor, {Id, Open});
    ExprTermRest();
  }

  /** The first three productions are not for T. */
  lemma ExprTermSkips()
    ensures Analysable(Expr, ExprCert)
    ensures AlternativesFirst(Expr, ExprCert, Term, 0) == AlternativesFirst(Expr, ExprCert, Term, 3)
  {
    ExprAnalysable();
    ExprNamesDistinct();
    ExprProductions();
    var g, c := Expr, ExprCert;
    AltSkip(g, c, Term, 0, ETerm);
    AltSkip(g, c, Term, 1, ESum);
    AltSkip(g, c, Term, 2, ESumEnd);
  }

  /** No production after the fourth is for T. */
  lemma ExprTermRest()
    ensures Analysable(Expr, ExprCert) && AlternativesFirst(Expr, ExprCert, Term, 4) == {}
  {
    ExprAnalysable();
    ExprNamesDistinct();
    ExprProductions();
    var g, c := Expr, ExprCert;
    AltSkip(g, c, Term, 4, TProduct);
    AltSkip(g, c, Term, 5, TProductEnd);
    AltSkip(g, c, Term, 6, FParen);
    AltSkip(g, c, Term, 7, FId);
  }

  /** FIRST(E) = FIRST(T), through E -> T E'. */
  lemma ExprFirstE()
    ensures Analysable(Expr, ExprCert) && FirstOf(Expr, ExprCert, E) == {Id, Open}
  {
    ExprFirstTerm();
    ExprProductions();
    var g, c := Expr, ExprCert;
    AltTake(g, c, E, 0, ETerm);
    HeadOnly(g, c, ETerm, {Id, Open});
    ExprERest();
  }

  /** No production after the first is for E. */
  lemma ExprERest()
    ensures Analysable(Expr, ExprCert) && AlternativesFirst(Expr, ExprCert, E, 1) == {}
  {
    ExprAnalysable();
    ExprNamesDistinct();
    ExprProductions();
    var g, c := Expr, ExprCert;
    AltSkip(g, c, E, 1, ESum);
    AltSkip(g, c, E, 2, ESumEnd);
    AltSkip(g, c, E, 3, TFactor);
    AltSkip(g, c, E, 4, TProduct);
    AltSkip(g, c, E, 5, TProductEnd);
    AltSkip(g, c, E, 6, FParen);
    AltSkip(g, c, E, 7, FId);
  }

  /** FIRST(E') = {+, epsilon}, through E' -> + T E' and E' -> epsilon. */
  lemma ExprFirstERest()
    ensures Analysable(Expr, ExprCert) && FirstOf(Expr, ExprCert, ERest) == {Plus, Eps}
  {
    ExprAnalysable();
    ExprNamesDistinct();
    ExprProductions();
    var g, c := Expr, ExprCert;
    AltSkip(g, c, ERest, 0, ETerm);
    ExprERestTakes();
    ExprERestRest();
  }

  /** E' -> + T E' and E' -> epsilon, the second and third productions. */
  lemma ExprERestTakes()
    ensures Analysable(Expr, ExprCert)
    ensures AlternativesFirst(Expr, ExprCert, ERest, 1) == {Plus, Eps} + AlternativesFirst(Expr, ExprCert, ERest, 3)
  {
    ExprAnalysable();
    ExprProductions();
    var g, c := Expr, ExprCert;
    AltTake(g, c, ERest, 1, ESum);
    AltTake(g, c, ERest, 2, ESumEnd);
    HeadOnly(g, c, ESum, {Plus});
    EpsOnly(g, c, ESumEnd);
  }

  /** No production after the third is for E'. */
  lemma ExprERestRest()
    ensures Analysable(Expr, ExprCert) && AlternativesFirst(Expr, ExprCert, ERest, 3) == {}
  {
    ExprAnalysable();
    ExprNamesDistinct();
    ExprProductions();
    var g, c := Expr, ExprCert;
    AltSkip(g, c, ERest, 3, TFactor);
    AltSkip(g, c, ERest, 4, TProduct);
    AltSkip(g, c, ERest, 5, TProductEnd);
    AltSkip(g, c, ERest, 6, FParen);
    AltSkip(g, c, ERest, 7, FId);
  }

  /** The first four productions are not for T'. */
  lemma ExprTRestSkips()
    ensures Analysable(Expr, ExprCert)
    ensures AlternativesFirst(Expr, ExprCert, TRest, 0) == AlternativesFirst(Expr, ExprCert, TRest, 4)
  {
    ExprAnalysable();
    ExprNamesDistinct();
    ExprProductions();
    var g, c := Expr, ExprCert;
    AltSkip(g, c, TRest, 0, ETerm);
    AltSkip(g, c, TRest, 1, ESum);
    AltSkip(g, c, TRest, 2, ESumEnd);
    AltSkip(g, c, TRest, 3, TFactor);
  }

  /** FIRST(T') = {*, epsilon}, through T' -> * F T' and T' -> epsilon. */
  lemma ExprFirstTRest()
    ensures Analysable(Expr, ExprCert) && FirstOf(Expr, ExprCert, TRest) == {Star, Eps}
  {
    ExprTRestSkips();
    ExprProductions();
    var g, c := Expr, ExprCert;
    AltTake(g, c, TRest, 4, TProduct);
    AltTake(g, c, TRest, 5, TProductEnd);
    HeadOnly(g, c, TProduct, {Star});
    EpsOnly(g, c, TProductEnd);
    ExprTRestRest();
  }

  /** The last two productions are not for T'. */
  lemma ExprTRestRest()
    ensures Analysable(Expr, ExprCert) && AlternativesFirst(Expr, ExprCert, TRest, 6) == {}
  {
    ExprAnalysable();
    ExprNamesDistinct();
    ExprProductions();
    var g, c := Expr, ExprCert;
    AltSkip(g, c, TRest, 6, FParen);
    AltSkip(g, c, TRest, 7, FId);
  }

  /** `test_first_1`: every entry of `expected_first_1` is the FIRST set of
      its symbol, terminals and epsilon included. */
  lemma ExprFirstSets()
    ensures Analysable(Expr, ExprCert)
    ensures forall x :: x in ExprFirst ==> FirstOf(Expr, ExprCert, x) == ExprFirst[x]
  {
    ExprAnalysable();
    forall x | x in ExprFirst
      ensures FirstOf(Expr, ExprCert, x) == ExprFirst[x]
    {
      ExprFirstKeys(x);
      ExprFirstEntries();
      if x == E {
        ExprFirstE();
      } else if x == ERest {
        ExprFirstERest();
      } else if x == Term {
        ExprFirstTerm();
      } else if x == TRest {
        ExprFirstTRest();
      } else if x == F {
        ExprFirstF();
      } else {
        ExprTerminalEntries(x);
      }
    }
  }

  /** The keys of `expected_first_1`: the five non-terminals, terminals and epsilon. */
  lemma ExprFirstKeys(x: Symbol)
    requires x in ExprFirst
    ensures x == E || x == ERest || x == Term || x == TRest || x == F || x.T? || x == Eps
  {
  }

  /** `expected_first_1` maps each terminal, and epsilon, to itself. */
  lemma ExprTerminalEntries(x: Symbol)
    requires x in ExprFirst && (x.T? || x == Eps)
    ensures ExprFirst[x] == {x}
  {
  }

  /** The entries of `expected_first_1`, one by one. */
  lemma ExprFirstEntries()
    ensures ExprFirst.Keys == {E, ERest, Term, TRest, F, Eps, Plus, Star, Open, Close, Id}
    ensures ExprFirst[E] == ExprFirst[Term] == ExprFirst[F] == {Id, Open}
    ensures ExprFirst[ERest] == {Plus, Eps} && ExprFirst[TRest] == {Star, Eps} && ExprFirst[Eps] == {Eps}
    ensures ExprFirst[Plus] == {Plus} && ExprFirst[Star] == {Star} && ExprFirst[Open] == {Open}
    ensures ExprFirst[Close] == {Close} && ExprFirst[Id] == {Id}
  {
    ExprNamesDistinct();
  }
}

=== FILE: follow.dfy ===
/** FOLLOW sets as LangChisel/parse/ll1_parser.py computes them: the
    recursive `LL1_follow` with its memo dictionary and its set of symbols
    being visited, and `extract_LL1_follow_sets`. */
module FollowSets {
  import opened Results
  import opened CFG

  /** The two pieces of mutable state `LL1_follow` shares with its recursive
      calls: the dictionary of finished FOLLOW sets and the set of symbols
      whose computation has begun during the current top-level call. */
  datatype FollowState = FollowState(cache: SymbolSets, visiting: set<Symbol>)

  /** What the walk right from an occurrence of `s` does on meeting `s`
      again. `StopsAtRepeat` is the `break` of ll1_parser.py:218-219, which
      drops FIRST of that second occurrence; `PassesRepeat` treats it like
      any other symbol, as the FOLLOW equations ask. */
  datatype Scan = StopsAtRepeat | PassesRepeat

  /** What a call may do to the state: mark more symbols as visited and add
      cache entries, each for a symbol it began visiting itself. */
  predicate Grows(st: FollowState, st': FollowState)
  {
    && st.visiting <= st'.visiting
    && Extends(st.cache, st'.cache)
    && (forall k :: k in st'.cache && k !in st.cache ==> k in st'.visiting && k !in st.visiting)
  }

  /** Growth composes. */
  lemma GrowsThen(st: FollowState, st': FollowState, r: FollowResult)
    requires Grows(st, st')
    ensures r.Ok? && Grows(st', r.value.1) ==> Grows(st, r.value.1)
  {
  }

  /** Finishing the computation of `s`: marking it visited, then caching its
      set, is a growth of the state. */
  lemma GrowsByCaching(st: FollowState, st2: FollowState, s: Symbol, f: set<Symbol>)
    requires s !in st.visiting && s !in st.cache
    requires Grows(st.(visiting := st.visiting + {s}), st2)
    ensures s !in st2.cache
    ensures Grows(st, st2.(cache := st2.cache[s := f]))
  {
  }

  /** No FOLLOW set in `cache` holds epsilon. */
  predicate EpsFree(cache: SymbolSets)
  {
    forall k :: k in cache ==> Eps !in cache[k]
  }

  /** Once the start symbol has a cached FOLLOW set, it holds the end marker. */
  predicate StartMarked(g: Grammar, cache: SymbolSets)
  {
    g.start in cache ==> g.eos in cache[g.start]
  }

  /** The left-hand sides: the non-terminals `LL1_follow` can recurse on. */
  ghost function Lhs(g: Grammar): set<Symbol>
  {
    set p | p in g.productions :: p.lhs
  }

  /** `x` occurs on the right-hand side of some production. */
  ghost predicate OnSomeRhs(g: Grammar, x: Symbol)
  {
    exists p, j :: p in g.productions && 0 <= j < |p.rhs| && p.rhs[j] == x
  }

  /** Every right-hand-side symbol has a FIRST set, so no lookup can fail. */
  ghost predicate FirstKnown(g: Grammar, first: SymbolSets)
  {
    forall p, j :: p in g.productions && 0 <= j < |p.rhs| ==> p.rhs[j] in first
  }

  /** The failed dictionary lookup `known_first_sets[...]` is reported as the
      symbol that was missing. */
  type FollowResult = Result<(set<Symbol>, FollowState), Symbol>

  /** A subset is no larger than its superset. */
  lemma {:induction false} SubsetCard(x: set<Symbol>, y: set<Symbol>)
    requires x <= y
    ensures |x| <= |y|
    decreases x
  {
    if x != {} {
      var e :| e in x;
      SubsetCard(x - {e}, y - {e});
    }
  }

  /** The termination measure of `LL1_follow`: visiting more symbols never
      increases the number of left-hand sides left unvisited ... */
  lemma Unvisited(g: Grammar, v: set<Symbol>, v': set<Symbol>)
    requires v <= v'
    ensures |Lhs(g) - v'| <= |Lhs(g) - v|
  {
    var nt := Lhs(g);
    SubsetCard(nt - v', nt - v);
  }

  /** ... and visiting a new non-terminal decreases it. */
  lemma VisitOne(g: Grammar, v: set<Symbol>, s: Symbol)
    ensures s in Lhs(g) && s !in v ==>
      |Lhs(g) - (v + {s})| < |Lhs(g) - v|
    ensures |Lhs(g) - (v + {s})| <= |Lhs(g) - v|
  {
    var nt := Lhs(g);
    assert nt - (v + {s}) == (nt - v) - {s};
  }

  /** `LL1_follow(s)`. A symbol already being visited yields its cached set,
      or nothing; otherwise it is marked visited, a cached set is returned, and
      failing that the set is computed, starting from the end marker for the
      start symbol, and cached. */
  function Follow(g: Grammar, first: SymbolSets, sc: Scan, s: Symbol, st: FollowState): (r: FollowResult)
    ensures r.Ok? ==> Grows(st, r.value.1)
    ensures r.Ok? && s !in st.visiting ==> s in r.value.1.visiting && s in r.value.1.cache && r.value.1.cache[s] == r.value.0
    ensures r.Ok? && s in st.visiting ==> r.value == (if s in st.cache then st.cache[s] else {}, st)
    ensures r.Ok? && s == g.start && s !in st.visiting && s !in st.cache ==> g.eos in r.value.0
    decreases |Lhs(g) - st.visiting|, if s in Lhs(g) then 1 else 6, 0
  {
    if s in st.visiting then Ok((if s in st.cache then st.cache[s] else {}, st))
    else
      var st1 := st.(visiting := st.visiting + {s});
      VisitOne(g, st.visiting, s);
      if s in st.cache then Ok((st.cache[s], st1))
      else
        var init := if s == g.start then {g.eos} else {};
        match ProdLoop(g, first, sc, s, 0, init, st1)
        case Err(e) => Err(e)
        case Ok((acc, st2)) =>
          GrowsByCaching(st, st2, s, acc);
          Ok((acc, st2.(cache := st2.cache[s := acc])))
  }

  /** The loop over the productions, from index `i`, whose right-hand side
      mentions `s`. */
  function ProdLoop(g: Grammar, first: SymbolSets, sc: Scan, s: Symbol, i: nat, acc: set<Symbol>, st: FollowState): (r: FollowResult)
    requires i <= |g.productions|
    ensures r.Ok? ==> Grows(st, r.value.1) && acc <= r.value.0
    decreases |Lhs(g) - st.visiting|, 5, |g.productions| - i
  {
    if i == |g.productions| then Ok((acc, st))
    else if s in g.productions[i].rhs then
      match OccLoop(g, first, sc, s, i, 0, acc, st)
      case Err(e) => Err(e)
      case Ok((acc', st')) =>
        Unvisited(g, st.visiting, st'.visiting);
        var r := ProdLoop(g, first, sc, s, i + 1, acc', st');
        GrowsThen(st, st', r);
        r
    else ProdLoop(g, first, sc, s, i + 1, acc, st)
  }

  /** The loop over the positions, from `j`, at which `s` occurs in the
      right-hand side of production `pi`. */
  function OccLoop(g: Grammar, first: SymbolSets, sc: Scan, s: Symbol, pi: nat, j: nat, acc: set<Symbol>, st: FollowState): (r: FollowResult)
    requires pi < |g.productions| && j <= |g.productions[pi].rhs|
    ensures r.Ok? ==> Grows(st, r.value.1) && acc <= r.value.0
    decreases |Lhs(g) - st.visiting|, 4, |g.productions[pi].rhs| - j
  {
    if j == |g.productions[pi].rhs| then Ok((acc, st))
    else if g.productions[pi].rhs[j] != s then OccLoop(g, first, sc, s, pi, j + 1, acc, st)
    else
      match Occurrence(g, first, sc, s, pi, j, acc, st)
      case Err(e) => Err(e)
      case Ok((acc', st')) =>
        Unvisited(g, st.visiting, st'.visiting);
        var r := OccLoop(g, first, sc, s, pi, j + 1, acc', st');
        GrowsThen(st, st', r);
        r
  }

  /** One occurrence of `s`, at position `j`. At the end of the right-hand
      side it adds the FOLLOW set of the left-hand side, unless that is `s`
      itself; anywhere else it starts a walk to its right. */
  function Occurrence(g: Grammar, first: SymbolSets, sc: Scan, s: Symbol, pi: nat, j: nat, acc: set<Symbol>, st: FollowState): (r: FollowResult)
    requires pi < |g.productions| && j < |g.productions[pi].rhs|
    ensures r.Ok? ==> Grows(st, r.value.1) && acc <= r.value.0
    decreases |Lhs(g) - st.visiting|, 3, 0
  {
    var p := g.productions[pi];
    if j < |p.rhs| - 1 then ScanLoop(g, first, sc, s, pi, j, acc, st)
    else if p.lhs == s then Ok((acc, st))
    else
      match Follow(g, first, sc, p.lhs, st)
      case Err(e) => Err(e)
      case Ok((f, st')) => Ok((acc + f, st'))
  }

  /** The `while` loop that walks right from an occurrence of `s`, entered
      with `curr` the last position examined and the walk so far all
      nullable. It stops at the end, at another occurrence of `s` when `sc` is
      `StopsAtRepeat`, or after a
      symbol whose FIRST set lacks epsilon; when the last symbol is reached and
      is nullable, the FOLLOW set of the left-hand side is added, with no check
      that the left-hand side differs from `s`. */
  function ScanLoop(g: Grammar, first: SymbolSets, sc: Scan, s: Symbol, pi: nat, curr: nat, acc: set<Symbol>, st: FollowState): (r: FollowResult)
    requires pi < |g.productions| && curr < |g.productions[pi].rhs|
    ensures r.Ok? ==> Grows(st, r.value.1) && acc <= r.value.0
    decreases |Lhs(g) - st.visiting|, 2, |g.productions[pi].rhs| - curr
  {
    var p := g.productions[pi];
    if curr == |p.rhs| - 1 then Ok((acc, st))
    else
      var next := curr + 1;
      if p.rhs[next] == s && sc.StopsAtRepeat? then Ok((acc, st))
      else if p.rhs[next] !in first then Err(p.rhs[next])
      else
        var f := first[p.rhs[next]];
        var acc' := acc + (f - {Eps});
        if Eps !in f then Ok((acc', st))
        else if next == |p.rhs| - 1 then
          match Follow(g, first, sc, p.lhs, st)
          case Err(e) => Err(e)
          case Ok((f', st')) => Ok((acc' + f', st'))
        else ScanLoop(g, first, sc, s, pi, next, acc', st)
  }

  // ---------------------------------------------------------------------
  // What the cache may hold afterwards.

  /** A call only caches left-hand sides and `s`, and it caches the start
      symbol only with the end marker in its set. */
  lemma {:induction false} FollowKeys(g: Grammar, first: SymbolSets, sc: Scan, s: Symbol, st: FollowState)
    ensures var r := Follow(g, first, sc, s, st);
      r.Ok? ==> (r.value.1.cache.Keys <= st.cache.Keys + {s} + Lhs(g)
                 && (StartMarked(g, st.cache) ==> StartMarked(g, r.value.1.cache)))
    decreases |Lhs(g) - st.visiting|, if s in Lhs(g) then 1 else 6, 0
  {
    if s !in st.visiting && s !in st.cache {
      VisitOne(g, st.visiting, s);
      var init := if s == g.start then {g.eos} else {};
      ProdLoopKeys(g, first, sc, s, 0, init, st.(visiting := st.visiting + {s}));
    }
  }

  lemma {:induction false} ProdLoopKeys(g: Grammar, first: SymbolSets, sc: Scan, s: Symbol, i: nat, acc: set<Symbol>, st: FollowState)
    requires i <= |g.productions|
    ensures var r := ProdLoop(g, first, sc, s, i, acc, st);
      r.Ok? ==> (r.value.1.cache.Keys <= st.cache.Keys + Lhs(g)
                 && (StartMarked(g, st.cache) ==> StartMarked(g, r.value.1.cache)))
    decreases |Lhs(g) - st.visiting|, 5, |g.productions| - i
  {
    if i < |g.productions| {
      if s in g.productions[i].rhs {
        OccLoopKeys(g, first, sc, s, i, 0, acc, st);
        var o := OccLoop(g, first, sc, s, i, 0, acc, st);
        if o.Ok? {
          var (acc', st') := o.value;
          Unvisited(g, st.visiting, st'.visiting);
          ProdLoopKeys(g, first, sc, s, i + 1, acc', st');
          assert ProdLoop(g, first, sc, s, i, acc, st) == ProdLoop(g, first, sc, s, i + 1, acc', st');
        }
      } else {
        ProdLoopKeys(g, first, sc, s, i + 1, acc, st);
      }
    }
  }

  lemma {:induction false} OccLoopKeys(g: Grammar, first: SymbolSets, sc: Scan, s: Symbol, pi: nat, j: nat, acc: set<Symbol>, st: FollowState)
    requires pi < |g.productions| && j <= |g.productions[pi].rhs|
    ensures var r := OccLoop(g, first, sc, s, pi, j, acc, st);
      r.Ok? ==> (r.value.1.cache.Keys <= st.cache.Keys + Lhs(g)
                 && (StartMarked(g, st.cache) ==> StartMarked(g, r.value.1.cache)))
    decreases |Lhs(g) - st.visiting|, 4, |g.productions[pi].rhs| - j
  {
    if j < |g.productions[pi].rhs| {
      if g.productions[pi].rhs[j] != s {
        OccLoopKeys(g, first, sc, s, pi, j + 1, acc, st);
      } else {
        OccurrenceKeys(g, first, sc, s, pi, j, acc, st);
        var o := Occurrence(g, first, sc, s, pi, j, acc, st);
        if o.Ok? {
          var (acc', st') := o.value;
          Unvisited(g, st.visiting, st'.visiting);
          OccLoopKeys(g, first, sc, s, pi, j + 1, acc', st');
          assert OccLoop(g, first, sc, s, pi, j, acc, st) == OccLoop(g, first, sc, s, pi, j + 1, acc', st');
        }
      }
    }
  }

  lemma {:induction false} OccurrenceKeys(g: Grammar, first: SymbolSets, sc: Scan, s: Symbol, pi: nat, j: nat, acc: set<Symbol>, st: FollowState)
    requires pi < |g.productions| && j < |g.productions[pi].rhs|
    ensures var r := Occurrence(g, first, sc, s, pi, j, acc, st);
      r.Ok? ==> (r.value.1.cache.Keys <= st.cache.Keys + Lhs(g)
                 && (StartMarked(g, st.cache) ==> StartMarked(g, r.value.1.cache)))
    decreases |Lhs(g) - st.visiting|, 3, 0
  {
    var p := g.productions[pi];
    if j < |p.rhs| - 1 {
      ScanLoopKeys(g, first, sc, s, pi, j, acc, st);
    } else if p.lhs != s {
      FollowKeys(g, first, sc, p.lhs, st);
    }
  }

  lemma {:induction false} ScanLoopKeys(g: Grammar, first: SymbolSets, sc: Scan, s: Symbol, pi: nat, curr: nat, acc: set<Symbol>, st: FollowState)
    requires pi < |g.productions| && curr < |g.productions[pi].rhs|
    ensures var r := ScanLoop(g, first, sc, s, pi, curr, acc, st);
      r.Ok? ==> (r.value.1.cache.Keys <= st.cache.Keys + Lhs(g)
                 && (StartMarked(g, st.cache) ==> StartMarked(g, r.value.1.cache)))
    decreases |Lhs(g) - st.visiting|, 2, |g.productions[pi].rhs| - curr
  {
    var p := g.productions[pi];
    if curr < |p.rhs| - 1 {
      var next := curr + 1;
      if (p.rhs[next] != s || sc.PassesRepeat?) && p.rhs[next] in first && Eps in first[p.rhs[next]] {
        var acc' := acc + (first[p.rhs[next]] - {Eps});
        if next == |p.rhs| - 1 {
          FollowKeys(g, first, sc, p.lhs, st);
        } else {
          ScanLoopKeys(g, first, sc, s, pi, next, acc', st);
        }
      }
    }
  }

  // ---------------------------------------------------------------------
  // When the computation fails.

  /** The only failure is a right-hand-side symbol missing from the FIRST
      dictionary, and it cannot happen when every such symbol is present. */
  lemma {:induction false} FollowFails(g: Grammar, first: SymbolSets, sc: Scan, s: Symbol, st: FollowState)
    ensures var r := Follow(g, first, sc, s, st);
      && (r.Err? ==> OnSomeRhs(g, r.error) && r.error !in first)
      && (FirstKnown(g, first) ==> r.Ok?)
    decreases |Lhs(g) - st.visiting|, if s in Lhs(g) then 1 else 6, 0
  {
    if s !in st.visiting && s !in st.cache {
      VisitOne(g, st.visiting, s);
      var init := if s == g.start then {g.eos} else {};
      ProdLoopFails(g, first, sc, s, 0, init, st.(visiting := st.visiting + {s}));
    }
  }

  lemma {:induction false} ProdLoopFails(g: Grammar, first: SymbolSets, sc: Scan, s: Symbol, i: nat, acc: set<Symbol>, st: FollowState)
    requires i <= |g.productions|
    ensures var r := ProdLoop(g, first, sc, s, i, acc, st);
      && (r.Err? ==> OnSomeRhs(g, r.error) && r.error !in first)
      && (FirstKnown(g, first) ==> r.Ok?)
    decreases |Lhs(g) - st.visiting|, 5, |g.productions| - i
  {
    if i < |g.productions| {
      if s in g.productions[i].rhs {
        OccLoopFails(g, first, sc, s, i, 0, acc, st);
        var o := OccLoop(g, first, sc, s, i, 0, acc, st);
        if o.Ok? {
          var (acc', st') := o.value;
          Unvisited(g, st.visiting, st'.visiting);
          ProdLoopFails(g, first, sc, s, i + 1, acc', st');
          assert ProdLoop(g, first, sc, s, i, acc, st) == ProdLoop(g, first, sc, s, i + 1, acc', st');
        }
      } else {
        ProdLoopFails(g, first, sc, s, i + 1, acc, st);
      }
    }
  }

  lemma {:induction false} OccLoopFails(g: Grammar, first: SymbolSets, sc: Scan, s: Symbol, pi: nat, j: nat, acc: set<Symbol>, st: FollowState)
    requires pi < |g.productions| && j <= |g.productions[pi].rhs|
    ensures var r := OccLoop(g, first, sc, s, pi, j, acc, st);
      && (r.Err? ==> OnSomeRhs(g, r.error) && r.error !in first)
      && (FirstKnown(g, first) ==> r.Ok?)
    decreases |Lhs(g) - st.visiting|, 4, |g.productions[pi].rhs| - j
  {
    if j < |g.productions[pi].rhs| {
      if g.productions[pi].rhs[j] != s {
        OccLoopFails(g, first, sc, s, pi, j + 1, acc, st);
      } else {
        OccurrenceFails(g, first, sc, s, pi, j, acc, st);
        var o := Occurrence(g, first, sc, s, pi, j, acc, st);
        if o.Ok? {
          var (acc', st') := o.value;
          Unvisited(g, st.visiting, st'.visiting);
          OccLoopFails(g, first, sc, s, pi, j + 1, acc', st');
          assert OccLoop(g, first, sc, s, pi, j, acc, st) == OccLoop(g, first, sc, s, pi, j + 1, acc', st');
        }
      }
    }
  }

  lemma {:induction false} OccurrenceFails(g: Grammar, first: SymbolSets, sc: Scan, s: Symbol, pi: nat, j: nat, acc: set<Symbol>, st: FollowState)
    requires pi < |g.productions| && j < |g.productions[pi].rhs|
    ensures var r := Occurrence(g, first, sc, s, pi, j, acc, st);
      && (r.Err? ==> OnSomeRhs(g, r.error) && r.error !in first)
      && (FirstKnown(g, first) ==> r.Ok?)
    decreases |Lhs(g) - st.visiting|, 3, 0
  {
    var p := g.productions[pi];
    if j < |p.rhs| - 1 {
      ScanLoopFails(g, first, sc, s, pi, j, acc, st);
    } else if p.lhs != s {
      FollowFails(g, first, sc, p.lhs, st);
    }
  }

  lemma {:induction false} ScanLoopFails(g: Grammar, first: SymbolSets, sc: Scan, s: Symbol, pi: nat, curr: nat, acc: set<Symbol>, st: FollowState)
    requires pi < |g.productions| && curr < |g.productions[pi].rhs|
    ensures var r := ScanLoop(g, first, sc, s, pi, curr, acc, st);
      && (r.Err? ==> OnSomeRhs(g, r.error) && r.error !in first)
      && (FirstKnown(g, first) ==> r.Ok?)
    decreases |Lhs(g) - st.visiting|, 2, |g.productions[pi].rhs| - curr
  {
    var p := g.productions[pi];
    if curr < |p.rhs| - 1 {
      var next := curr + 1;
      assert g.productions[pi] in g.productions;
      if (p.rhs[next] != s || sc.PassesRepeat?) && p.rhs[next] in first && Eps in first[p.rhs[next]] {
        var acc' := acc + (first[p.rhs[next]] - {Eps});
        if next == |p.rhs| - 1 {
          FollowFails(g, first, sc, p.lhs, st);
        } else {
          ScanLoopFails(g, first, sc, s, pi, next, acc', st);
        }
      }
    }
  }

  // ---------------------------------------------------------------------
  // Soundness against the textbook definition.

  /** Every symbol strictly between positions `i` and `k` of `rhs` has a
      FIRST set holding epsilon. */
  ghost predicate NullableBetween(first: SymbolSets, rhs: seq<Symbol>, i: nat, k: nat)
    requires k <= |rhs|
  {
    forall m :: i < m < k ==> rhs[m] in first && Eps in first[rhs[m]]
  }

  /** `B` satisfies the FOLLOW equations of the textbook (and of the
      docstring of `LL1_follow`) with respect to the FIRST sets `first`: the
      end marker follows the start symbol; for a production `X -> ... A u c ...`
      with every symbol of `u` nullable, `FIRST(c)` without epsilon follows `A`;
      and for `X -> ... A u` with `u` nullable, whatever follows `X` follows
      `A`. The FOLLOW sets are the least such `B`. */
  ghost predicate IsFollowBound(g: Grammar, first: SymbolSets, B: Symbol -> set<Symbol>)
  {
    && g.eos in B(g.start)
    && (forall p, i, k :: p in g.productions && 0 <= i < k < |p.rhs| && NullableBetween(first, p.rhs, i, k) && p.rhs[k] in first
          ==> first[p.rhs[k]] - {Eps} <= B(p.rhs[i]))
    && (forall p, i :: p in g.productions && 0 <= i < |p.rhs| && NullableBetween(first, p.rhs, i, |p.rhs|)
          ==> B(p.lhs) <= B(p.rhs[i]))
  }

  /** Every cached set lies within `B`. */
  ghost predicate Within(cache: SymbolSets, B: Symbol -> set<Symbol>)
  {
    forall k :: k in cache ==> cache[k] <= B(k)
  }

  /** Whatever `LL1_follow` computes lies within any solution of the FOLLOW
      equations, so it never claims a symbol can follow `s` when it cannot. */
  lemma {:induction false} FollowWithin(g: Grammar, first: SymbolSets, sc: Scan, B: Symbol -> set<Symbol>, s: Symbol, st: FollowState)
    requires IsFollowBound(g, first, B) && Within(st.cache, B)
    ensures var r := Follow(g, first, sc, s, st);
      r.Ok? ==> r.value.0 <= B(s) && Within(r.value.1.cache, B)
    decreases |Lhs(g) - st.visiting|, if s in Lhs(g) then 1 else 6, 0
  {
    if s !in st.visiting && s !in st.cache {
      VisitOne(g, st.visiting, s);
      var init := if s == g.start then {g.eos} else {};
      ProdLoopWithin(g, first, sc, B, s, 0, init, st.(visiting := st.visiting + {s}));
    }
  }

  lemma {:induction false} ProdLoopWithin(g: Grammar, first: SymbolSets, sc: Scan, B: Symbol -> set<Symbol>, s: Symbol, i: nat, acc: set<Symbol>, st: FollowState)
    requires i <= |g.productions|
    requires IsFollowBound(g, first, B) && Within(st.cache, B) && acc <= B(s)
    ensures var r := ProdLoop(g, first, sc, s, i, acc, st);
      r.Ok? ==> r.value.0 <= B(s) && Within(r.value.1.cache, B)
    decreases |Lhs(g) - st.visiting|, 5, |g.productions| - i
  {
    if i < |g.productions| {
      if s in g.productions[i].rhs {
        OccLoopWithin(g, first, sc, B, s, i, 0, acc, st);
        var o := OccLoop(g, first, sc, s, i, 0, acc, st);
        if o.Ok? {
          var (acc', st') := o.value;
          Unvisited(g, st.visiting, st'.visiting);
          ProdLoopWithin(g, first, sc, B, s, i + 1, acc', st');
          assert ProdLoop(g, first, sc, s, i, acc, st) == ProdLoop(g, first, sc, s, i + 1, acc', st');
        }
      } else {
        ProdLoopWithin(g, first, sc, B, s, i + 1, acc, st);
      }
    }
  }

  lemma {:induction false} OccLoopWithin(g: Grammar, first: SymbolSets, sc: Scan, B: Symbol -> set<Symbol>, s: Symbol, pi: nat, j: nat, acc: set<Symbol>, st: FollowState)
    requires pi < |g.productions| && j <= |g.productions[pi].rhs|
    requires IsFollowBound(g, first, B) && Within(st.cache, B) && acc <= B(s)
    ensures var r := OccLoop(g, first, sc, s, pi, j, acc, st);
      r.Ok? ==> r.value.0 <= B(s) && Within(r.value.1.cache, B)
    decreases |Lhs(g) - st.visiting|, 4, |g.productions[pi].rhs| - j
  {
    if j < |g.productions[pi].rhs| {
      if g.productions[pi].rhs[j] != s {
        OccLoopWithin(g, first, sc, B, s, pi, j + 1, acc, st);
      } else {
        OccurrenceWithin(g, first, sc, B, s, pi, j, acc, st);
        var o := Occurrence(g, first, sc, s, pi, j, acc, st);
        if o.Ok? {
          var (acc', st') := o.value;
          Unvisited(g, st.visiting, st'.visiting);
          OccLoopWithin(g, first, sc, B, s, pi, j + 1, acc', st');
          assert OccLoop(g, first, sc, s, pi, j, acc, st) == OccLoop(g, first, sc, s, pi, j + 1, acc', st');
        }
      }
    }
  }

  lemma {:induction false} OccurrenceWithin(g: Grammar, first: SymbolSets, sc: Scan, B: Symbol -> set<Symbol>, s: Symbol, pi: nat, j: nat, acc: set<Symbol>, st: FollowState)
    requires pi < |g.productions| && j < |g.productions[pi].rhs|
    requires g.productions[pi].rhs[j] == s
    requires IsFollowBound(g, first, B) && Within(st.cache, B) && acc <= B(s)
    ensures var r := Occurrence(g, first, sc, s, pi, j, acc, st);
      r.Ok? ==> r.value.0 <= B(s) && Within(r.value.1.cache, B)
    decreases |Lhs(g) - st.visiting|, 3, 0
  {
    var p := g.productions[pi];
    if j < |p.rhs| - 1 {
      ScanLoopWithin(g, first, sc, B, s, pi, j, j, acc, st);
    } else if p.lhs != s {
      assert NullableBetween(first, p.rhs, j, |p.rhs|);
      assert B(p.lhs) <= B(s);
      FollowWithin(g, first, sc, B, p.lhs, st);
    }
  }

  lemma {:induction false} ScanLoopWithin(g: Grammar, first: SymbolSets, sc: Scan, B: Symbol -> set<Symbol>, s: Symbol, pi: nat, pos: nat, curr: nat, acc: set<Symbol>, st: FollowState)
    requires pi < |g.productions| && pos <= curr < |g.productions[pi].rhs|
    requires g.productions[pi].rhs[pos] == s && NullableBetween(first, g.productions[pi].rhs, pos, curr + 1)
    requires IsFollowBound(g, first, B) && Within(st.cache, B) && acc <= B(s)
    ensures var r := ScanLoop(g, first, sc, s, pi, curr, acc, st);
      r.Ok? ==> r.value.0 <= B(s) && Within(r.value.1.cache, B)
    decreases |Lhs(g) - st.visiting|, 2, |g.productions[pi].rhs| - curr, 1
  {
    var rhs := g.productions[pi].rhs;
    if curr < |rhs| - 1 && (rhs[curr + 1] != s || sc.PassesRepeat?) && rhs[curr + 1] in first {
      ScanNextWithin(g, first, sc, B, s, pi, pos, curr, acc, st);
    }
  }

  /** The walk goes on to the symbol after `curr`, which has a FIRST set. */
  lemma {:induction false} ScanNextWithin(g: Grammar, first: SymbolSets, sc: Scan, B: Symbol -> set<Symbol>, s: Symbol, pi: nat, pos: nat, curr: nat, acc: set<Symbol>, st: FollowState)
    requires pi < |g.productions| && pos <= curr < |g.productions[pi].rhs| - 1
    requires g.productions[pi].rhs[pos] == s && NullableBetween(first, g.productions[pi].rhs, pos, curr + 1)
    requires (g.productions[pi].rhs[curr + 1] != s || sc.PassesRepeat?) && g.productions[pi].rhs[curr + 1] in first
    requires IsFollowBound(g, first, B) && Within(st.cache, B) && acc <= B(s)
    ensures var r := ScanLoop(g, first, sc, s, pi, curr, acc, st);
      r.Ok? ==> r.value.0 <= B(s) && Within(r.value.1.cache, B)
    decreases |Lhs(g) - st.visiting|, 2, |g.productions[pi].rhs| - curr, 0
  {
    var p := g.productions[pi];
    var next := curr + 1;
    var f := first[p.rhs[next]];
    assert p in g.productions;
    BoundFirst(g, first, B, p, pos, next);
    var acc' := acc + (f - {Eps});
    if Eps in f {
      assert NullableBetween(first, p.rhs, pos, next + 1);
      if next == |p.rhs| - 1 {
        ScanLastWithin(g, first, sc, B, p, pos, acc', st);
      } else {
        ScanLoopWithin(g, first, sc, B, s, pi, pos, next, acc', st);
      }
    }
  }

  /** The walk reaching a nullable last symbol adds FOLLOW of the left-hand
      side, which the bound already places under the occurrence's bound. */
  lemma ScanLastWithin(g: Grammar, first: SymbolSets, sc: Scan, B: Symbol -> set<Symbol>, p: Production, pos: nat, acc: set<Symbol>, st: FollowState)
    requires p in g.productions && pos < |p.rhs| && NullableBetween(first, p.rhs, pos, |p.rhs|)
    requires IsFollowBound(g, first, B) && Within(st.cache, B) && acc <= B(p.rhs[pos])
    ensures var r := Follow(g, first, sc, p.lhs, st);
      r.Ok? ==> acc + r.value.0 <= B(p.rhs[pos]) && Within(r.value.1.cache, B)
    decreases |Lhs(g) - st.visiting|, 1, 1
  {
    BoundLhs(g, first, B, p, pos);
    FollowWithin(g, first, sc, B, p.lhs, st);
  }

  /** One instance of the FIRST clause of the FOLLOW equations. */
  lemma BoundFirst(g: Grammar, first: SymbolSets, B: Symbol -> set<Symbol>, p: Production, i: nat, k: nat)
    requires IsFollowBound(g, first, B) && p in g.productions && i < k < |p.rhs|
    requires NullableBetween(first, p.rhs, i, k) && p.rhs[k] in first
    ensures first[p.rhs[k]] - {Eps} <= B(p.rhs[i])
  {
  }

  /** One instance of the left-hand-side clause of the FOLLOW equations. */
  lemma BoundLhs(g: Grammar, first: SymbolSets, B: Symbol -> set<Symbol>, p: Production, i: nat)
    requires IsFollowBound(g, first, B) && p in g.productions && i < |p.rhs|
    requires NullableBetween(first, p.rhs, i, |p.rhs|)
    ensures B(p.lhs) <= B(p.rhs[i])
  {
  }

  // ---------------------------------------------------------------------
  // What the computation is certain to collect.

  /** Production right-hand side `rhs` puts FIRST of position `k`, without
      epsilon, into the FOLLOW set of the `s` at position `i`: every symbol
      strictly between them is nullable, `rhs[k]` has a FIRST set, and the
      walk as written does not give up on `rhs[k]` for being `s` again. */
  ghost predicate Contributes(first: SymbolSets, sc: Scan, s: Symbol, rhs: seq<Symbol>, i: int, k: int)
  {
    && 0 <= i < k < |rhs| && rhs[i] == s && NullableBetween(first, rhs, i, k) && rhs[k] in first
    && (sc.PassesRepeat? || rhs[k] != s)
  }

  /** A contribution that the walk from position `i` itself reaches: as
      written, no other occurrence of `s` stands between `i` and `k`. */
  ghost predicate Reaches(first: SymbolSets, sc: Scan, s: Symbol, rhs: seq<Symbol>, i: int, k: int)
  {
    && Contributes(first, sc, s, rhs, i, k)
    && (sc.PassesRepeat? || forall m :: i < m < k ==> rhs[m] != s)
  }

  /** `R` holds every contribution of `rhs` to `s` from an occurrence at
      position `lo` or later. */
  ghost predicate Gathered(first: SymbolSets, sc: Scan, s: Symbol, rhs: seq<Symbol>, lo: int, R: set<Symbol>)
  {
    forall i, k :: lo <= i && Contributes(first, sc, s, rhs, i, k) ==> first[rhs[k]] - {Eps} <= R
  }

  /** `R` holds every contribution to `s` of the productions from index `lo`. */
  ghost predicate GatheredFrom(g: Grammar, first: SymbolSets, sc: Scan, s: Symbol, lo: nat, R: set<Symbol>)
  {
    forall pi :: lo <= pi < |g.productions| ==> Gathered(first, sc, s, g.productions[pi].rhs, 0, R)
  }

  /** `F` holds what `LL1_follow(s)` always adds, whatever the order of the
      calls: the end marker when `s` is the start symbol, and every FIRST
      contribution of every production. */
  ghost predicate Lower(g: Grammar, first: SymbolSets, sc: Scan, s: Symbol, F: set<Symbol>)
  {
    && (s == g.start ==> g.eos in F)
    && forall p, i, k :: p in g.productions && Contributes(first, sc, s, p.rhs, i, k) ==> first[p.rhs[k]] - {Eps} <= F
  }

  /** Every cached set holds what its key always collects. */
  ghost predicate Covered(g: Grammar, first: SymbolSets, sc: Scan, cache: SymbolSets)
  {
    forall x :: x in cache ==> Lower(g, first, sc, x, cache[x])
  }

  /** As written, a contribution from `i` to `k` is reached from the last
      occurrence of `s` before `k`. */
  lemma {:induction false} LastOccurrence(first: SymbolSets, s: Symbol, rhs: seq<Symbol>, i: nat, k: nat)
    requires Contributes(first, StopsAtRepeat, s, rhs, i, k)
    ensures exists i' :: i <= i' < k && Reaches(first, StopsAtRepeat, s, rhs, i', k)
    decreases k - i
  {
    if !Reaches(first, StopsAtRepeat, s, rhs, i, k) {
      var m :| i < m < k && rhs[m] == s;
      assert Contributes(first, StopsAtRepeat, s, rhs, m, k);
      LastOccurrence(first, s, rhs, m, k);
    }
  }

  /** The occurrence at `j` supplies what it reaches; together with the later
      occurrences that is every contribution from `j` on. */
  lemma GatheredStep(first: SymbolSets, sc: Scan, s: Symbol, rhs: seq<Symbol>, j: nat, R: set<Symbol>)
    requires j < |rhs| && (rhs[j] == s ==> forall k :: Reaches(first, sc, s, rhs, j, k) ==> first[rhs[k]] - {Eps} <= R)
    requires Gathered(first, sc, s, rhs, j + 1, R)
    ensures Gathered(first, sc, s, rhs, j, R)
  {
    forall i, k | j <= i && Contributes(first, sc, s, rhs, i, k)
      ensures first[rhs[k]] - {Eps} <= R
    {
      if i == j {
        if sc.StopsAtRepeat? {
          LastOccurrence(first, s, rhs, i, k);
          var i' :| i <= i' < k && Reaches(first, sc, s, rhs, i', k);
          assert i' > j ==> Contributes(first, sc, s, rhs, i', k);
        }
      }
    }
  }

  /** Production `lo` adds nothing for a symbol it does not mention. */
  lemma GatheredNone(first: SymbolSets, sc: Scan, s: Symbol, rhs: seq<Symbol>, R: set<Symbol>)
    requires s !in rhs
    ensures Gathered(first, sc, s, rhs, 0, R)
  {
    forall i, k | 0 <= i && Contributes(first, sc, s, rhs, i, k)
      ensures false
    {
    }
  }

  /** A larger set gathers at least as much. */
  lemma GatheredMore(first: SymbolSets, sc: Scan, s: Symbol, rhs: seq<Symbol>, lo: int, R: set<Symbol>, R': set<Symbol>)
    requires Gathered(first, sc, s, rhs, lo, R) && R <= R'
    ensures Gathered(first, sc, s, rhs, lo, R')
  {
  }

  /** Gathering from every production index is gathering from every production. */
  lemma GatheredAll(g: Grammar, first: SymbolSets, sc: Scan, s: Symbol, F: set<Symbol>)
    requires GatheredFrom(g, first, sc, s, 0, F) && (s == g.start ==> g.eos in F)
    ensures Lower(g, first, sc, s, F)
  {
    forall p, i, k | p in g.productions && Contributes(first, sc, s, p.rhs, i, k)
      ensures first[p.rhs[k]] - {Eps} <= F
    {
      var pi :| 0 <= pi < |g.productions| && g.productions[pi] == p;
      assert Gathered(first, sc, s, p.rhs, 0, F);
    }
  }

  /** The loop over the productions from index `i` gathers every FIRST
      contribution they make to `s`. Only the FIRST sets matter here: what the
      recursive calls add can only make the result larger. */
  lemma {:induction false} ProdLoopGathers(g: Grammar, first: SymbolSets, sc: Scan, s: Symbol, i: nat, acc: set<Symbol>, st: FollowState)
    requires i <= |g.productions|
    ensures var r := ProdLoop(g, first, sc, s, i, acc, st);
      r.Ok? ==> GatheredFrom(g, first, sc, s, i, r.value.0)
    decreases |g.productions| - i
  {
    if i < |g.productions| {
      var rhs := g.productions[i].rhs;
      var r := ProdLoop(g, first, sc, s, i, acc, st);
      if s in rhs {
        OccLoopGathers(g, first, sc, s, i, 0, acc, st);
        var o := OccLoop(g, first, sc, s, i, 0, acc, st);
        if o.Ok? {
          var (acc', st') := o.value;
          ProdLoopGathers(g, first, sc, s, i + 1, acc', st');
          assert r == ProdLoop(g, first, sc, s, i + 1, acc', st');
          if r.Ok? {
            GatheredMore(first, sc, s, rhs, 0, acc', r.value.0);
          }
        }
      } else {
        ProdLoopGathers(g, first, sc, s, i + 1, acc, st);
        if r.Ok? {
          GatheredNone(first, sc, s, rhs, r.value.0);
        }
      }
    }
  }

  lemma {:induction false} OccLoopGathers(g: Grammar, first: SymbolSets, sc: Scan, s: Symbol, pi: nat, j: nat, acc: set<Symbol>, st: FollowState)
    requires pi < |g.productions| && j <= |g.productions[pi].rhs|
    ensures var r := OccLoop(g, first, sc, s, pi, j, acc, st);
      r.Ok? ==> Gathered(first, sc, s, g.productions[pi].rhs, j, r.value.0)
    decreases |g.productions[pi].rhs| - j
  {
    var rhs := g.productions[pi].rhs;
    if j < |rhs| {
      var o := OccLoop(g, first, sc, s, pi, j, acc, st);
      if rhs[j] != s {
        OccLoopGathers(g, first, sc, s, pi, j + 1, acc, st);
        if o.Ok? {
          GatheredStep(first, sc, s, rhs, j, o.value.0);
        }
      } else {
        OccurrenceGathers(g, first, sc, s, pi, j, acc, st);
        var c := Occurrence(g, first, sc, s, pi, j, acc, st);
        if c.Ok? {
          var (acc', st') := c.value;
          OccLoopGathers(g, first, sc, s, pi, j + 1, acc', st');
          assert o == OccLoop(g, first, sc, s, pi, j + 1, acc', st');
          if o.Ok? {
            GatheredStep(first, sc, s, rhs, j, o.value.0);
          }
        }
      }
    }
  }

  lemma OccurrenceGathers(g: Grammar, first: SymbolSets, sc: Scan, s: Symbol, pi: nat, j: nat, acc: set<Symbol>, st: FollowState)
    requires pi < |g.productions| && j < |g.productions[pi].rhs|
    requires g.productions[pi].rhs[j] == s
    ensures var r := Occurrence(g, first, sc, s, pi, j, acc, st);
      r.Ok? ==> forall k :: Reaches(first, sc, s, g.productions[pi].rhs, j, k)
                  ==> first[g.productions[pi].rhs[k]] - {Eps} <= r.value.0
  {
    if j < |g.productions[pi].rhs| - 1 {
      ScanLoopGathers(g, first, sc, s, pi, j, j, acc, st);
    }
  }

  lemma {:induction false} ScanLoopGathers(g: Grammar, first: SymbolSets, sc: Scan, s: Symbol, pi: nat, pos: nat, curr: nat, acc: set<Symbol>, st: FollowState)
    requires pi < |g.productions| && pos <= curr < |g.productions[pi].rhs|
    requires g.productions[pi].rhs[pos] == s && NullableBetween(first, g.productions[pi].rhs, pos, curr + 1)
    requires sc.StopsAtRepeat? ==> forall m :: pos < m <= curr ==> g.productions[pi].rhs[m] != s
    ensures var r := ScanLoop(g, first, sc, s, pi, curr, acc, st);
      r.Ok? ==> forall k :: curr < k && Reaches(first, sc, s, g.productions[pi].rhs, pos, k)
                  ==> first[g.productions[pi].rhs[k]] - {Eps} <= r.value.0
    decreases |g.productions[pi].rhs| - curr
  {
    var p := g.productions[pi];
    if curr < |p.rhs| - 1 {
      var next := curr + 1;
      if (p.rhs[next] != s || sc.PassesRepeat?) && p.rhs[next] in first {
        var f := first[p.rhs[next]];
        var acc' := acc + (f - {Eps});
        if Eps !in f {
          forall k | curr < k && Reaches(first, sc, s, p.rhs, pos, k)
            ensures k == next
          {
          }
        } else if next < |p.rhs| - 1 {
          ScanLoopGathers(g, first, sc, s, pi, pos, next, acc', st);
        }
      }
    }
  }

  /** The computation keeps the cache covered, and a symbol not already being
      visited gets everything it always collects. */
  lemma {:induction false} FollowCovers(g: Grammar, first: SymbolSets, sc: Scan, s: Symbol, st: FollowState)
    requires Covered(g, first, sc, st.cache)
    ensures var r := Follow(g, first, sc, s, st);
      r.Ok? ==> Covered(g, first, sc, r.value.1.cache) && (s !in st.visiting ==> Lower(g, first, sc, s, r.value.0))
    decreases |Lhs(g) - st.visiting|, if s in Lhs(g) then 1 else 6, 0
  {
    if s !in st.visiting && s !in st.cache {
      VisitOne(g, st.visiting, s);
      var init := if s == g.start then {g.eos} else {};
      var st1 := st.(visiting := st.visiting + {s});
      ProdLoopCovers(g, first, sc, s, 0, init, st1);
      ProdLoopGathers(g, first, sc, s, 0, init, st1);
      var r := ProdLoop(g, first, sc, s, 0, init, st1);
      if r.Ok? {
        var (acc, st2) := r.value;
        GatheredAll(g, first, sc, s, acc);
        CoveredAdd(g, first, sc, st2.cache, s, acc);
        assert Follow(g, first, sc, s, st) == Ok((acc, st2.(cache := st2.cache[s := acc])));
      }
    }
  }

  /** Caching a set that holds what its key always collects keeps the cache covered. */
  lemma CoveredAdd(g: Grammar, first: SymbolSets, sc: Scan, cache: SymbolSets, x: Symbol, F: set<Symbol>)
    requires Covered(g, first, sc, cache) && Lower(g, first, sc, x, F)
    ensures Covered(g, first, sc, cache[x := F])
  {
  }

  lemma {:induction false} ProdLoopCovers(g: Grammar, first: SymbolSets, sc: Scan, s: Symbol, i: nat, acc: set<Symbol>, st: FollowState)
    requires i <= |g.productions| && Covered(g, first, sc, st.cache)
    ensures var r := ProdLoop(g, first, sc, s, i, acc, st);
      r.Ok? ==> Covered(g, first, sc, r.value.1.cache)
    decreases |Lhs(g) - st.visiting|, 5, |g.productions| - i
  {
    if i < |g.productions| {
      if s in g.productions[i].rhs {
        OccLoopCovers(g, first, sc, s, i, 0, acc, st);
        var o := OccLoop(g, first, sc, s, i, 0, acc, st);
        if o.Ok? {
          var (acc', st') := o.value;
          Unvisited(g, st.visiting, st'.visiting);
          ProdLoopCovers(g, first, sc, s, i + 1, acc', st');
          assert ProdLoop(g, first, sc, s, i, acc, st) == ProdLoop(g, first, sc, s, i + 1, acc', st');
        }
      } else {
        ProdLoopCovers(g, first, sc, s, i + 1, acc, st);
      }
    }
  }

  lemma {:induction false} OccLoopCovers(g: Grammar, first: SymbolSets, sc: Scan, s: Symbol, pi: nat, j: nat, acc: set<Symbol>, st: FollowState)
    requires pi < |g.productions| && j <= |g.productions[pi].rhs| && Covered(g, first, sc, st.cache)
    ensures var r := OccLoop(g, first, sc, s, pi, j, acc, st);
      r.Ok? ==> Covered(g, first, sc, r.value.1.cache)
    decreases |Lhs(g) - st.visiting|, 4, |g.productions[pi].rhs| - j
  {
    if j < |g.productions[pi].rhs| {
      if g.productions[pi].rhs[j] != s {
        OccLoopCovers(g, first, sc, s, pi, j + 1, acc, st);
      } else {
        OccurrenceCovers(g, first, sc, s, pi, j, acc, st);
        var o := Occurrence(g, first, sc, s, pi, j, acc, st);
        if o.Ok? {
          var (acc', st') := o.value;
          Unvisited(g, st.visiting, st'.visiting);
          OccLoopCovers(g, first, sc, s, pi, j + 1, acc', st');
          assert OccLoop(g, first, sc, s, pi, j, acc, st) == OccLoop(g, first, sc, s, pi, j + 1, acc', st');
        }
      }
    }
  }

  lemma {:induction false} OccurrenceCovers(g: Grammar, first: SymbolSets, sc: Scan, s: Symbol, pi: nat, j: nat, acc: set<Symbol>, st: FollowState)
    requires pi < |g.productions| && j < |g.productions[pi].rhs| && Covered(g, first, sc, st.cache)
    ensures var r := Occurrence(g, first, sc, s, pi, j, acc, st);
      r.Ok? ==> Covered(g, first, sc, r.value.1.cache)
    decreases |Lhs(g) - st.visiting|, 3, 0
  {
    var p := g.productions[pi];
    if j < |p.rhs| - 1 {
      ScanLoopCovers(g, first, sc, s, pi, j, acc, st);
    } else if p.lhs != s {
      FollowCovers(g, first, sc, p.lhs, st);
    }
  }

  lemma {:induction false} ScanLoopCovers(g: Grammar, first: SymbolSets, sc: Scan, s: Symbol, pi: nat, curr: nat, acc: set<Symbol>, st: FollowState)
    requires pi < |g.productions| && curr < |g.productions[pi].rhs| && Covered(g, first, sc, st.cache)
    ensures var r := ScanLoop(g, first, sc, s, pi, curr, acc, st);
      r.Ok? ==> Covered(g, first, sc, r.value.1.cache)
    decreases |Lhs(g) - st.visiting|, 2, |g.productions[pi].rhs| - curr
  {
    var p := g.productions[pi];
    if curr < |p.rhs| - 1 {
      var next := curr + 1;
      if (p.rhs[next] != s || sc.PassesRepeat?) && p.rhs[next] in first && Eps in first[p.rhs[next]] {
        var acc' := acc + (first[p.rhs[next]] - {Eps});
        if next == |p.rhs| - 1 {
          FollowCovers(g, first, sc, p.lhs, st);
        } else {
          ScanLoopCovers(g, first, sc, s, pi, next, acc', st);
        }
      }
    }
  }

  // ---------------------------------------------------------------------
  // The driver loop.

  /** The symbols that can appear in any FOLLOW set: the end marker and the
      non-epsilon members of the FIRST sets. */
  function Alphabet(g: Grammar, first: SymbolSets): (r: set<Symbol>)
    ensures forall x :: x in r <==> x == g.eos || exists k :: k in first && x in first[k] && x != Eps
  {
    {g.eos} + set k, x | k in first && x in first[k] && x != Eps :: x
  }

  /** Sending every symbol to the whole alphabet solves the FOLLOW equations. */
  lemma AlphabetBound(g: Grammar, first: SymbolSets)
    ensures IsFollowBound(g, first, (x: Symbol) => Alphabet(g, first))
  {
  }

  lemma LhsAreNonTerminals(g: Grammar)
    ensures Lhs(g) == NonTerminals(g.productions)
  {
    forall x | x in NonTerminals(g.productions)
      ensures x in Lhs(g)
    {
      var i :| 0 <= i < |g.productions| && g.productions[i].lhs == x;
      assert g.productions[i] in g.productions;
    }
  }

  /** `cache` lies within every solution of the FOLLOW equations: none of
      its sets holds a symbol that cannot follow its key. */
  ghost predicate Sound(g: Grammar, first: SymbolSets, cache: SymbolSets)
  {
    forall B :: IsFollowBound(g, first, B) ==> Within(cache, B)
  }

  /** A sound cache never holds epsilon, since neither the end marker nor a
      FIRST set with epsilon removed does. */
  lemma SoundIsEpsFree(g: Grammar, first: SymbolSets, cache: SymbolSets)
    requires Sound(g, first, cache) && g.eos != Eps
    ensures EpsFree(cache)
  {
    AlphabetBound(g, first);
    assert Within(cache, (x: Symbol) => Alphabet(g, first));
  }

  /** What the dictionary of `extract_LL1_follow_sets` keeps between the
      top-level calls: it is keyed by left-hand sides, sound, covered, and
      holds the end marker after the start symbol. */
  ghost predicate Consistent(g: Grammar, first: SymbolSets, sc: Scan, cache: SymbolSets)
  {
    cache.Keys <= Lhs(g) && Sound(g, first, cache) && StartMarked(g, cache) && Covered(g, first, sc, cache)
  }

  /** One top-level call `LL1_follow(x, ...)` with nothing visited, as made
      by `extract_LL1_follow_sets`, keeps the dictionary consistent and adds `x`. */
  lemma TopLevelFollow(g: Grammar, first: SymbolSets, sc: Scan, x: Symbol, follow: SymbolSets)
    requires x in Lhs(g) && Consistent(g, first, sc, follow)
    ensures var r := Follow(g, first, sc, x, FollowState(follow, {}));
      && (r.Err? ==> OnSomeRhs(g, r.error) && r.error !in first)
      && (FirstKnown(g, first) ==> r.Ok?)
      && (r.Ok? ==> Extends(follow, r.value.1.cache) && x in r.value.1.cache && Consistent(g, first, sc, r.value.1.cache))
  {
    var st := FollowState(follow, {});
    FollowFails(g, first, sc, x, st);
    FollowKeys(g, first, sc, x, st);
    FollowCovers(g, first, sc, x, st);
    forall B | IsFollowBound(g, first, B)
      ensures var r := Follow(g, first, sc, x, st); r.Ok? ==> Within(r.value.1.cache, B)
    {
      FollowWithin(g, first, sc, B, x, st);
    }
  }

  /** The top-level calls `LL1_follow(x, ...)` for the symbols of `order`, in
      turn, each with nothing visited and the dictionary the previous calls
      left behind; the first failure ends the sweep. */
  function Sweep(g: Grammar, first: SymbolSets, sc: Scan, order: seq<Symbol>): (r: Result<SymbolSets, Symbol>)
    ensures r.Ok? ==> forall x :: x in order ==> x in r.value
    decreases |order|
  {
    if order == [] then Ok(map[])
    else
      var x := order[|order| - 1];
      match Sweep(g, first, sc, order[..|order| - 1])
      case Err(e) => Err(e)
      case Ok(follow) =>
        match Follow(g, first, sc, x, FollowState(follow, {}))
        case Err(e) => Err(e)
        case Ok((_, st)) => Ok(st.cache)
  }

  /** Once the sweep has failed, sweeping further symbols fails the same way. */
  lemma {:induction false} SweepFailureStays(g: Grammar, first: SymbolSets, sc: Scan, order: seq<Symbol>, i: nat)
    requires i <= |order| && Sweep(g, first, sc, order[..i]).Err?
    ensures Sweep(g, first, sc, order) == Sweep(g, first, sc, order[..i])
    decreases |order| - i
  {
    if i < |order| {
      assert order[..i + 1][..i] == order[..i];
      SweepFailureStays(g, first, sc, order, i + 1);
    } else {
      assert order[..i] == order;
    }
  }

  /** One more top-level call extends the sweep, or ends it with its failure. */
  lemma SweepOnce(g: Grammar, first: SymbolSets, sc: Scan, order: seq<Symbol>, i: nat, follow: SymbolSets)
    requires i < |order| && Sweep(g, first, sc, order[..i]) == Ok(follow)
    ensures var r := Follow(g, first, sc, order[i], FollowState(follow, {}));
      && (r.Err? ==> Sweep(g, first, sc, order) == Err(r.error))
      && (r.Ok? ==> Sweep(g, first, sc, order[..i + 1]) == Ok(r.value.1.cache))
  {
    assert order[..i + 1][..i] == order[..i];
    if Follow(g, first, sc, order[i], FollowState(follow, {})).Err? {
      SweepFailureStays(g, first, sc, order, i + 1);
    }
  }

  /** A sweep over left-hand sides leaves the dictionary consistent and
      holding every symbol swept, or fails on a symbol that occurs on some
      right-hand side and has no FIRST set. */
  lemma {:induction false} SweepConsistent(g: Grammar, first: SymbolSets, sc: Scan, order: seq<Symbol>)
    requires forall x :: x in order ==> x in Lhs(g)
    ensures var r := Sweep(g, first, sc, order);
      && (r.Err? ==> OnSomeRhs(g, r.error) && r.error !in first)
      && (FirstKnown(g, first) ==> r.Ok?)
      && (r.Ok? ==> Consistent(g, first, sc, r.value))
    decreases |order|
  {
    if order != [] {
      var init := order[..|order| - 1];
      assert forall x :: x in init ==> x in order;
      SweepConsistent(g, first, sc, init);
      if Sweep(g, first, sc, init).Ok? {
        TopLevelFollow(g, first, sc, order[|order| - 1], Sweep(g, first, sc, init).value);
      }
    }
  }

  /** What a sweep over all the non-terminals yields. */
  lemma SweepOutcome(g: Grammar, first: SymbolSets, sc: Scan, order: seq<Symbol>)
    requires forall x :: x in order <==> x in NonTerminals(g.productions)
    ensures var r := Sweep(g, first, sc, order);
      && (r.Err? ==> OnSomeRhs(g, r.error) && r.error !in first)
      && (FirstKnown(g, first) ==> r.Ok?)
      && (r.Ok? ==> r.value.Keys == NonTerminals(g.productions) && Consistent(g, first, sc, r.value))
      && (r.Ok? && g.eos != Eps ==> EpsFree(r.value))
  {
    LhsAreNonTerminals(g);
    SweepConsistent(g, first, sc, order);
    var r := Sweep(g, first, sc, order);
    if r.Ok? && g.eos != Eps {
      SoundIsEpsFree(g, first, r.value);
    }
  }

  /** `extract_LL1_follow_sets`: FOLLOW of every non-terminal, each top-level
      call starting with nothing visited. Python enumerates the non-terminals in
      the order of a `set`; the model takes that enumeration as `order`. The
      sets lie within the least solution of the FOLLOW equations and hold
      every FIRST contribution the walk reaches; see `CoveredFirstClause`. */
  method ExtractFollowSets(g: Grammar, first: SymbolSets, sc: Scan, order: seq<Symbol>) returns (r: Result<SymbolSets, Symbol>)
    requires forall x :: x in order <==> x in NonTerminals(g.productions)
    ensures r.Err? ==> OnSomeRhs(g, r.error) && r.error !in first
    ensures FirstKnown(g, first) ==> r.Ok?
    ensures r.Ok? ==> r.value.Keys == NonTerminals(g.productions)
    ensures r.Ok? ==> Sound(g, first, r.value)
    ensures r.Ok? ==> StartMarked(g, r.value)
    ensures r.Ok? && g.eos != Eps ==> EpsFree(r.value)
    ensures r.Ok? ==> Covered(g, first, sc, r.value)
    ensures r == Sweep(g, first, sc, order)
  {
    SweepOutcome(g, first, sc, order);
    var follow: SymbolSets := map[];
    for i := 0 to |order|
      invariant Sweep(g, first, sc, order[..i]) == Ok(follow)
    {
      SweepOnce(g, first, sc, order, i, follow);
      var res := Follow(g, first, sc, order[i], FollowState(follow, {}));
      if res.Err? {
        return Err(res.error);
      }
      follow := res.value.1.cache;
    }
    assert order[..|order|] == order;
    r := Ok(follow);
  }

  /** Covered sets satisfy the FIRST clause of the FOLLOW equations (see
      `IsFollowBound`) at every cached key: fully when the walk passes a
      repeated occurrence, and as written except where the FIRST set added
      would be that of the repeated symbol itself. */
  lemma CoveredFirstClause(g: Grammar, first: SymbolSets, sc: Scan, cache: SymbolSets)
    requires Covered(g, first, sc, cache)
    ensures forall p, i, k :: p in g.productions && 0 <= i < k < |p.rhs| && p.rhs[i] in cache
              && NullableBetween(first, p.rhs, i, k) && p.rhs[k] in first && (sc.PassesRepeat? || p.rhs[k] != p.rhs[i])
              ==> first[p.rhs[k]] - {Eps} <= cache[p.rhs[i]]
  {
    forall p, i, k | p in g.productions && 0 <= i < k < |p.rhs| && p.rhs[i] in cache
              && NullableBetween(first, p.rhs, i, k) && p.rhs[k] in first && (sc.PassesRepeat? || p.rhs[k] != p.rhs[i])
      ensures first[p.rhs[k]] - {Eps} <= cache[p.rhs[i]]
    {
      assert Contributes(first, sc, p.rhs[i], p.rhs, i, k);
    }
  }
}

=== FILE: follow_examples.dfy ===
/** The FOLLOW computation of LangChisel/parse/ll1_parser.py on concrete
    grammars: the expression grammar of tests/test_parser.py, whose sets it
    gets right, and a grammar with a repeated nullable symbol, on which the
    `break` of the walk loses part of a FOLLOW set. */
module FollowExamples {
  import opened Results
  import opened CFG
  import opened FollowSets
  import opened Examples
  import opened LL1Table

  // One step of `LL1_follow` at a time, for following it on concrete input.

  /** A production that does not mention `s` is passed over. */
  lemma ProdLoopPasses(g: Grammar, first: SymbolSets, sc: Scan, s: Symbol, i: nat, p: Production, acc: set<Symbol>, st: FollowState)
    requires i < |g.productions| && g.productions[i] == p && s !in p.rhs
    ensures ProdLoop(g, first, sc, s, i, acc, st) == ProdLoop(g, first, sc, s, i + 1, acc, st)
  {
  }

  /** A production that mentions `s` contributes what its occurrences add. */
  lemma ProdLoopEnters(g: Grammar, first: SymbolSets, sc: Scan, s: Symbol, i: nat, p: Production, acc: set<Symbol>, st: FollowState, acc': set<Symbol>, st': FollowState)
    requires i < |g.productions| && g.productions[i] == p && s in p.rhs
    requires OccLoop(g, first, sc, s, i, 0, acc, st) == Ok((acc', st'))
    ensures ProdLoop(g, first, sc, s, i, acc, st) == ProdLoop(g, first, sc, s, i + 1, acc', st')
  {
  }

  /** A position not holding `s` is passed over. */
  lemma OccLoopPasses(g: Grammar, first: SymbolSets, sc: Scan, s: Symbol, pi: nat, j: nat, acc: set<Symbol>, st: FollowState)
    requires pi < |g.productions| && j < |g.productions[pi].rhs| && g.productions[pi].rhs[j] != s
    ensures OccLoop(g, first, sc, s, pi, j, acc, st) == OccLoop(g, first, sc, s, pi, j + 1, acc, st)
  {
  }

  /** An occurrence of `s` contributes what it adds. */
  lemma OccLoopEnters(g: Grammar, first: SymbolSets, sc: Scan, s: Symbol, pi: nat, j: nat, acc: set<Symbol>, st: FollowState, acc': set<Symbol>, st': FollowState)
    requires pi < |g.productions| && j < |g.productions[pi].rhs| && g.productions[pi].rhs[j] == s
    requires Occurrence(g, first, sc, s, pi, j, acc, st) == Ok((acc', st'))
    ensures OccLoop(g, first, sc, s, pi, j, acc, st) == OccLoop(g, first, sc, s, pi, j + 1, acc', st')
  {
  }

  /** An occurrence at the end adds the FOLLOW set of another left-hand side. */
  lemma OccurrenceAtEnd(g: Grammar, first: SymbolSets, sc: Scan, s: Symbol, pi: nat, acc: set<Symbol>, st: FollowState, f: set<Symbol>, st': FollowState)
    requires pi < |g.productions| && |g.productions[pi].rhs| > 0 && g.productions[pi].lhs != s
    requires Follow(g, first, sc, g.productions[pi].lhs, st) == Ok((f, st'))
    ensures Occurrence(g, first, sc, s, pi, |g.productions[pi].rhs| - 1, acc, st) == Ok((acc + f, st'))
  {
  }

  /** The sweep over one more symbol. */
  lemma SweepStep(g: Grammar, first: SymbolSets, sc: Scan, order: seq<Symbol>, i: nat, follow: SymbolSets, f: set<Symbol>, st: FollowState)
    requires i < |order| && Sweep(g, first, sc, order[..i]) == Ok(follow)
    requires Follow(g, first, sc, order[i], FollowState(follow, {})) == Ok((f, st))
    ensures Sweep(g, first, sc, order[..i + 1]) == Ok(st.cache)
  {
    assert order[..i + 1][..i] == order[..i];
  }

  /** As written, the walk ends at another occurrence of `s`. */
  lemma ScanMeetsRepeat(g: Grammar, first: SymbolSets, s: Symbol, pi: nat, curr: nat, acc: set<Symbol>, st: FollowState)
    requires pi < |g.productions| && curr + 1 < |g.productions[pi].rhs| && g.productions[pi].rhs[curr + 1] == s
    ensures ScanLoop(g, first, StopsAtRepeat, s, pi, curr, acc, st) == Ok((acc, st))
  {
  }

  /** A symbol already computed, and not being visited, is answered from the
      dictionary and marked visited. */
  lemma FollowCached(g: Grammar, first: SymbolSets, sc: Scan, s: Symbol, st: FollowState)
    requires s !in st.visiting && s in st.cache
    ensures Follow(g, first, sc, s, st) == Ok((st.cache[s], st.(visiting := st.visiting + {s})))
  {
  }

  /** The walk passes a nullable symbol that is not the last. */
  lemma ScanPasses(g: Grammar, first: SymbolSets, sc: Scan, s: Symbol, pi: nat, curr: nat, x: Symbol, acc: set<Symbol>, st: FollowState)
    requires pi < |g.productions| && curr + 2 < |g.productions[pi].rhs| && g.productions[pi].rhs[curr + 1] == x
    requires (x != s || sc.PassesRepeat?) && x in first && Eps in first[x]
    ensures ScanLoop(g, first, sc, s, pi, curr, acc, st) == ScanLoop(g, first, sc, s, pi, curr + 1, acc + (first[x] - {Eps}), st)
  {
  }

  /** The walk stops after a symbol that cannot vanish. */
  lemma ScanStops(g: Grammar, first: SymbolSets, sc: Scan, s: Symbol, pi: nat, curr: nat, x: Symbol, acc: set<Symbol>, st: FollowState)
    requires pi < |g.productions| && curr + 1 < |g.productions[pi].rhs| && g.productions[pi].rhs[curr + 1] == x
    requires (x != s || sc.PassesRepeat?) && x in first && Eps !in first[x]
    ensures ScanLoop(g, first, sc, s, pi, curr, acc, st) == Ok((acc + (first[x] - {Eps}), st))
  {
  }

  /** The walk passes a nullable last symbol and adds the FOLLOW set of the
      left-hand side. */
  lemma ScanReachesEnd(g: Grammar, first: SymbolSets, sc: Scan, s: Symbol, pi: nat, curr: nat, x: Symbol, acc: set<Symbol>, st: FollowState, f: set<Symbol>, st': FollowState)
    requires pi < |g.productions| && curr + 2 == |g.productions[pi].rhs| && g.productions[pi].rhs[curr + 1] == x
    requires (x != s || sc.PassesRepeat?) && x in first && Eps in first[x]
    requires Follow(g, first, sc, g.productions[pi].lhs, st) == Ok((f, st'))
    ensures ScanLoop(g, first, sc, s, pi, curr, acc, st) == Ok((acc + (first[x] - {Eps}) + f, st'))
  {
  }

  /** `LL1_follow(E)` first in the sweep: E is the start symbol and only
      occurs before `)`. */
  lemma ExprFollowE(sc: Scan)
    ensures Follow(Expr, ExprFirst, sc, E, FollowState(map[], {})) == Ok((FollowE, FollowState(CacheE, {E})))
  {
    var st1 := FollowState(map[], {E});
    ExprEHead(sc);
    ExprEParen(sc);
    assert Expr.start == E;
    assert FollowState(map[], {}).(visiting := {} + {E}) == st1;
    assert map[][E := FollowE] == CacheE;
  }

  lemma ExprEHead(sc: Scan)
    ensures ProdLoop(Expr, ExprFirst, sc, E, 0, {Dollar}, FollowState(map[], {E}))
      == ProdLoop(Expr, ExprFirst, sc, E, 6, {Dollar}, FollowState(map[], {E}))
  {
    ExprNamesDistinct();
    ExprProductions();
    var g, first := Expr, ExprFirst;
    var st1 := FollowState(map[], {E});
    ProdLoopPasses(g, first, sc, E, 0, ETerm, {Dollar}, st1);
    ProdLoopPasses(g, first, sc, E, 1, ESum, {Dollar}, st1);
    ProdLoopPasses(g, first, sc, E, 2, ESumEnd, {Dollar}, st1);
    ProdLoopPasses(g, first, sc, E, 3, TFactor, {Dollar}, st1);
    ProdLoopPasses(g, first, sc, E, 4, TProduct, {Dollar}, st1);
    ProdLoopPasses(g, first, sc, E, 5, TProductEnd, {Dollar}, st1);
  }

  lemma ExprEParen(sc: Scan)
    ensures ProdLoop(Expr, ExprFirst, sc, E, 6, {Dollar}, FollowState(map[], {E})) == Ok((FollowE, FollowState(map[], {E})))
  {
    ExprNamesDistinct();
    ExprProductions();
    var g, first := Expr, ExprFirst;
    var st1 := FollowState(map[], {E});
    ScanStops(g, first, sc, E, 6, 1, Close, {Dollar}, st1);
    assert {Dollar} + (first[Close] - {Eps}) == FollowE;
    assert Occurrence(g, first, sc, E, 6, 1, {Dollar}, st1) == Ok((FollowE, st1));
    OccLoopPasses(g, first, sc, E, 6, 0, {Dollar}, st1);
    OccLoopEnters(g, first, sc, E, 6, 1, {Dollar}, st1, FollowE, st1);
    OccLoopPasses(g, first, sc, E, 6, 2, FollowE, st1);
    ProdLoopEnters(g, first, sc, E, 6, FParen, {Dollar}, st1, FollowE, st1);
    ProdLoopPasses(g, first, sc, E, 7, FId, FollowE, st1);
  }

  // The FOLLOW sets of `expected_follow_1` and the dictionaries the sweep
  // over E, E', T, T', F leaves behind.
  const FollowE := {Dollar, Close}
  const FollowTerm := {Dollar, Close, Plus}
  const FollowF := {Dollar, Close, Plus, Star}
  const CacheE: SymbolSets := map[E := FollowE]
  const CacheERest: SymbolSets := map[E := FollowE, ERest := FollowE]
  const CacheTerm: SymbolSets := map[E := FollowE, ERest := FollowE, Term := FollowTerm]
  const CacheTRest: SymbolSets := map[E := FollowE, ERest := FollowE, Term := FollowTerm, TRest := FollowTerm]

  /** `LL1_follow(E')` second: E' ends E -> T E', so it gets FOLLOW(E) from
      the dictionary; at the end of E' -> + T E' it is its own left-hand side. */
  lemma ExprFollowERest(sc: Scan)
    ensures Follow(Expr, ExprFirst, sc, ERest, FollowState(CacheE, {}))
      == Ok((FollowE, FollowState(CacheERest, {ERest, E})))
  {
    var st1 := FollowState(CacheE, {ERest});
    var st2 := FollowState(CacheE, {ERest, E});
    ExprERestHead(sc);
    ExprERestTail(sc);
    ExprNamesDistinct();
    assert FollowState(CacheE, {}).(visiting := {} + {ERest}) == st1;
    assert CacheE[ERest := FollowE] == CacheERest;
  }

  lemma ExprERestHead(sc: Scan)
    ensures ProdLoop(Expr, ExprFirst, sc, ERest, 0, {}, FollowState(CacheE, {ERest}))
      == ProdLoop(Expr, ExprFirst, sc, ERest, 2, FollowE, FollowState(CacheE, {ERest, E}))
  {
    ExprNamesDistinct();
    ExprProductions();
    var g, first, fe := Expr, ExprFirst, FollowE;
    var st1 := FollowState(CacheE, {ERest});
    var st2 := FollowState(CacheE, {ERest, E});
    FollowCached(g, first, sc, E, st1);
    assert st1.(visiting := st1.visiting + {E}) == st2;
    OccurrenceAtEnd(g, first, sc, ERest, 0, {}, st1, fe, st2);
    assert {} + fe == fe;
    OccLoopPasses(g, first, sc, ERest, 0, 0, {}, st1);
    OccLoopEnters(g, first, sc, ERest, 0, 1, {}, st1, fe, st2);
    ProdLoopEnters(g, first, sc, ERest, 0, ETerm, {}, st1, fe, st2);
    OccLoopPasses(g, first, sc, ERest, 1, 0, fe, st2);
    OccLoopPasses(g, first, sc, ERest, 1, 1, fe, st2);
    assert Occurrence(g, first, sc, ERest, 1, 2, fe, st2) == Ok((fe, st2));
    OccLoopEnters(g, first, sc, ERest, 1, 2, fe, st2, fe, st2);
    ProdLoopEnters(g, first, sc, ERest, 1, ESum, fe, st2, fe, st2);
  }

  lemma ExprERestTail(sc: Scan)
    ensures ProdLoop(Expr, ExprFirst, sc, ERest, 2, FollowE, FollowState(CacheE, {ERest, E}))
      == Ok((FollowE, FollowState(CacheE, {ERest, E})))
  {
    ExprNamesDistinct();
    ExprProductions();
    var g, first, fe := Expr, ExprFirst, FollowE;
    var st2 := FollowState(CacheE, {ERest, E});
    ProdLoopPasses(g, first, sc, ERest, 2, ESumEnd, fe, st2);
    ProdLoopPasses(g, first, sc, ERest, 3, TFactor, fe, st2);
    ProdLoopPasses(g, first, sc, ERest, 4, TProduct, fe, st2);
    ProdLoopPasses(g, first, sc, ERest, 5, TProductEnd, fe, st2);
    ProdLoopPasses(g, first, sc, ERest, 6, FParen, fe, st2);
    ProdLoopPasses(g, first, sc, ERest, 7, FId, fe, st2);
  }

  /** `LL1_follow(T)` third: T is followed by E' in E -> T E' and in
      E' -> + T E', so it gets FIRST(E') without epsilon and, E' being
      nullable and last, FOLLOW(E) and FOLLOW(E') from the dictionary. */
  lemma ExprFollowTerm(sc: Scan)
    ensures Follow(Expr, ExprFirst, sc, Term, FollowState(CacheERest, {}))
      == Ok((FollowTerm, FollowState(CacheTerm, {Term, E, ERest})))
  {
    ExprTermETerm(sc);
    ExprTermESum(sc);
    ExprTermTail(sc);
    ExprNamesDistinct();
    assert FollowState(CacheERest, {}).(visiting := {} + {Term}) == FollowState(CacheERest, {Term});
    assert CacheERest[Term := FollowTerm] == CacheTerm;
  }

  lemma ExprTermETerm(sc: Scan)
    ensures ProdLoop(Expr, ExprFirst, sc, Term, 0, {}, FollowState(CacheERest, {Term}))
      == ProdLoop(Expr, ExprFirst, sc, Term, 1, FollowTerm, FollowState(CacheERest, {Term, E}))
  {
    ExprNamesDistinct();
    ExprProductions();
    var g, first := Expr, ExprFirst;
    var st1 := FollowState(CacheERest, {Term});
    var st2 := FollowState(CacheERest, {Term, E});
    FollowCached(g, first, sc, E, st1);
    assert st1.(visiting := st1.visiting + {E}) == st2;
    ScanReachesEnd(g, first, sc, Term, 0, 0, ERest, {}, st1, FollowE, st2);
    assert {} + (first[ERest] - {Eps}) + FollowE == FollowTerm;
    assert Occurrence(g, first, sc, Term, 0, 0, {}, st1) == Ok((FollowTerm, st2));
    OccLoopEnters(g, first, sc, Term, 0, 0, {}, st1, FollowTerm, st2);
    OccLoopPasses(g, first, sc, Term, 0, 1, FollowTerm, st2);
    ProdLoopEnters(g, first, sc, Term, 0, ETerm, {}, st1, FollowTerm, st2);
  }

  lemma ExprTermESum(sc: Scan)
    ensures ProdLoop(Expr, ExprFirst, sc, Term, 1, FollowTerm, FollowState(CacheERest, {Term, E}))
      == ProdLoop(Expr, ExprFirst, sc, Term, 2, FollowTerm, FollowState(CacheERest, {Term, E, ERest}))
  {
    ExprNamesDistinct();
    ExprProductions();
    var g, first := Expr, ExprFirst;
    var st2 := FollowState(CacheERest, {Term, E});
    var st3 := FollowState(CacheERest, {Term, E, ERest});
    FollowCached(g, first, sc, ERest, st2);
    assert st2.(visiting := st2.visiting + {ERest}) == st3;
    ScanReachesEnd(g, first, sc, Term, 1, 1, ERest, FollowTerm, st2, FollowE, st3);
    assert FollowTerm + (first[ERest] - {Eps}) + FollowE == FollowTerm;
    assert Occurrence(g, first, sc, Term, 1, 1, FollowTerm, st2) == Ok((FollowTerm, st3));
    OccLoopPasses(g, first, sc, Term, 1, 0, FollowTerm, st2);
    OccLoopEnters(g, first, sc, Term, 1, 1, FollowTerm, st2, FollowTerm, st3);
    OccLoopPasses(g, first, sc, Term, 1, 2, FollowTerm, st3);
    ProdLoopEnters(g, first, sc, Term, 1, ESum, FollowTerm, st2, FollowTerm, st3);
  }

  lemma ExprTermTail(sc: Scan)
    ensures ProdLoop(Expr, ExprFirst, sc, Term, 2, FollowTerm, FollowState(CacheERest, {Term, E, ERest}))
      == Ok((FollowTerm, FollowState(CacheERest, {Term, E, ERest})))
  {
    ExprNamesDistinct();
    ExprProductions();
    var g, first := Expr, ExprFirst;
    var st3 := FollowState(CacheERest, {Term, E, ERest});
    ProdLoopPasses(g, first, sc, Term, 2, ESumEnd, FollowTerm, st3);
    ProdLoopPasses(g, first, sc, Term, 3, TFactor, FollowTerm, st3);
    ProdLoopPasses(g, first, sc, Term, 4, TProduct, FollowTerm, st3);
    ProdLoopPasses(g, first, sc, Term, 5, TProductEnd, FollowTerm, st3);
    ProdLoopPasses(g, first, sc, Term, 6, FParen, FollowTerm, st3);
    ProdLoopPasses(g, first, sc, Term, 7, FId, FollowTerm, st3);
  }

  /** `LL1_follow(T')` fourth: T' ends T -> F T', so it gets FOLLOW(T) from
      the dictionary; at the end of T' -> * F T' it is its own left-hand side. */
  lemma ExprFollowTRest(sc: Scan)
    ensures Follow(Expr, ExprFirst, sc, TRest, FollowState(CacheTerm, {}))
      == Ok((FollowTerm, FollowState(CacheTRest, {TRest, Term})))
  {
    ExprTRestHead(sc);
    ExprTRestTFactor(sc);
    ExprTRestTProduct(sc);
    ExprTRestTail(sc);
    ExprNamesDistinct();
    assert FollowState(CacheTerm, {}).(visiting := {} + {TRest}) == FollowState(CacheTerm, {TRest});
    assert CacheTerm[TRest := FollowTerm] == CacheTRest;
  }

  lemma ExprTRestHead(sc: Scan)
    ensures ProdLoop(Expr, ExprFirst, sc, TRest, 0, {}, FollowState(CacheTerm, {TRest}))
      == ProdLoop(Expr, ExprFirst, sc, TRest, 3, {}, FollowState(CacheTerm, {TRest}))
  {
    ExprNamesDistinct();
    ExprProductions();
    var g, first := Expr, ExprFirst;
    var st1 := FollowState(CacheTerm, {TRest});
    ProdLoopPasses(g, first, sc, TRest, 0, ETerm, {}, st1);
    ProdLoopPasses(g, first, sc, TRest, 1, ESum, {}, st1);
    ProdLoopPasses(g, first, sc, TRest, 2, ESumEnd, {}, st1);
  }

  lemma ExprTRestTFactor(sc: Scan)
    ensures ProdLoop(Expr, ExprFirst, sc, TRest, 3, {}, FollowState(CacheTerm, {TRest}))
      == ProdLoop(Expr, ExprFirst, sc, TRest, 4, FollowTerm, FollowState(CacheTerm, {TRest, Term}))
  {
    ExprNamesDistinct();
    ExprProductions();
    var g, first := Expr, ExprFirst;
    var st1 := FollowState(CacheTerm, {TRest});
    var st2 := FollowState(CacheTerm, {TRest, Term});
    FollowCached(g, first, sc, Term, st1);
    assert st1.(visiting := st1.visiting + {Term}) == st2;
    OccurrenceAtEnd(g, first, sc, TRest, 3, {}, st1, FollowTerm, st2);
    assert {} + FollowTerm == FollowTerm;
    OccLoopPasses(g, first, sc, TRest, 3, 0, {}, st1);
    OccLoopEnters(g, first, sc, TRest, 3, 1, {}, st1, FollowTerm, st2);
    ProdLoopEnters(g, first, sc, TRest, 3, TFactor, {}, st1, FollowTerm, st2);
  }

  lemma ExprTRestTProduct(sc: Scan)
    ensures ProdLoop(Expr, ExprFirst, sc, TRest, 4, FollowTerm, FollowState(CacheTerm, {TRest, Term}))
      == ProdLoop(Expr, ExprFirst, sc, TRest, 5, FollowTerm, FollowState(CacheTerm, {TRest, Term}))
  {
    ExprNamesDistinct();
    ExprProductions();
    var g, first := Expr, ExprFirst;
    var st2 := FollowState(CacheTerm, {TRest, Term});
    OccLoopPasses(g, first, sc, TRest, 4, 0, FollowTerm, st2);
    OccLoopPasses(g, first, sc, TRest, 4, 1, FollowTerm, st2);
    assert Occurrence(g, first, sc, TRest, 4, 2, FollowTerm, st2) == Ok((FollowTerm, st2));
    OccLoopEnters(g, first, sc, TRest, 4, 2, FollowTerm, st2, FollowTerm, st2);
    ProdLoopEnters(g, first, sc, TRest, 4, TProduct, FollowTerm, st2, FollowTerm, st2);
  }

  lemma ExprTRestTail(sc: Scan)
    ensures ProdLoop(Expr, ExprFirst, sc, TRest, 5, FollowTerm, FollowState(CacheTerm, {TRest, Term}))
      == Ok((FollowTerm, FollowState(CacheTerm, {TRest, Term})))
  {
    ExprNamesDistinct();
    ExprProductions();
    var g, first := Expr, ExprFirst;
    var st2 := FollowState(CacheTerm, {TRest, Term});
    ProdLoopPasses(g, first, sc, TRest, 5, TProductEnd, FollowTerm, st2);
    ProdLoopPasses(g, first, sc, TRest, 6, FParen, FollowTerm, st2);
    ProdLoopPasses(g, first, sc, TRest, 7, FId, FollowTerm, st2);
  }

  /** `LL1_follow(F)` last: F is followed by T' in T -> F T' and in
      T' -> * F T', so it gets FIRST(T') without epsilon and, T' being
      nullable and last, FOLLOW(T) and FOLLOW(T') from the dictionary. */
  lemma ExprFollowF(sc: Scan)
    ensures Follow(Expr, ExprFirst, sc, F, FollowState(CacheTRest, {}))
      == Ok((FollowF, FollowState(ExprFollow, {F, Term, TRest})))
  {
    ExprFHead(sc);
    ExprFTFactor(sc);
    ExprFTProduct(sc);
    ExprFTail(sc);
    ExprNamesDistinct();
    assert FollowState(CacheTRest, {}).(visiting := {} + {F}) == FollowState(CacheTRest, {F});
    assert CacheTRest[F := FollowF] == ExprFollow;
  }

  lemma ExprFHead(sc: Scan)
    ensures ProdLoop(Expr, ExprFirst, sc, F, 0, {}, FollowState(CacheTRest, {F}))
      == ProdLoop(Expr, ExprFirst, sc, F, 3, {}, FollowState(CacheTRest, {F}))
  {
    ExprNamesDistinct();
    ExprProductions();
    var g, first := Expr, ExprFirst;
    var st1 := FollowState(CacheTRest, {F});
    ProdLoopPasses(g, first, sc, F, 0, ETerm, {}, st1);
    ProdLoopPasses(g, first, sc, F, 1, ESum, {}, st1);
    ProdLoopPasses(g, first, sc, F, 2, ESumEnd, {}, st1);
  }

  lemma ExprFTFactor(sc: Scan)
    ensures ProdLoop(Expr, ExprFirst, sc, F, 3, {}, FollowState(CacheTRest, {F}))
      == ProdLoop(Expr, ExprFirst, sc, F, 4, FollowF, FollowState(CacheTRest, {F, Term}))
  {
    ExprNamesDistinct();
    ExprProductions();
    var g, first := Expr, ExprFirst;
    var st1 := FollowState(CacheTRest, {F});
    var st2 := FollowState(CacheTRest, {F, Term});
    FollowCached(g, first, sc, Term, st1);
    assert st1.(visiting := st1.visiting + {Term}) == st2;
    ScanReachesEnd(g, first, sc, F, 3, 0, TRest, {}, st1, FollowTerm, st2);
    assert {} + (first[TRest] - {Eps}) + FollowTerm == FollowF;
    assert Occurrence(g, first, sc, F, 3, 0, {}, st1) == Ok((FollowF, st2));
    OccLoopEnters(g, first, sc, F, 3, 0, {}, st1, FollowF, st2);
    OccLoopPasses(g, first, sc, F, 3, 1, FollowF, st2);
    ProdLoopEnters(g, first, sc, F, 3, TFactor, {}, st1, FollowF, st2);
  }

  lemma ExprFTProduct(sc: Scan)
    ensures ProdLoop(Expr, ExprFirst, sc, F, 4, FollowF, FollowState(CacheTRest, {F, Term}))
      == ProdLoop(Expr, ExprFirst, sc, F, 5, FollowF, FollowState(CacheTRest, {F, Term, TRest}))
  {
    ExprNamesDistinct();
    ExprProductions();
    var g, first := Expr, ExprFirst;
    var st2 := FollowState(CacheTRest, {F, Term});
    var st3 := FollowState(CacheTRest, {F, Term, TRest});
    FollowCached(g, first, sc, TRest, st2);
    assert st2.(visiting := st2.visiting + {TRest}) == st3;
    ScanReachesEnd(g, first, sc, F, 4, 1, TRest, FollowF, st2, FollowTerm, st3);
    assert FollowF + (first[TRest] - {Eps}) + FollowTerm == FollowF;
    assert Occurrence(g, first, sc, F, 4, 1, FollowF, st2) == Ok((FollowF, st3));
    OccLoopPasses(g, first, sc, F, 4, 0, FollowF, st2);
    OccLoopEnters(g, first, sc, F, 4, 1, FollowF, st2, FollowF, st3);
    OccLoopPasses(g, first, sc, F, 4, 2, FollowF, st3);
    ProdLoopEnters(g, first, sc, F, 4, TProduct, FollowF, st2, FollowF, st3);
  }

  lemma ExprFTail(sc: Scan)
    ensures ProdLoop(Expr, ExprFirst, sc, F, 5, FollowF, FollowState(CacheTRest, {F, Term, TRest}))
      == Ok((FollowF, FollowState(CacheTRest, {F, Term, TRest})))
  {
    ExprNamesDistinct();
    ExprProductions();
    var g, first := Expr, ExprFirst;
    var st3 := FollowState(CacheTRest, {F, Term, TRest});
    ProdLoopPasses(g, first, sc, F, 5, TProductEnd, FollowF, st3);
    ProdLoopPasses(g, first, sc, F, 6, FParen, FollowF, st3);
    ProdLoopPasses(g, first, sc, F, 7, FId, FollowF, st3);
  }

  /** The order of the sweep. */
  const ExprOrder := [E, ERest, Term, TRest, F]

  lemma ExprSweep1(sc: Scan)
    ensures Sweep(Expr, ExprFirst, sc, ExprOrder[..1]) == Ok(CacheE)
  {
    assert ExprOrder[..0] == [];
    ExprFollowE(sc);
    SweepStep(Expr, ExprFirst, sc, ExprOrder, 0, map[], FollowE, FollowState(CacheE, {E}));
  }

  lemma ExprSweep2(sc: Scan)
    ensures Sweep(Expr, ExprFirst, sc, ExprOrder[..2]) == Ok(CacheERest)
  {
    ExprSweep1(sc);
    ExprFollowERest(sc);
    SweepStep(Expr, ExprFirst, sc, ExprOrder, 1, CacheE, FollowE, FollowState(CacheERest, {ERest, E}));
  }

  lemma ExprSweep3(sc: Scan)
    ensures Sweep(Expr, ExprFirst, sc, ExprOrder[..3]) == Ok(CacheTerm)
  {
    ExprSweep2(sc);
    ExprFollowTerm(sc);
    SweepStep(Expr, ExprFirst, sc, ExprOrder, 2, CacheERest, FollowTerm, FollowState(CacheTerm, {Term, E, ERest}));
  }

  lemma ExprSweep4(sc: Scan)
    ensures Sweep(Expr, ExprFirst, sc, ExprOrder[..4]) == Ok(CacheTRest)
  {
    ExprSweep3(sc);
    ExprFollowTRest(sc);
    SweepStep(Expr, ExprFirst, sc, ExprOrder, 3, CacheTerm, FollowTerm, FollowState(CacheTRest, {TRest, Term}));
  }

  lemma ExprSweep5(sc: Scan)
    ensures Sweep(Expr, ExprFirst, sc, ExprOrder[..5]) == Ok(ExprFollow)
  {
    ExprSweep4(sc);
    ExprFollowF(sc);
    SweepStep(Expr, ExprFirst, sc, ExprOrder, 4, CacheTRest, FollowF, FollowState(ExprFollow, {F, Term, TRest}));
  }

  /** `test_follow_1`: `extract_LL1_follow_sets` over the non-terminals in
      the order E, E', T, T', F yields `expected_follow_1`, with the walk as
      written or corrected (no right-hand side repeats a symbol). */
  lemma ExprFollowSets(sc: Scan)
    ensures Sweep(Expr, ExprFirst, sc, [E, ERest, Term, TRest, F]) == Ok(ExprFollow)
  {
    ExprSweep5(sc);
    assert ExprOrder[..5] == [E, ERest, Term, TRest, F];
  }

  // X -> A A c, A -> a | eps: A can be followed by a (the second A) or by c.
  // The grammar is ambiguous: `a c` derives with either A producing a.
  const SymX := N("X")
  const SymA := N("A")
  const TokA := T("a")
  const TokC := T("c")
  const Twice := Grammar([Production(SymX, [SymA, SymA, TokC]), Production(SymA, [TokA]), Production(SymA, [Eps])], SymX, Dollar)
  const TwiceFirst: SymbolSets := map[SymX := {TokA, TokC}, SymA := {TokA, Eps}, TokA := {TokA}, TokC := {TokC}, Eps := {Eps}]

  lemma TwiceDistinct()
    ensures SymX != SymA && SymX != Dollar && SymA != Dollar && TokA != TokC
    ensures Twice.productions[0].rhs == [SymA, SymA, TokC] && Twice.productions[0].lhs == SymX
    ensures Twice.productions[1].rhs == [TokA] && Twice.productions[2].rhs == [Eps] && |Twice.productions| == 3
  {
    assert SymX.name[0] != SymA.name[0] && SymX.name[0] != Dollar.name[0] && SymA.name[0] != Dollar.name[0];
    assert TokA.tag[0] != TokC.tag[0];
  }

  /** The occurrences of A in X -> A A c, walked as written: the first walk
      stops at the second A, the second walk adds FIRST(c). */
  lemma TwiceOccurrencesAsWritten()
    ensures OccLoop(Twice, TwiceFirst, StopsAtRepeat, SymA, 0, 0, {}, FollowState(map[], {SymA})) == Ok(({TokC}, FollowState(map[], {SymA})))
  {
    TwiceDistinct();
    var g, first, sc, st := Twice, TwiceFirst, StopsAtRepeat, FollowState(map[], {SymA});
    ScanMeetsRepeat(g, first, SymA, 0, 0, {}, st);
    OccLoopEnters(g, first, sc, SymA, 0, 0, {}, st, {}, st);
    ScanStops(g, first, sc, SymA, 0, 1, TokC, {}, st);
    assert {} + (first[TokC] - {Eps}) == {TokC};
    OccLoopEnters(g, first, sc, SymA, 0, 1, {}, st, {TokC}, st);
    OccLoopPasses(g, first, sc, SymA, 0, 2, {TokC}, st);
  }

  /** The same occurrences, walked past the repeat: the first walk adds
      FIRST(A) without epsilon, passes the nullable second A and adds FIRST(c). */
  lemma TwiceOccurrencesCorrected()
    ensures OccLoop(Twice, TwiceFirst, PassesRepeat, SymA, 0, 0, {}, FollowState(map[], {SymA})) == Ok(({TokA, TokC}, FollowState(map[], {SymA})))
  {
    TwiceDistinct();
    var g, first, sc, st := Twice, TwiceFirst, PassesRepeat, FollowState(map[], {SymA});
    ScanPasses(g, first, sc, SymA, 0, 0, SymA, {}, st);
    assert {} + (first[SymA] - {Eps}) == {TokA};
    ScanStops(g, first, sc, SymA, 0, 1, TokC, {TokA}, st);
    assert {TokA} + (first[TokC] - {Eps}) == {TokA, TokC};
    OccLoopEnters(g, first, sc, SymA, 0, 0, {}, st, {TokA, TokC}, st);
    assert {TokA, TokC} + (first[TokC] - {Eps}) == {TokA, TokC};
    OccLoopEnters(g, first, sc, SymA, 0, 1, {TokA, TokC}, st, {TokA, TokC}, st);
    OccLoopPasses(g, first, sc, SymA, 0, 2, {TokA, TokC}, st);
  }

  /** `LL1_follow(A)` on X -> A A c, A -> a | eps. As written it is {c}: the
      `break` at the second A drops FIRST(A) = {a}, although `a` can follow the
      first A. Walking past the repeat, it is {a, c}, the FOLLOW set the
      equations define. */
  lemma RepeatedOccurrenceDrops()
    ensures Follow(Twice, TwiceFirst, StopsAtRepeat, SymA, FollowState(map[], {})) == Ok(({TokC}, FollowState(map[SymA := {TokC}], {SymA})))
    ensures Follow(Twice, TwiceFirst, PassesRepeat, SymA, FollowState(map[], {})) == Ok(({TokA, TokC}, FollowState(map[SymA := {TokA, TokC}], {SymA})))
  {
    TwiceDistinct();
    var g, first, st := Twice, TwiceFirst, FollowState(map[], {SymA});
    assert FollowState(map[], {}).(visiting := {} + {SymA}) == st;
    TwiceOccurrencesAsWritten();
    TwiceOccurrencesCorrected();
    var x := Production(SymX, [SymA, SymA, TokC]);
    ProdLoopEnters(g, first, StopsAtRepeat, SymA, 0, x, {}, st, {TokC}, st);
    ProdLoopEnters(g, first, PassesRepeat, SymA, 0, x, {}, st, {TokA, TokC}, st);
    ProdLoopPasses(g, first, StopsAtRepeat, SymA, 1, Production(SymA, [TokA]), {TokC}, st);
    ProdLoopPasses(g, first, PassesRepeat, SymA, 1, Production(SymA, [TokA]), {TokA, TokC}, st);
    ProdLoopPasses(g, first, StopsAtRepeat, SymA, 2, Production(SymA, [Eps]), {TokC}, st);
    ProdLoopPasses(g, first, PassesRepeat, SymA, 2, Production(SymA, [Eps]), {TokA, TokC}, st);
  }

  /** `LL1_follow(X)`: X is the start symbol and occurs on no right-hand side. */
  lemma TwiceFollowX(sc: Scan, cache: SymbolSets)
    requires SymX !in cache
    ensures Follow(Twice, TwiceFirst, sc, SymX, FollowState(cache, {})) == Ok(({Dollar}, FollowState(cache[SymX := {Dollar}], {SymX})))
  {
    TwiceDistinct();
    var g, first, st := Twice, TwiceFirst, FollowState(cache, {SymX});
    assert FollowState(cache, {}).(visiting := {} + {SymX}) == st;
    ProdLoopPasses(g, first, sc, SymX, 0, Production(SymX, [SymA, SymA, TokC]), {Dollar}, st);
    ProdLoopPasses(g, first, sc, SymX, 1, Production(SymA, [TokA]), {Dollar}, st);
    ProdLoopPasses(g, first, sc, SymX, 2, Production(SymA, [Eps]), {Dollar}, st);
  }

  /** `extract_LL1_follow_sets` on `Twice`, visiting A first: FOLLOW(A) is
      {c} as written and {a, c} walking past the repeat. */
  lemma TwiceSweep()
    ensures Sweep(Twice, TwiceFirst, StopsAtRepeat, [SymA, SymX]) == Ok(map[SymA := {TokC}, SymX := {Dollar}])
    ensures Sweep(Twice, TwiceFirst, PassesRepeat, [SymA, SymX]) == Ok(map[SymA := {TokA, TokC}, SymX := {Dollar}])
  {
    TwiceDistinct();
    RepeatedOccurrenceDrops();
    var order := [SymA, SymX];
    assert order[..0] == [] && order[..2] == order;
    SweepStep(Twice, TwiceFirst, StopsAtRepeat, order, 0, map[], {TokC}, FollowState(map[SymA := {TokC}], {SymA}));
    SweepStep(Twice, TwiceFirst, PassesRepeat, order, 0, map[], {TokA, TokC}, FollowState(map[SymA := {TokA, TokC}], {SymA}));
    TwiceFollowX(StopsAtRepeat, map[SymA := {TokC}]);
    TwiceFollowX(PassesRepeat, map[SymA := {TokA, TokC}]);
    SweepStep(Twice, TwiceFirst, StopsAtRepeat, order, 1, map[SymA := {TokC}], {Dollar}, FollowState(map[SymA := {TokC}, SymX := {Dollar}], {SymX}));
    SweepStep(Twice, TwiceFirst, PassesRepeat, order, 1, map[SymA := {TokA, TokC}], {Dollar}, FollowState(map[SymA := {TokA, TokC}, SymX := {Dollar}], {SymX}));
  }

  /** The corrected FIRST walks of the three right-hand sides of `Twice`. */
  lemma TwiceWalks()
    ensures RhsFirst(TwiceFirst, [SymA, SymA, TokC], Corrected) == Ok({TokA, TokC})
    ensures RhsFirst(TwiceFirst, [TokA], Corrected) == Ok({TokA})
    ensures RhsFirst(TwiceFirst, [Eps], Corrected) == Ok({Eps})
  {
    TwiceDistinct();
    var first := TwiceFirst;
    assert [SymA, SymA, TokC][1..] == [SymA, TokC] && [SymA, TokC][1..] == [TokC];
    assert RhsFirst(first, [TokC], Corrected) == Ok({TokC});
    assert RhsFirst(first, [SymA, TokC], Corrected) == Ok(({TokA, Eps} - {Eps}) + {TokC});
    assert ({TokA, Eps} - {Eps}) + {TokC} == {TokA, TokC};
    assert RhsFirst(first, [SymA, SymA, TokC], Corrected) == Ok(({TokA, Eps} - {Eps}) + {TokA, TokC});
    assert ({TokA, Eps} - {Eps}) + {TokA, TokC} == {TokA, TokC};
    assert [Eps][1..] == [];
    assert RhsFirst(first, [Eps], Corrected) == Ok(({Eps} - {Eps}) + {Eps});
    assert ({Eps} - {Eps}) + {Eps} == {Eps};
  }

  /** The table rows after X -> A A c and A -> a, whatever the FOLLOW sets:
      neither production can vanish. */
  lemma TwiceTwoRows(follow: SymbolSets)
    ensures BuildTable(Twice, TwiceFirst, follow, Corrected)
      == BuildFrom(Twice, TwiceFirst, follow, Corrected, 2,
                   map[SymX := map[TokA := Twice.productions[0], TokC := Twice.productions[0]], SymA := map[TokA := Twice.productions[1]]])
  {
    TwiceDistinct();
    TwiceWalks();
    var g, first := Twice, TwiceFirst;
    var p0, p1 := g.productions[0], g.productions[1];
    assert p0.lhs == SymX && p0.rhs == [SymA, SymA, TokC] && p1.lhs == SymA && p1.rhs == [TokA];
    assert {TokA, TokC} - {Eps} == {TokA, TokC};
    FillPair(map[], TokA, TokC, p0);
    assert map[][TokA := p0][TokC := p0] == map[TokA := p0, TokC := p0];
    assert AddProduction(first, follow, Corrected, map[], p0) == Ok(map[SymX := map[TokA := p0, TokC := p0]]);
    assert {TokA} - {Eps} == {TokA};
    FillOne(map[], TokA, p1);
    assert map[SymX := map[TokA := p0, TokC := p0]][SymA := map[TokA := p1]] == map[SymX := map[TokA := p0, TokC := p0], SymA := map[TokA := p1]];
    assert AddProduction(first, follow, Corrected, map[SymX := map[TokA := p0, TokC := p0]], p1)
      == Ok(map[SymX := map[TokA := p0, TokC := p0], SymA := map[TokA := p1]]);
    BuildFromStep(g, first, follow, Corrected, 0, map[]);
    BuildFromStep(g, first, follow, Corrected, 1, map[SymX := map[TokA := p0, TokC := p0]]);
  }

  /** The consequence for the table. With the FOLLOW sets computed as written
      (`TwiceSweep`), the builder fills a table for this ambiguous grammar, A ->
      eps under c; with those computed past the repeat it reports the clash of
      A -> a and A -> eps on a. */
  lemma TwiceTables()
    ensures BuildTable(Twice, TwiceFirst, map[SymA := {TokC}, SymX := {Dollar}], Corrected).Ok?
    ensures BuildTable(Twice, TwiceFirst, map[SymA := {TokA, TokC}, SymX := {Dollar}], Corrected) == Err(Conflict(SymA, {TokA}))
  {
    TwiceDistinct();
    TwiceWalks();
    var g, first := Twice, TwiceFirst;
    var p0, p1, p2 := g.productions[0], g.productions[1], g.productions[2];
    var t2 := map[SymX := map[TokA := p0, TokC := p0], SymA := map[TokA := p1]];
    var asWritten := map[SymA := {TokC}, SymX := {Dollar}];
    var corrected := map[SymA := {TokA, TokC}, SymX := {Dollar}];
    TwiceTwoRows(asWritten);
    TwiceTwoRows(corrected);
    FillNone(map[TokA := p1], p2);
    assert {Eps} - {Eps} == {} && {} * map[TokA := p1].Keys == {};
    assert {TokC} * map[TokA := p1].Keys == {};
    assert AddProduction(first, asWritten, Corrected, t2, p2).Ok?;
    assert {TokA, TokC} * map[TokA := p1].Keys == {TokA};
    assert AddProduction(first, corrected, Corrected, t2, p2) == Err(Conflict(SymA, {TokA}));
  }
}

=== FILE: forms.dfy ===
/** Sentential forms and leftmost derivations: the meaning against which the
    derivation sequence of `get_LL1_derivation_seq` and the trees of
    `generate_syntax_tree_symbols` (LangChisel/parse/ll1_parser.py) are stated.
    A non-terminal here is an `N` symbol; terminals and epsilon are never
    rewritten. */
module Derivations {
  import opened Results
  import opened CFG

  /** `s` backwards: the order in which the driver pushes a right-hand side. */
  function Reverse<X>(s: seq<X>): (r: seq<X>)
    ensures |r| == |s|
  {
    if s == [] then [] else Reverse(s[1..]) + [s[0]]
  }

  lemma {:induction false} ReverseAppend<X>(a: seq<X>, b: seq<X>)
    ensures Reverse(a + b) == Reverse(b) + Reverse(a)
    decreases |a|
  {
    if a == [] {
      assert a + b == b;
    } else {
      assert (a + b)[0] == a[0] && (a + b)[1..] == a[1..] + b;
      ReverseAppend(a[1..], b);
    }
  }

  lemma {:induction false} ReverseReverse<X>(s: seq<X>)
    ensures Reverse(Reverse(s)) == s
    decreases |s|
  {
    if s != [] {
      ReverseAppend(Reverse(s[1..]), [s[0]]);
      assert Reverse([s[0]]) == [s[0]];
      ReverseReverse(s[1..]);
    }
  }

  lemma {:induction false} ReverseHas<X>(s: seq<X>, x: X)
    ensures x in Reverse(s) <==> x in s
    decreases |s|
  {
    if s != [] {
      ReverseHas(s[1..], x);
      assert s == [s[0]] + s[1..];
    }
  }

  /** No symbol of `form` is a non-terminal. */
  predicate Settled(form: seq<Symbol>)
  {
    forall i :: 0 <= i < |form| ==> !form[i].N?
  }

  /** The position of the leftmost non-terminal of `form`, if any. */
  function Leftmost(form: seq<Symbol>): (r: Option<nat>)
    ensures r.None? <==> Settled(form)
    ensures r.Some? ==> r.value < |form| && form[r.value].N? && Settled(form[..r.value])
  {
    if form == [] then None
    else if form[0].N? then Some(0)
    else
      match Leftmost(form[1..])
      case None => None
      case Some(k) =>
        assert form[..k + 1] == [form[0]] + form[1..][..k];
        Some(k + 1)
  }

  /** One leftmost step: rewrite the leftmost non-terminal of `form` by `p`.
      There is none when `form` has no non-terminal or its leftmost one is not
      `p`'s left-hand side. */
  function Apply(form: seq<Symbol>, p: Production): Option<seq<Symbol>>
  {
    match Leftmost(form)
    case None => None
    case Some(k) => if form[k] == p.lhs then Some(form[..k] + p.rhs + form[k + 1..]) else None
  }

  /** The form reached from `form` by the leftmost steps `ds`, in order. */
  function Derive(form: seq<Symbol>, ds: seq<Production>): Option<seq<Symbol>>
    decreases |ds|
  {
    if ds == [] then Some(form)
    else
      match Derive(form, ds[..|ds| - 1])
      case None => None
      case Some(f) => Apply(f, ds[|ds| - 1])
  }

  /** A step rewrites the first non-terminal after a settled prefix, and only
      when that non-terminal is the production's left-hand side. */
  lemma ApplyAfterSettled(done: seq<Symbol>, a: Symbol, rest: seq<Symbol>, p: Production)
    requires Settled(done) && a.N?
    ensures Apply(done + [a] + rest, p) == if a == p.lhs then Some(done + p.rhs + rest) else None
  {
    var form := done + [a] + rest;
    LeftmostAfterSettled(done, a, rest);
    assert form[..|done|] == done && form[|done| + 1..] == rest;
  }

  lemma {:induction false} LeftmostAfterSettled(done: seq<Symbol>, a: Symbol, rest: seq<Symbol>)
    requires Settled(done) && a.N?
    ensures Leftmost(done + [a] + rest) == Some(|done|)
    decreases |done|
  {
    if done != [] {
      LeftmostAfterSettled(done[1..], a, rest);
      assert (done + [a] + rest)[1..] == done[1..] + [a] + rest;
    }
  }

  /** Deriving by `ds` and then by `es` is deriving by `ds + es`. */
  lemma {:induction false} DeriveAppend(form: seq<Symbol>, ds: seq<Production>, es: seq<Production>)
    ensures Derive(form, ds + es) ==
      match Derive(form, ds)
      case None => None
      case Some(f) => Derive(f, es)
    decreases |es|
  {
    if es != [] {
      var last := es[|es| - 1];
      assert (ds + es)[..|ds + es| - 1] == ds + es[..|es| - 1];
      DeriveAppend(form, ds, es[..|es| - 1]);
    } else {
      assert ds + es == ds;
    }
  }

  /** The same derivation read from the front: the first step, then the rest. */
  lemma DeriveFirst(form: seq<Symbol>, p: Production, ds: seq<Production>)
    ensures Derive(form, [p] + ds) ==
      match Apply(form, p)
      case None => None
      case Some(f) => Derive(f, ds)
  {
    DeriveAppend(form, [p], ds);
    assert [p][..0] == [];
  }

  /** A settled prefix takes no part in a leftmost derivation. */
  lemma {:induction false} DeriveUnderSettled(u: seq<Symbol>, form: seq<Symbol>, ds: seq<Production>)
    requires Settled(u)
    ensures Derive(u + form, ds) ==
      match Derive(form, ds)
      case None => None
      case Some(f) => Some(u + f)
    decreases |ds|
  {
    if ds != [] {
      DeriveUnderSettled(u, form, ds[..|ds| - 1]);
      match Derive(form, ds[..|ds| - 1])
      case None =>
      case Some(f) => ApplyUnderSettled(u, f, ds[|ds| - 1]);
    }
  }

  lemma ApplyUnderSettled(u: seq<Symbol>, f: seq<Symbol>, p: Production)
    requires Settled(u)
    ensures Apply(u + f, p) ==
      match Apply(f, p)
      case None => None
      case Some(f') => Some(u + f')
  {
    LeftmostUnderSettled(u, f);
    match Leftmost(f)
    case None =>
      assert Apply(f, p) == None;
      assert Apply(u + f, p) == None;
    case Some(k) =>
      ApplyShifted(u, f, p, k);
  }

  lemma ApplyShifted(u: seq<Symbol>, f: seq<Symbol>, p: Production, k: nat)
    requires Leftmost(f) == Some(k) && Leftmost(u + f) == Some(|u| + k)
    ensures Apply(f, p).Some? ==> Apply(u + f, p) == Some(u + Apply(f, p).value)
    ensures Apply(f, p).None? ==> Apply(u + f, p).None?
  {
    ApplyAt(f, p, k);
    ApplyAt(u + f, p, |u| + k);
    SplitAfter(u, f, k);
    Assoc4(u, f[..k], p.rhs, f[k + 1..]);
  }

  lemma ApplyAt(form: seq<Symbol>, p: Production, k: nat)
    requires Leftmost(form) == Some(k)
    ensures Apply(form, p) == if form[k] == p.lhs then Some(form[..k] + p.rhs + form[k + 1..]) else None
  {
  }

  lemma {:induction false} LeftmostUnderSettled(u: seq<Symbol>, f: seq<Symbol>)
    requires Settled(u)
    ensures Leftmost(u + f) ==
      match Leftmost(f)
      case None => None
      case Some(k) => Some(|u| + k)
    decreases |u|
  {
    if u != [] {
      assert (u + f)[1..] == u[1..] + f;
      LeftmostUnderSettled(u[1..], f);
    } else {
      assert u + f == f;
    }
  }

  lemma SplitAfter<X>(u: seq<X>, f: seq<X>, k: nat)
    requires k < |f|
    ensures (u + f)[|u| + k] == f[k]
    ensures (u + f)[..|u| + k] == u + f[..k]
    ensures (u + f)[|u| + k + 1..] == f[k + 1..]
  {
  }

  lemma Assoc4<X>(a: seq<X>, b: seq<X>, c: seq<X>, d: seq<X>)
    ensures a + b + c + d == a + (b + c + d)
  {
  }

  /** A settled form admits no further step. */
  lemma SettledIsFinal(u: seq<Symbol>, ds: seq<Production>)
    ensures Settled(u) ==> (Derive(u, ds).Some? <==> ds == [])
  {
    if ds != [] && Settled(u) {
      DeriveFirst(u, ds[0], ds[1..]);
      assert [ds[0]] + ds[1..] == ds;
    }
  }

  /** Every step rewrites its non-terminal to something, as `LL1_first`
      asserts of every production; a node expanded by an empty right-hand side
      would be indistinguishable from one never expanded. */
  predicate Expanding(ds: seq<Production>)
  {
    forall k :: 0 <= k < |ds| ==> ds[k].rhs != []
  }

  lemma ExpandingSnoc(ds: seq<Production>, p: Production)
    requires Expanding(ds) && p.rhs != []
    ensures Expanding(ds + [p])
  {
    forall k | 0 <= k < |ds| + 1
      ensures (ds + [p])[k].rhs != []
    {
      if k < |ds| {
        assert (ds + [p])[k] == ds[k];
      }
    }
  }

  /** Only non-terminals are ever rewritten. */
  lemma {:induction false} DeriveRewritesNonTerminals(form: seq<Symbol>, ds: seq<Production>)
    ensures Derive(form, ds).Some? ==> forall k :: 0 <= k < |ds| ==> ds[k].lhs.N?
    decreases |ds|
  {
    if ds != [] && Derive(form, ds).Some? {
      var init := ds[..|ds| - 1];
      DeriveRewritesNonTerminals(form, init);
      var f := Derive(form, init).value;
      var k := Leftmost(f).value;
      assert f[k] == ds[|ds| - 1].lhs;
      forall m | 0 <= m < |ds|
        ensures ds[m].lhs.N?
      {
        if m < |ds| - 1 {
          assert ds[m] == init[m];
        }
      }
    }
  }

  /** `form` with its epsilons removed: the terminals a settled form spells. */
  function WithoutEps(form: seq<Symbol>): (r: seq<Symbol>)
    ensures |r| <= |form|
  {
    if form == [] then []
    else (if form[0] == Eps then [] else [form[0]]) + WithoutEps(form[1..])
  }

  lemma {:induction false} WithoutEpsAppend(a: seq<Symbol>, b: seq<Symbol>)
    ensures WithoutEps(a + b) == WithoutEps(a) + WithoutEps(b)
    decreases |a|
  {
    if a != [] {
      assert (a + b)[1..] == a[1..] + b;
      WithoutEpsAppend(a[1..], b);
    } else {
      assert a + b == b;
    }
  }
}

=== FILE: grammar.dfy ===
/** The context-free grammar model of LangChisel/parse/ll1_parser.py:
    symbols, productions, grammars and the three classification queries. */
module CFG {
  import opened Tokens

  /** A `CFSymbol`. Python decides at run time whether the wrapped value is a
      `TokenTag` (a terminal) or a string (a non-terminal); the grammars of the
      repository wrap `None` for epsilon. Here the three cases are constructors. */
  datatype Symbol = T(tag: Tag) | N(name: string) | Eps

  /** A `CFProduction`: `lhs -> rhs`. */
  datatype Production = Production(lhs: Symbol, rhs: seq<Symbol>)

  /** A `CFGrammar`. Its epsilon is always `Eps`; the end-of-string marker is a
      field (the repository's grammars use the non-terminal-valued `N("$")`). */
  datatype Grammar = Grammar(productions: seq<Production>, start: Symbol, eos: Symbol)

  /** The dictionaries of FIRST and FOLLOW sets: each symbol's set. Python
      stores them as lists; only their elements matter. */
  type SymbolSets = map<Symbol, set<Symbol>>

  /** `cache'` keeps every entry of `cache` unchanged. */
  predicate Extends(cache: SymbolSets, cache': SymbolSets)
  {
    forall k :: k in cache ==> k in cache' && cache'[k] == cache[k]
  }

  /** `is_terminal`: only symbols that wrap a token tag are terminals, so neither
      epsilon nor a string-valued end-of-string marker is one. */
  predicate IsTerminal(s: Symbol)
  {
    s.T?
  }

  /** `get_non_terminals`: the distinct left-hand sides. */
  function NonTerminals(ps: seq<Production>): (r: set<Symbol>)
    ensures forall x :: x in r <==> exists i :: 0 <= i < |ps| && ps[i].lhs == x
  {
    if ps == [] then {}
    else
      var rest := NonTerminals(ps[1..]);
      assert forall x :: x in rest <==> exists i :: 1 <= i < |ps| && ps[i].lhs == x by {
        forall x | x in rest ensures exists i :: 1 <= i < |ps| && ps[i].lhs == x {
          var i :| 0 <= i < |ps[1..]| && ps[1..][i].lhs == x;
          assert ps[i + 1].lhs == x;
        }
      }
      {ps[0].lhs} + rest
  }

  /** `get_terminals`: the distinct terminal symbols that occur on some
      right-hand side. */
  function Terminals(ps: seq<Production>): (r: set<Symbol>)
    ensures forall x :: x in r <==>
      IsTerminal(x) && exists i, j :: 0 <= i < |ps| && 0 <= j < |ps[i].rhs| && ps[i].rhs[j] == x
  {
    if ps == [] then {}
    else
      var rest := Terminals(ps[1..]);
      assert forall x :: x in rest <==>
        IsTerminal(x) && exists i, j :: 1 <= i < |ps| && 0 <= j < |ps[i].rhs| && ps[i].rhs[j] == x
      by {
        forall x | x in rest
          ensures exists i, j :: 1 <= i < |ps| && 0 <= j < |ps[i].rhs| && ps[i].rhs[j] == x
        {
          var i, j :| 0 <= i < |ps[1..]| && 0 <= j < |ps[1..][i].rhs| && ps[1..][i].rhs[j] == x;
          assert ps[i + 1].rhs[j] == x;
        }
      }
      (set s | s in ps[0].rhs && IsTerminal(s)) + rest
  }

  /** Every symbol that occurs on some right-hand side. */
  function RhsSymbols(ps: seq<Production>): (r: set<Symbol>)
    ensures forall x :: x in r <==> exists i, j :: 0 <= i < |ps| && 0 <= j < |ps[i].rhs| && ps[i].rhs[j] == x
  {
    if ps == [] then {}
    else
      var rest := RhsSymbols(ps[1..]);
      assert forall x :: x in rest <==> exists i, j :: 1 <= i < |ps| && 0 <= j < |ps[i].rhs| && ps[i].rhs[j] == x
      by {
        forall x | x in rest
          ensures exists i, j :: 1 <= i < |ps| && 0 <= j < |ps[i].rhs| && ps[i].rhs[j] == x
        {
          var i, j :| 0 <= i < |ps[1..]| && 0 <= j < |ps[1..][i].rhs| && ps[1..][i].rhs[j] == x;
          assert ps[i + 1].rhs[j] == x;
        }
      }
      (set s | s in ps[0].rhs) + rest
  }
}

=== FILE: lexer.dfy ===
/** The maximal-munch lexer: `check_for_match`, `find_lexemes` and
    `construct_tokens` of LangChisel/lex/greedy_backtrack_lexer.py and of its
    older copy src/lexer.py. One model covers both; the only behavioural
    difference, the `("", EOF)` sentinel the older copy appends, is the
    `eof` parameter of `FindLexemes`. Regular expressions and extractor
    lambdas are foreign code: a pattern is an abstract full-match predicate,
    and an extractor an uninterpreted function. */
module Lexer {
  import opened Results
  import opened Tokens

  /** One entry of `pattern_to_type`, in the dictionary's insertion order:
      `fullMatch` stands for `regex.fullmatch`. */
  datatype Pattern = Pattern(fullMatch: string -> bool, tag: Tag)

  /** A lexeme: the matched substring and its tag. */
  type Lexeme = (string, Tag)

  /** `check_for_match`: the tag of the first pattern, in order, that matches
      the whole substring; `None` when no pattern does. */
  function CheckForMatch(sub: string, pats: seq<Pattern>): (r: Option<Tag>)
  {
    if pats == [] then None
    else if pats[0].fullMatch(sub) then Some(pats[0].tag)
    else CheckForMatch(sub, pats[1..])
  }

  /** `CheckForMatch` finds the first matching pattern: it answers `None`
      exactly when no pattern matches, and otherwise the tag of a matching
      pattern that no earlier pattern precedes. */
  lemma {:induction false} CheckForMatchSpec(sub: string, pats: seq<Pattern>)
    ensures CheckForMatch(sub, pats).None? <==> forall i :: 0 <= i < |pats| ==> !pats[i].fullMatch(sub)
    ensures CheckForMatch(sub, pats).Some? ==>
      exists i :: 0 <= i < |pats| && pats[i].fullMatch(sub) && CheckForMatch(sub, pats).value == pats[i].tag &&
        forall j :: 0 <= j < i ==> !pats[j].fullMatch(sub)
    decreases |pats|
  {
    if pats != [] && !pats[0].fullMatch(sub) {
      var r := CheckForMatch(sub, pats[1..]);
      CheckForMatchSpec(sub, pats[1..]);
      assert forall i :: 1 <= i < |pats| ==> pats[i] == pats[1..][i - 1];
      if r.Some? {
        var i :| 0 <= i < |pats[1..]| && pats[1..][i].fullMatch(sub) && r.value == pats[1..][i].tag &&
          forall j :: 0 <= j < i ==> !pats[1..][j].fullMatch(sub);
        assert pats[i + 1].fullMatch(sub) && forall j :: 0 <= j < i + 1 ==> !pats[j].fullMatch(sub);
      }
    }
  }

  /** Some pattern matches the non-empty window `s[front..b]`. */
  predicate MatchesAt(s: string, pats: seq<Pattern>, front: nat, b: nat)
    requires front <= b <= |s|
  {
    CheckForMatch(s[front..b], pats).Some?
  }

  /** No non-empty prefix of `s[front..]` is matched by any pattern. */
  ghost predicate Stuck(s: string, pats: seq<Pattern>, front: nat)
    requires front <= |s|
  {
    forall b :: front < b <= |s| ==> !MatchesAt(s, pats, front, b)
  }

  /** The independent description of a correct maximal-munch scan from
      position `front`: every lexeme is a non-empty substring starting where
      the previous one ended, carries the tag `check_for_match` gives it, and
      is the longest prefix of the remaining input that any pattern matches;
      after the last lexeme no non-empty prefix matches (the rest is dropped). */
  ghost predicate MaximalMunch(s: string, pats: seq<Pattern>, front: nat, ls: seq<Lexeme>)
    requires front <= |s|
    decreases |ls|
  {
    if ls == [] then Stuck(s, pats, front)
    else
      var b := front + |ls[0].0|;
      && front < b <= |s|
      && s[front..b] == ls[0].0
      && CheckForMatch(ls[0].0, pats) == Some(ls[0].1)
      && (forall b' :: b < b' <= |s| ==> !MatchesAt(s, pats, front, b'))
      && MaximalMunch(s, pats, b, ls[1..])
  }

  /** The end of the longest matching window `s[front..b]` with `b <= back`:
      the shrinking-window search of `find_lexemes` for one start position. */
  function LongestMatch(s: string, pats: seq<Pattern>, front: nat, back: nat): (r: Option<nat>)
    requires front <= back <= |s|
    ensures r.Some? ==> front < r.value <= back && MatchesAt(s, pats, front, r.value)
    ensures r.Some? ==> forall b :: r.value < b <= back ==> !MatchesAt(s, pats, front, b)
    ensures r.None? ==> forall b :: front < b <= back ==> !MatchesAt(s, pats, front, b)
    decreases back - front
  {
    if back == front then None
    else if MatchesAt(s, pats, front, back) then Some(back)
    else LongestMatch(s, pats, front, back - 1)
  }

  /** The lexemes `find_lexemes` finds from position `front`, without sentinel. */
  function Lex(s: string, pats: seq<Pattern>, front: nat): (ls: seq<Lexeme>)
    requires front <= |s|
    decreases |s| - front
  {
    match LongestMatch(s, pats, front, |s|)
    case None => []
    case Some(b) => [(s[front..b], CheckForMatch(s[front..b], pats).value)] + Lex(s, pats, b)
  }

  /** The sentinel the older lexer appends: `[("", eof)]` when it has one. */
  function Sentinel(eof: Option<Tag>): (r: seq<Lexeme>)
  {
    if eof.Some? then [("", eof.value)] else []
  }

  /** `Lex` is a maximal-munch scan. */
  lemma {:induction false} LexIsMaximalMunch(s: string, pats: seq<Pattern>, front: nat)
    requires front <= |s|
    ensures MaximalMunch(s, pats, front, Lex(s, pats, front))
    decreases |s| - front
  {
    match LongestMatch(s, pats, front, |s|)
    case None =>
    case Some(b) =>
      LexIsMaximalMunch(s, pats, b);
  }

  /** A maximal-munch scan is empty exactly when nothing matches at its start. */
  lemma {:induction false} MaximalMunchEmpty(s: string, pats: seq<Pattern>, front: nat, ls: seq<Lexeme>)
    requires front <= |s|
    requires MaximalMunch(s, pats, front, ls)
    ensures ls == [] <==> Stuck(s, pats, front)
  {
    if ls != [] {
      assert MatchesAt(s, pats, front, front + |ls[0].0|);
    }
  }

  /** The first lexeme of a maximal-munch scan ends where the shrinking-window
      search stops. */
  lemma {:induction false} MaximalMunchHead(s: string, pats: seq<Pattern>, front: nat, ls: seq<Lexeme>)
    requires front <= |s|
    requires MaximalMunch(s, pats, front, ls) && ls != []
    ensures LongestMatch(s, pats, front, |s|) == Some(front + |ls[0].0|)
  {
    assert MatchesAt(s, pats, front, front + |ls[0].0|);
  }

  /** The first lexeme of a maximal-munch scan is the input at its start,
      and the rest is a maximal-munch scan from where the first one ends. */
  lemma MaximalMunchTail(s: string, pats: seq<Pattern>, front: nat, ls: seq<Lexeme>)
    requires front <= |s|
    requires MaximalMunch(s, pats, front, ls) && ls != []
    ensures front + |ls[0].0| <= |s| && s[front..front + |ls[0].0|] == ls[0].0
    ensures CheckForMatch(ls[0].0, pats) == Some(ls[0].1)
    ensures MaximalMunch(s, pats, front + |ls[0].0|, ls[1..])
  {
  }

  /** The maximal-munch description admits exactly one lexeme sequence, so
      `Lex` is the only scan that satisfies it. */
  lemma {:induction false} MaximalMunchUnique(s: string, pats: seq<Pattern>, front: nat, ls1: seq<Lexeme>, ls2: seq<Lexeme>)
    requires front <= |s|
    requires MaximalMunch(s, pats, front, ls1) && MaximalMunch(s, pats, front, ls2)
    ensures ls1 == ls2
    decreases |ls1|
  {
    MaximalMunchEmpty(s, pats, front, ls1);
    MaximalMunchEmpty(s, pats, front, ls2);
    if ls1 != [] && ls2 != [] {
      MaximalMunchHead(s, pats, front, ls1);
      MaximalMunchHead(s, pats, front, ls2);
      var b := front + |ls1[0].0|;
      MaximalMunchTail(s, pats, front, ls1);
      MaximalMunchTail(s, pats, front, ls2);
      assert ls1[0] == ls2[0];
      MaximalMunchUnique(s, pats, b, ls1[1..], ls2[1..]);
      assert ls1 == [ls1[0]] + ls1[1..];
      assert ls2 == [ls2[0]] + ls2[1..];
    }
  }

  /** The concatenated lexemes of a maximal-munch scan from `front` are
      exactly the input from `front` up to where scanning stopped, and from
      there nothing matches: the unmatched rest is dropped without error. */
  lemma {:induction false} MaximalMunchCoversPrefix(s: string, pats: seq<Pattern>, front: nat, ls: seq<Lexeme>)
    requires front <= |s|
    requires MaximalMunch(s, pats, front, ls)
    ensures front + |Concat(ls)| <= |s|
    ensures s[front..front + |Concat(ls)|] == Concat(ls)
    ensures Stuck(s, pats, front + |Concat(ls)|)
    decreases |ls|
  {
    if ls != [] {
      var b := front + |ls[0].0|;
      MaximalMunchCoversPrefix(s, pats, b, ls[1..]);
      assert Concat(ls) == ls[0].0 + Concat(ls[1..]);
      assert s[front..b + |Concat(ls[1..])|] == s[front..b] + s[b..b + |Concat(ls[1..])|];
    }
  }

  /** The lexeme texts joined together. */
  function Concat(ls: seq<Lexeme>): string
  {
    if ls == [] then "" else ls[0].0 + Concat(ls[1..])
  }

  /** `find_lexemes`: for each start position try the longest remaining
      window first and shrink it until some pattern matches; emit the match and
      restart after it; stop when even the one-character window fails.
      `eof` is `Some(EOF)` for src/lexer.py, which then appends `("", EOF)`,
      and `None` for LangChisel/lex/greedy_backtrack_lexer.py. */
  method FindLexemes(s: string, pats: seq<Pattern>, eof: Option<Tag>) returns (found: seq<Lexeme>)
    ensures found == Lex(s, pats, 0) + Sentinel(eof)
    ensures |found| == |Lex(s, pats, 0)| + |Sentinel(eof)|
    ensures MaximalMunch(s, pats, 0, found[..|found| - |Sentinel(eof)|])
    ensures eof.Some? ==> |found| > 0 && found[|found| - 1] == ("", eof.value)
  {
    found := [];
    var front := 0;
    var back := |s|;
    while back > front
      invariant 0 <= front <= back <= |s|
      invariant Lex(s, pats, 0) == found + Lex(s, pats, front)
      invariant LongestMatch(s, pats, front, |s|) == LongestMatch(s, pats, front, back)
      decreases |s| - front, back - front
    {
      var substring := s[front..back];
      var lexeme := CheckForMatch(substring, pats);
      if lexeme.Some? {
        assert LongestMatch(s, pats, front, back) == Some(back);
        assert Lex(s, pats, front) == [(substring, lexeme.value)] + Lex(s, pats, back);
        found := found + [(substring, lexeme.value)];
        front := back;
        back := |s|;
      } else {
        ghost var previous := LongestMatch(s, pats, front, back);
        assert previous == LongestMatch(s, pats, front, back - 1);
        back := back - 1;
        assert LongestMatch(s, pats, front, back) == previous;
      }
    }
    LexIsMaximalMunch(s, pats, 0);
    found := found + Sentinel(eof);
    assert found[..|found| - |Sentinel(eof)|] == Lex(s, pats, 0);
  }

  /** The token `construct_tokens` builds for one lexeme. */
  function TokenOf<V>(l: Lexeme, extractors: map<Tag, string -> V>): Token<V>
  {
    Token(l.1, if l.1 in extractors then Some(extractors[l.1](l.0)) else None)
  }

  /** `construct_tokens`: one token per lexeme, in order, tagged with the
      lexeme's tag; only tags that have an extractor get a value, namely the
      extractor applied to the lexeme's text. */
  method ConstructTokens<V>(lexemes: seq<Lexeme>, extractors: map<Tag, string -> V>) returns (tokens: seq<Token<V>>)
    ensures |tokens| == |lexemes|
    ensures forall i :: 0 <= i < |lexemes| ==> tokens[i].tag == lexemes[i].1
    ensures forall i :: 0 <= i < |lexemes| ==> (tokens[i].value.Some? <==> lexemes[i].1 in extractors)
    ensures forall i :: 0 <= i < |lexemes| && lexemes[i].1 in extractors ==>
      tokens[i].value.value == extractors[lexemes[i].1](lexemes[i].0)
  {
    tokens := [];
    for k := 0 to |lexemes|
      invariant |tokens| == k
      invariant forall i :: 0 <= i < k ==> tokens[i] == TokenOf(lexemes[i], extractors)
    {
      var (substring, lexemeType) := lexemes[k];
      var value := if lexemeType in extractors then Some(extractors[lexemeType](substring)) else None;
      tokens := tokens + [Token(lexemeType, value)];
    }
  }
}

=== FILE: pipeline.dfy ===
/** Parsing end to end: the driver's derivation, the syntax tree built from
    it, and the tokens attached to the tree's terminals, the three stages of
    LangChisel/parse/ll1_parser.py chained in the order their inputs and
    outputs fit together. */
module Pipeline {
  import opened Results
  import opened Tokens
  import opened CFG
  import opened Derivations
  import opened Driver
  import opened SyntaxTree
  import LL1Table

  /** The `k`-th terminal of the tree carries the `k`-th token, and there is
      one terminal per token. */
  ghost predicate Carries<V>(root: Node<V>, tokens: seq<Token<V>>)
  {
    var leaves := TerminalNodes(root);
    && |leaves| == |tokens|
    && forall k :: 0 <= k < |leaves| ==> leaves[k].token == Some(tokens[k]) && leaves[k].symbol == T(tokens[k].tag)
  }

  /** Whatever the corrected driver accepts, the corrected tree builder turns
      into a tree that uses every recorded production, in order, and that
      tokenising labels completely: each terminal gets its own token, no token
      is left over, and nothing but the tokens changes. */
  lemma AcceptedInputTokenises<V>(g: Grammar, table: LL1Table.Table, tokens: seq<Token<V>>, fuel: nat)
    requires Sane(g, table)
    ensures var r := ParseAll(g, table, tokens, fuel);
      r.Ok? ==>
        var b := BuildTree<V>(EachChild, r.value);
        && b.Ok? && b.value.1 == |r.value| && Expansions(b.value.0) == r.value
        && var a := Tokenise(b.value.0, tokens);
           a.Ok? && Strip(a.value) == Strip(b.value.0) && Carries(a.value, tokens)
  {
    var r := ParseAll(g, table, tokens, fuel);
    if r.Ok? {
      var ds := r.value;
      ParseAllSound(g, table, tokens, fuel);
      ParseAllExpanding(g, table, tokens, fuel);
      var form := Derive([g.start], ds).value;
      TreeOfDerivation<V>(g.start, ds, form);
      var t := BuildTree<V>(EachChild, ds).value.0;
      BuildTreeShape<V>(EachChild, ds);
      assert ds[..|ds|] == ds;
      DeriveRewritesNonTerminals([g.start], ds);
      BuildTreeTerminalLeaves<V>(EachChild, ds);
      TerminalsSpellYield(t);
      var leaves := TerminalNodes(t);
      SpelledFits(leaves, tokens);
      LabelSpec(leaves, tokens, 0);
      AttachIsLabel(t, tokens, 0);
    }
  }

  /** Terminals spelling the tokens' terminals fit the tokens. */
  lemma SpelledFits<V>(leaves: seq<Node<V>>, tokens: seq<Token<V>>)
    requires Symbols(leaves) == TokenSymbols(tokens)
    ensures |leaves| == |tokens| && Fits(leaves, tokens, 0)
  {
    forall k | 0 <= k < |leaves|
      ensures leaves[k].symbol == T(tokens[0 + k].tag)
    {
      assert Symbols(leaves)[k] == TokenSymbols(tokens)[k];
    }
  }
}

=== FILE: results.dfy ===
/** Failure-carrying values shared by every component: the source signals its
    error cases with exceptions (ValueError, KeyError, IndexError, ParseError,
    AssertionError); the model returns them as values instead. */
module Results {

  /** Python's `None`-or-value. */
  datatype Option<+T> = None | Some(value: T)

  /** Either a computed value or the error the source would raise. */
  datatype Result<+R, +E> = Ok(value: R) | Err(error: E)
}

=== FILE: table.dfy ===
/** The LL(1) parse table of LangChisel/parse/ll1_parser.py
    (`build_LL1_table`), from given FIRST and FOLLOW dictionaries. */
module LL1Table {
  import opened Results
  import opened CFG
  import FirstSets

  /** `ll1_table`: for each non-terminal, the production to use for each
      lookahead symbol. */
  type Table = map<Symbol, map<Symbol, Production>>

  /** Why `build_LL1_table` stops: the `ValueError` for a cell claimed twice
      (Python names one of the clashing lookaheads, whichever its set iteration
      meets first; the model keeps all of them), or a `KeyError` from the FIRST
      or FOLLOW dictionary. */
  datatype TableError =
    | Conflict(nt: Symbol, lookaheads: set<Symbol>)
    | MissingFirst(symbol: Symbol)
    | MissingFollow(nt: Symbol)

  /** Which FIRST set of a right-hand side the builder uses: the walk as the
      source writes it, or the walk it evidently intends. */
  datatype Walk = AsWritten | Corrected

  /** The FIRST set `build_LL1_table` gathers for a right-hand side: the FIRST
      sets of its symbols up to and including the first one without epsilon.
      As written, each set is added whole, epsilon included, so epsilon ends up
      in the result as soon as the first symbol is nullable. Corrected, epsilon
      is kept only when every symbol is nullable. A symbol with no FIRST set is
      the `KeyError`. */
  function RhsFirst(first: SymbolSets, rhs: seq<Symbol>, w: Walk): (r: Result<set<Symbol>, Symbol>)
    ensures r.Err? ==> r.error in rhs && r.error !in first
    ensures (forall x :: x in rhs ==> x in first) ==> r.Ok?
    decreases |rhs|
  {
    if rhs == [] then Ok(if w == AsWritten then {} else {Eps})
    else if rhs[0] !in first then Err(rhs[0])
    else if Eps !in first[rhs[0]] then Ok(first[rhs[0]])
    else
      match RhsFirst(first, rhs[1..], w)
      case Err(x) => Err(x)
      case Ok(f) => Ok(if w == AsWritten then first[rhs[0]] + f else (first[rhs[0]] - {Eps}) + f)
  }

  /** Every symbol of `rhs` has a FIRST set holding epsilon. */
  predicate Vanishes(first: SymbolSets, rhs: seq<Symbol>)
  {
    forall i :: 0 <= i < |rhs| ==> rhs[i] in first && Eps in first[rhs[i]]
  }

  /** The two walks agree on failure and on every symbol but epsilon. The
      corrected walk holds epsilon exactly when the whole right-hand side can
      vanish; the one as written holds it exactly when the first symbol can. */
  lemma {:induction false} WalksCompared(first: SymbolSets, rhs: seq<Symbol>)
    ensures RhsFirst(first, rhs, AsWritten).Ok? == RhsFirst(first, rhs, Corrected).Ok?
    ensures RhsFirst(first, rhs, AsWritten).Ok? ==>
      RhsFirst(first, rhs, AsWritten).value - {Eps} == RhsFirst(first, rhs, Corrected).value - {Eps}
    ensures RhsFirst(first, rhs, Corrected).Ok? ==>
      (Eps in RhsFirst(first, rhs, Corrected).value <==> Vanishes(first, rhs))
    ensures RhsFirst(first, rhs, AsWritten).Ok? && rhs != [] ==>
      (Eps in RhsFirst(first, rhs, AsWritten).value <==> Eps in first[rhs[0]])
    decreases |rhs|
  {
    if rhs != [] && rhs[0] in first && Eps in first[rhs[0]] {
      WalksCompared(first, rhs[1..]);
      if RhsFirst(first, rhs[1..], Corrected).Ok? {
        var h := first[rhs[0]];
        var fa, fc := RhsFirst(first, rhs[1..], AsWritten).value, RhsFirst(first, rhs[1..], Corrected).value;
        assert RhsFirst(first, rhs, AsWritten) == Ok(h + fa);
        assert RhsFirst(first, rhs, Corrected) == Ok((h - {Eps}) + fc);
        assert (h + fa) - {Eps} == (h - {Eps}) + (fa - {Eps});
        assert ((h - {Eps}) + fc) - {Eps} == (h - {Eps}) + (fc - {Eps});
        assert Vanishes(first, rhs) <==> Vanishes(first, rhs[1..]) by {
          if Vanishes(first, rhs[1..]) {
            forall i | 0 <= i < |rhs|
              ensures rhs[i] in first && Eps in first[rhs[i]]
            {
              if i > 0 {
                assert rhs[i] == rhs[1..][i - 1];
              }
            }
          }
        }
      }
    } else if rhs != [] && rhs[0] in first {
      assert !Vanishes(first, rhs);
    }
  }

  /** With FIRST sets that are the true ones, the corrected walk over a
      production's right-hand side from position `j` is the FIRST set of that
      suffix as the textbook (and `LL1_first`) defines it. */
  lemma {:induction false} CorrectedWalkIsFirst(g: Grammar, c: FirstSets.Certificate, first: SymbolSets, p: Production, j: nat)
    requires FirstSets.Analysable(g, c) && FirstSets.Agrees(g, c, first)
    requires p in g.productions && p.lhs.N? && j < |p.rhs|
    requires forall x :: x in p.rhs ==> x in first
    requires FirstSets.AllNullable(c, p.rhs[..j])
    ensures RhsFirst(first, p.rhs[j..], Corrected) == Ok(FirstSets.SequenceFirst(g, c, p, j))
    decreases |p.rhs| - j
  {
    var s := p.rhs[j];
    assert p.rhs[j..][0] == s;
    var f := first[s];
    assert f == FirstSets.FirstOf(g, c, s);
    if Eps in f && j < |p.rhs| - 1 {
      assert p.rhs[..j + 1] == p.rhs[..j] + [s];
      CorrectedWalkIsFirst(g, c, first, p, j + 1);
      assert p.rhs[j..][1..] == p.rhs[j + 1..];
    } else if Eps in f {
      assert p.rhs[j..] == [s];
      assert p.rhs[j..][1..] == [];
      assert RhsFirst(first, [], Corrected) == Ok({Eps});
      assert RhsFirst(first, p.rhs[j..], Corrected) == Ok((f - {Eps}) + {Eps});
      assert FirstSets.SequenceFirst(g, c, p, j) == (f - {Eps}) + {Eps};
    } else {
      assert f - {Eps} == f;
      assert FirstSets.SequenceFirst(g, c, p, j) == f;
    }
  }

  /** The lookahead symbols for which production `p` is entered in its
      left-hand side's row: its FIRST set without epsilon, and its left-hand
      side's FOLLOW set when the walk holds epsilon. */
  function Lookaheads(first: SymbolSets, follow: SymbolSets, w: Walk, p: Production): set<Symbol>
  {
    match RhsFirst(first, p.rhs, w)
    case Err(_) => {}
    case Ok(f) => (f - {Eps}) + (if Eps in f && p.lhs in follow then follow[p.lhs] else {})
  }

  /** The lookaheads `p` claims twice: a FOLLOW symbol that is also in its own
      FIRST set. */
  function SelfClash(first: SymbolSets, follow: SymbolSets, w: Walk, p: Production): set<Symbol>
  {
    match RhsFirst(first, p.rhs, w)
    case Err(_) => {}
    case Ok(f) => if Eps in f && p.lhs in follow then (f - {Eps}) * follow[p.lhs] else {}
  }

  /** The lookaheads claimed for `a` by the productions before index `n`. */
  ghost function Claimed(g: Grammar, first: SymbolSets, follow: SymbolSets, w: Walk, a: Symbol, n: nat): set<Symbol>
    requires n <= |g.productions|
  {
    set k, t | 0 <= k < n && g.productions[k].lhs == a && t in Lookaheads(first, follow, w, g.productions[k]) :: t
  }

  /** Every dictionary lookup of the builder succeeds. */
  predicate LookupsSucceed(g: Grammar, first: SymbolSets, follow: SymbolSets)
  {
    forall p :: p in g.productions ==> (forall x :: x in p.rhs ==> x in first) && p.lhs in follow
  }

  /** The grammar is LL(1) with respect to these sets: no two productions
      with the same left-hand side share a lookahead, and no production's FIRST
      set meets the FOLLOW set it is entered under. */
  ghost predicate NoClash(g: Grammar, first: SymbolSets, follow: SymbolSets, w: Walk)
  {
    && (forall i, j :: 0 <= i < j < |g.productions| && g.productions[i].lhs == g.productions[j].lhs ==>
          Lookaheads(first, follow, w, g.productions[i]) * Lookaheads(first, follow, w, g.productions[j]) == {})
    && (forall i :: 0 <= i < |g.productions| ==> SelfClash(first, follow, w, g.productions[i]) == {})
  }

  /** The same condition checked production by production, as the builder
      meets them, from index `i` on. */
  ghost predicate NoClashFrom(g: Grammar, first: SymbolSets, follow: SymbolSets, w: Walk, i: nat)
    requires i <= |g.productions|
  {
    forall j :: i <= j < |g.productions| ==>
      && Lookaheads(first, follow, w, g.productions[j]) * Claimed(g, first, follow, w, g.productions[j].lhs, j) == {}
      && SelfClash(first, follow, w, g.productions[j]) == {}
  }

  lemma NoClashSequentially(g: Grammar, first: SymbolSets, follow: SymbolSets, w: Walk)
    ensures NoClashFrom(g, first, follow, w, 0) <==> NoClash(g, first, follow, w)
  {
    var P := g.productions;
    if NoClashFrom(g, first, follow, w, 0) {
      forall i, j | 0 <= i < j < |P| && P[i].lhs == P[j].lhs
        ensures Lookaheads(first, follow, w, P[i]) * Lookaheads(first, follow, w, P[j]) == {}
      {
        forall t | t in Lookaheads(first, follow, w, P[i])
          ensures t in Claimed(g, first, follow, w, P[j].lhs, j)
        {
        }
      }
    }
  }

  /** `table` is what the loop has built after the first `n` productions:
      a row for each left-hand side seen, holding exactly the lookaheads they
      claim, each mapped to a production that claims it. */
  ghost predicate Built(g: Grammar, first: SymbolSets, follow: SymbolSets, w: Walk, n: nat, table: Table)
    requires n <= |g.productions|
  {
    BuiltRows(g, n, table) && BuiltKeys(g, first, follow, w, n, table) && BuiltCells(g, first, follow, w, n, table)
  }

  /** A row for each left-hand side among the first `n` productions. */
  ghost predicate BuiltRows(g: Grammar, n: nat, table: Table)
    requires n <= |g.productions|
  {
    forall a :: a in table <==> exists k :: 0 <= k < n && g.productions[k].lhs == a
  }

  /** Each row holds exactly the lookaheads claimed for it. */
  ghost predicate BuiltKeys(g: Grammar, first: SymbolSets, follow: SymbolSets, w: Walk, n: nat, table: Table)
    requires n <= |g.productions|
  {
    forall a :: a in table ==> table[a].Keys == Claimed(g, first, follow, w, a, n)
  }

  /** Each cell holds one of the first `n` productions, of its row, claiming it. */
  ghost predicate BuiltCells(g: Grammar, first: SymbolSets, follow: SymbolSets, w: Walk, n: nat, table: Table)
    requires n <= |g.productions|
  {
    forall a, t :: a in table && t in table[a] ==>
      table[a][t] in g.productions[..n] && table[a][t].lhs == a && t in Lookaheads(first, follow, w, table[a][t])
  }

  /** `row` with every symbol of `ts` mapped to `p`. */
  function Fill(row: map<Symbol, Production>, ts: set<Symbol>, p: Production): (r: map<Symbol, Production>)
    ensures r.Keys == row.Keys + ts
    ensures forall t :: t in r ==> r[t] == (if t in ts then p else row[t])
  {
    map t | t in row.Keys + ts :: if t in ts then p else row[t]
  }

  /** One iteration of the loop of `build_LL1_table`: make sure the row of
      `p.lhs` exists, enter `p` for each symbol of its FIRST set but epsilon,
      and, when that set holds epsilon, for each symbol of FOLLOW of `p.lhs`;
      entering a symbol the row already has is a conflict. */
  function AddProduction(first: SymbolSets, follow: SymbolSets, w: Walk, table: Table, p: Production): Result<Table, TableError>
  {
    var row := if p.lhs in table then table[p.lhs] else map[];
    match RhsFirst(first, p.rhs, w)
    case Err(x) => Err(MissingFirst(x))
    case Ok(f) =>
      var ts := f - {Eps};
      if ts * row.Keys != {} then Err(Conflict(p.lhs, ts * row.Keys))
      else
        var row1 := Fill(row, ts, p);
        if Eps !in f then Ok(table[p.lhs := row1])
        else if p.lhs !in follow then Err(MissingFollow(p.lhs))
        else if follow[p.lhs] * row1.Keys != {} then Err(Conflict(p.lhs, follow[p.lhs] * row1.Keys))
        else Ok(table[p.lhs := Fill(row1, follow[p.lhs], p)])
  }

  /** A failure of the builder at production `p` is one of the three kinds,
      each with its cause. */
  ghost predicate FailsAt(first: SymbolSets, follow: SymbolSets, p: Production, e: TableError)
  {
    match e
    case MissingFirst(x) => x in p.rhs && x !in first
    case MissingFollow(a) => a == p.lhs && a !in follow
    case Conflict(a, ts) => a == p.lhs && ts != {}
  }

  /** The lookaheads claimed after one more production. */
  lemma ClaimedStep(g: Grammar, first: SymbolSets, follow: SymbolSets, w: Walk, i: nat, a: Symbol)
    requires i < |g.productions|
    ensures Claimed(g, first, follow, w, a, i + 1) ==
      Claimed(g, first, follow, w, a, i) + (if g.productions[i].lhs == a then Lookaheads(first, follow, w, g.productions[i]) else {})
  {
  }

  lemma FillTwice(row: map<Symbol, Production>, ts: set<Symbol>, us: set<Symbol>, p: Production)
    ensures Fill(Fill(row, ts, p), us, p) == Fill(row, ts + us, p)
  {
    var a, b := Fill(Fill(row, ts, p), us, p), Fill(row, ts + us, p);
    assert a.Keys == b.Keys;
    forall t | t in a
      ensures a[t] == b[t]
    {
    }
  }

  /** A successful step enters `p` for exactly its lookaheads. */
  lemma AddProductionOk(first: SymbolSets, follow: SymbolSets, w: Walk, table: Table, p: Production)
    ensures var row := if p.lhs in table then table[p.lhs] else map[];
      var r := AddProduction(first, follow, w, table, p);
      r.Ok? ==> r.value == table[p.lhs := Fill(row, Lookaheads(first, follow, w, p), p)]
  {
    var row := if p.lhs in table then table[p.lhs] else map[];
    match RhsFirst(first, p.rhs, w)
    case Err(_) =>
    case Ok(f) =>
      var ts := f - {Eps};
      if ts * row.Keys == {} && Eps in f && p.lhs in follow {
        FillTwice(row, ts, follow[p.lhs], p);
      } else if Eps !in f {
        assert Lookaheads(first, follow, w, p) == ts;
      }
  }

  /** A step fails for one of the three causes, and, when the lookups
      succeed, exactly when `p` claims a lookahead already in its row or in
      both its FIRST and FOLLOW parts. */
  lemma AddProductionFails(first: SymbolSets, follow: SymbolSets, w: Walk, table: Table, p: Production)
    ensures var row := if p.lhs in table then table[p.lhs] else map[];
      var r := AddProduction(first, follow, w, table, p);
      && (r.Err? ==> FailsAt(first, follow, p, r.error))
      && ((forall x :: x in p.rhs ==> x in first) && p.lhs in follow ==>
            (r.Ok? <==> Lookaheads(first, follow, w, p) * row.Keys == {} && SelfClash(first, follow, w, p) == {}))
  {
  }

  /** One step keeps `Built`, and it fails on a clash exactly. */
  lemma AddProductionSpec(g: Grammar, first: SymbolSets, follow: SymbolSets, w: Walk, i: nat, table: Table)
    requires i < |g.productions| && Built(g, first, follow, w, i, table)
    ensures var r := AddProduction(first, follow, w, table, g.productions[i]);
      && (r.Ok? ==> Built(g, first, follow, w, i + 1, r.value))
      && (r.Err? ==> FailsAt(first, follow, g.productions[i], r.error))
      && (LookupsSucceed(g, first, follow) ==>
            (r.Ok? <==> Lookaheads(first, follow, w, g.productions[i]) * Claimed(g, first, follow, w, g.productions[i].lhs, i) == {}
                        && SelfClash(first, follow, w, g.productions[i]) == {}))
  {
    var P := g.productions;
    var p := P[i];
    var row := if p.lhs in table then table[p.lhs] else map[];
    assert row.Keys == Claimed(g, first, follow, w, p.lhs, i);
    assert p in P;
    AddProductionFails(first, follow, w, table, p);
    AddProductionOk(first, follow, w, table, p);
    var r := AddProduction(first, follow, w, table, p);
    if r.Ok? {
      var t := r.value;
      BuiltRowsStep(g, i, table, t, Fill(row, Lookaheads(first, follow, w, p), p));
      BuiltKeysStep(g, first, follow, w, i, table, t);
      BuiltCellsStep(g, first, follow, w, i, table, t);
    }
  }

  lemma BuiltRowsStep(g: Grammar, i: nat, table: Table, t: Table, row1: map<Symbol, Production>)
    requires i < |g.productions| && BuiltRows(g, i, table)
    requires t == table[g.productions[i].lhs := row1]
    ensures BuiltRows(g, i + 1, t)
  {
    var P := g.productions;
    forall a
      ensures a in t <==> exists k :: 0 <= k < i + 1 && P[k].lhs == a
    {
      if a in t && a != P[i].lhs {
        assert a in table;
      }
    }
  }

  lemma BuiltKeysStep(g: Grammar, first: SymbolSets, follow: SymbolSets, w: Walk, i: nat, table: Table, t: Table)
    requires i < |g.productions| && BuiltRows(g, i, table) && BuiltKeys(g, first, follow, w, i, table)
    requires var p := g.productions[i];
      var row := if p.lhs in table then table[p.lhs] else map[];
      t == table[p.lhs := Fill(row, Lookaheads(first, follow, w, p), p)]
    ensures BuiltKeys(g, first, follow, w, i + 1, t)
  {
    var p := g.productions[i];
    var row := if p.lhs in table then table[p.lhs] else map[];
    assert row.Keys == Claimed(g, first, follow, w, p.lhs, i);
    forall a | a in t
      ensures t[a].Keys == Claimed(g, first, follow, w, a, i + 1)
    {
      ClaimedStep(g, first, follow, w, i, a);
    }
  }

  lemma BuiltCellsStep(g: Grammar, first: SymbolSets, follow: SymbolSets, w: Walk, i: nat, table: Table, t: Table)
    requires i < |g.productions| && BuiltCells(g, first, follow, w, i, table)
    requires var p := g.productions[i];
      var row := if p.lhs in table then table[p.lhs] else map[];
      t == table[p.lhs := Fill(row, Lookaheads(first, follow, w, p), p)]
    ensures BuiltCells(g, first, follow, w, i + 1, t)
  {
    var P := g.productions;
    var p := P[i];
    var row := if p.lhs in table then table[p.lhs] else map[];
    var L := Lookaheads(first, follow, w, p);
    assert P[..i + 1] == P[..i] + [p];
    forall a, la | a in t && la in t[a]
      ensures t[a][la] in P[..i + 1] && t[a][la].lhs == a && la in Lookaheads(first, follow, w, t[a][la])
    {
      if a == p.lhs && la !in L {
        assert t[a][la] == row[la];
      }
    }
  }

  /** The loop of `build_LL1_table` from production `i` on. */
  function BuildFrom(g: Grammar, first: SymbolSets, follow: SymbolSets, w: Walk, i: nat, table: Table): (r: Result<Table, TableError>)
    requires i <= |g.productions|
    decreases |g.productions| - i
  {
    if i == |g.productions| then Ok(table)
    else
      match AddProduction(first, follow, w, table, g.productions[i])
      case Err(e) => Err(e)
      case Ok(t) => BuildFrom(g, first, follow, w, i + 1, t)
  }

  lemma BuildFromSpec(g: Grammar, first: SymbolSets, follow: SymbolSets, w: Walk, i: nat, table: Table)
    requires i <= |g.productions| && Built(g, first, follow, w, i, table)
    ensures var r := BuildFrom(g, first, follow, w, i, table);
      && (r.Ok? ==> Built(g, first, follow, w, |g.productions|, r.value))
      && (r.Err? ==> exists p :: p in g.productions && FailsAt(first, follow, p, r.error))
      && (LookupsSucceed(g, first, follow) ==> (r.Ok? <==> NoClashFrom(g, first, follow, w, i)))
  {
    BuildFromBuilt(g, first, follow, w, i, table);
    if LookupsSucceed(g, first, follow) {
      BuildFromClash(g, first, follow, w, i, table);
    }
  }

  /** The loop keeps `Built` to the end, and fails only as one step can. */
  lemma {:induction false} BuildFromBuilt(g: Grammar, first: SymbolSets, follow: SymbolSets, w: Walk, i: nat, table: Table)
    requires i <= |g.productions| && Built(g, first, follow, w, i, table)
    ensures var r := BuildFrom(g, first, follow, w, i, table);
      && (r.Ok? ==> Built(g, first, follow, w, |g.productions|, r.value))
      && (r.Err? ==> exists p :: p in g.productions && FailsAt(first, follow, p, r.error))
    decreases |g.productions| - i
  {
    if i < |g.productions| {
      AddProductionSpec(g, first, follow, w, i, table);
      var r := AddProduction(first, follow, w, table, g.productions[i]);
      assert g.productions[i] in g.productions;
      if r.Ok? {
        BuildFromBuilt(g, first, follow, w, i + 1, r.value);
      }
    }
  }

  /** When every lookup succeeds, the loop fails exactly on a clash. */
  lemma {:induction false} BuildFromClash(g: Grammar, first: SymbolSets, follow: SymbolSets, w: Walk, i: nat, table: Table)
    requires i <= |g.productions| && Built(g, first, follow, w, i, table) && LookupsSucceed(g, first, follow)
    ensures BuildFrom(g, first, follow, w, i, table).Ok? <==> NoClashFrom(g, first, follow, w, i)
    decreases |g.productions| - i
  {
    if i < |g.productions| {
      AddProductionSpec(g, first, follow, w, i, table);
      NoClashFromStep(g, first, follow, w, i);
      var r := AddProduction(first, follow, w, table, g.productions[i]);
      if r.Ok? {
        BuildFromClash(g, first, follow, w, i + 1, r.value);
      }
    }
  }

  lemma NoClashFromStep(g: Grammar, first: SymbolSets, follow: SymbolSets, w: Walk, i: nat)
    requires i < |g.productions|
    ensures NoClashFrom(g, first, follow, w, i) <==>
      && Lookaheads(first, follow, w, g.productions[i]) * Claimed(g, first, follow, w, g.productions[i].lhs, i) == {}
      && SelfClash(first, follow, w, g.productions[i]) == {}
      && NoClashFrom(g, first, follow, w, i + 1)
  {
  }

  /** `build_LL1_table`. */
  function BuildTable(g: Grammar, first: SymbolSets, follow: SymbolSets, w: Walk): Result<Table, TableError>
  {
    BuildFrom(g, first, follow, w, 0, map[])
  }

  /** In an LL(1) grammar a lookahead is claimed in a row by one production only. */
  lemma OneClaimant(g: Grammar, first: SymbolSets, follow: SymbolSets, w: Walk, i: nat, j: nat, la: Symbol)
    requires NoClash(g, first, follow, w)
    requires i < |g.productions| && j < |g.productions| && g.productions[i].lhs == g.productions[j].lhs
    requires la in Lookaheads(first, follow, w, g.productions[i]) && la in Lookaheads(first, follow, w, g.productions[j])
    ensures i == j
  {
    var P := g.productions;
    assert la in Lookaheads(first, follow, w, P[i]) * Lookaheads(first, follow, w, P[j]);
    assert la in Lookaheads(first, follow, w, P[j]) * Lookaheads(first, follow, w, P[i]);
  }

  /** A finished table has a row per non-terminal, and each cell holds a
      production of its row that claims the cell. */
  lemma FinishedTable(g: Grammar, first: SymbolSets, follow: SymbolSets, w: Walk, t: Table)
    requires Built(g, first, follow, w, |g.productions|, t)
    ensures t.Keys == NonTerminals(g.productions)
    ensures forall a, la :: a in t && la in t[a] ==>
      t[a][la] in g.productions && t[a][la].lhs == a && la in Lookaheads(first, follow, w, t[a][la])
  {
    var P := g.productions;
    assert P[..|P|] == P;
    forall a | a in NonTerminals(P)
      ensures a in t
    {
      var k :| 0 <= k < |P| && P[k].lhs == a;
    }
  }

  /** For an LL(1) grammar a finished table holds each production in every
      cell it claims. */
  lemma FinishedTableComplete(g: Grammar, first: SymbolSets, follow: SymbolSets, w: Walk, t: Table)
    requires Built(g, first, follow, w, |g.productions|, t) && NoClash(g, first, follow, w)
    ensures forall p, la :: p in g.productions && la in Lookaheads(first, follow, w, p) ==>
      p.lhs in t && la in t[p.lhs] && t[p.lhs][la] == p
  {
    forall p, la | p in g.productions && la in Lookaheads(first, follow, w, p)
      ensures p.lhs in t && la in t[p.lhs] && t[p.lhs][la] == p
    {
      ProductionHeld(g, first, follow, w, t, p, la);
    }
  }

  lemma ProductionHeld(g: Grammar, first: SymbolSets, follow: SymbolSets, w: Walk, t: Table, p: Production, la: Symbol)
    requires Built(g, first, follow, w, |g.productions|, t) && NoClash(g, first, follow, w)
    requires p in g.productions && la in Lookaheads(first, follow, w, p)
    ensures p.lhs in t && la in t[p.lhs] && t[p.lhs][la] == p
  {
    var i :| 0 <= i < |g.productions| && g.productions[i] == p;
    CellHolds(g, first, follow, w, t, i, la);
  }

  /** The cell of one claimed lookahead holds its claimant. */
  lemma CellHolds(g: Grammar, first: SymbolSets, follow: SymbolSets, w: Walk, t: Table, i: nat, la: Symbol)
    requires BuiltKeys(g, first, follow, w, |g.productions|, t) && BuiltCells(g, first, follow, w, |g.productions|, t)
    requires BuiltRows(g, |g.productions|, t) && NoClash(g, first, follow, w)
    requires i < |g.productions| && la in Lookaheads(first, follow, w, g.productions[i])
    ensures var a := g.productions[i].lhs; a in t && la in t[a] && t[a][la] == g.productions[i]
  {
    CellFilled(g, first, follow, w, t, i, la);
    CellOwner(g, first, follow, w, t, i, la);
  }

  /** A claimed lookahead has a cell. */
  lemma CellFilled(g: Grammar, first: SymbolSets, follow: SymbolSets, w: Walk, t: Table, i: nat, la: Symbol)
    requires BuiltRows(g, |g.productions|, t) && BuiltKeys(g, first, follow, w, |g.productions|, t)
    requires i < |g.productions| && la in Lookaheads(first, follow, w, g.productions[i])
    ensures var a := g.productions[i].lhs; a in t && la in t[a]
  {
    var a := g.productions[i].lhs;
    assert a in t;
    assert la in Claimed(g, first, follow, w, a, |g.productions|);
  }

  /** In an LL(1) grammar the cell of a lookahead holds the one production
      claiming it. */
  lemma CellOwner(g: Grammar, first: SymbolSets, follow: SymbolSets, w: Walk, t: Table, i: nat, la: Symbol)
    requires BuiltCells(g, first, follow, w, |g.productions|, t) && NoClash(g, first, follow, w)
    requires i < |g.productions| && la in Lookaheads(first, follow, w, g.productions[i])
    requires var a := g.productions[i].lhs; a in t && la in t[a]
    ensures t[g.productions[i].lhs][la] == g.productions[i]
  {
    var P := g.productions;
    var q := t[P[i].lhs][la];
    assert P[..|P|] == P;
    var j := IndexOf(P, q);
    OneClaimant(g, first, follow, w, i, j, la);
  }

  /** The position of an element of a sequence. */
  function IndexOf<T(==)>(s: seq<T>, x: T): (k: nat)
    requires x in s
    ensures k < |s| && s[k] == x
  {
    if s[0] == x then 0 else 1 + IndexOf(s[1..], x)
  }

  /** What `build_LL1_table` returns. A table has a row for exactly the
      non-terminals; each cell holds a production of that row's non-terminal
      that claims the cell's lookahead; and for an LL(1) grammar every
      production sits in every cell it claims. The builder succeeds, when its
      lookups do, exactly when the grammar is LL(1) with respect to the sets;
      a failure is a clash or a lookup that failed. */
  lemma BuildTableSpec(g: Grammar, first: SymbolSets, follow: SymbolSets, w: Walk)
    ensures var r := BuildTable(g, first, follow, w);
      && (LookupsSucceed(g, first, follow) ==> (r.Ok? <==> NoClash(g, first, follow, w)))
      && (r.Err? ==> exists p :: p in g.productions && FailsAt(first, follow, p, r.error))
      && (r.Ok? ==> r.value.Keys == NonTerminals(g.productions))
      && (r.Ok? ==> forall a, la :: a in r.value && la in r.value[a] ==>
            r.value[a][la] in g.productions && r.value[a][la].lhs == a && la in Lookaheads(first, follow, w, r.value[a][la]))
      && (r.Ok? && NoClash(g, first, follow, w) ==> forall p, la :: p in g.productions && la in Lookaheads(first, follow, w, p) ==>
            p.lhs in r.value && la in r.value[p.lhs] && r.value[p.lhs][la] == p)
  {
    assert Built(g, first, follow, w, 0, map[]);
    BuildFromSpec(g, first, follow, w, 0, map[]);
    NoClashSequentially(g, first, follow, w);
    var r := BuildTable(g, first, follow, w);
    if r.Ok? {
      FinishedTable(g, first, follow, w, r.value);
      if NoClash(g, first, follow, w) {
        FinishedTableComplete(g, first, follow, w, r.value);
      }
    }
  }
}

=== FILE: tokens.dfy ===
/** Token tags and tokens (LangChisel/lex/token.py). Python compares both
    field-wise, which is exactly datatype equality here. */
module Tokens {
  import opened Results

  /** A `TokenTag`, identified by its identifier string. */
  type Tag = string

  /** A lexed token: its tag and the value an extractor produced, if any.
      The value type is left abstract because extractors are arbitrary
      caller-supplied functions. */
  datatype Token<V> = Token(tag: Tag, value: Option<V>)
}

=== FILE: tree.dfy ===
/** Syntax trees from a derivation sequence, and tokens attached to their
    leaves: `generate_syntax_tree_symbols`, `extract_terminal_children` and
    `tokenise_syntax_tree_terminals` of LangChisel/parse/ll1_parser.py.
    Python builds the tree by mutating nodes taken from a work-list; the model
    builds the same tree bottom-up, expanding nodes in the order the work-list
    pops them (depth first, leftmost child first). */
module SyntaxTree {
  import opened Results
  import opened Tokens
  import opened CFG
  import opened Derivations

  /** A `SyntaxNode`: its symbol, the token attached to it, if any, and its
      children (none for a node that was never expanded). */
  datatype Node<V> = Node(symbol: Symbol, token: Option<Token<V>>, children: seq<Node<V>>)

  /** The `AssertionError`s of the builder: an empty derivation sequence, or
      a popped node whose symbol is not the next production's left-hand
      side. */
  datatype TreeError = EmptyDerivation | LhsMismatch(node: Symbol, production: Production)

  /** Which children the builder queues for expansion. As written, the
      epsilon test reads the loop variable left over from building the
      children, which is the production's last right-hand-side symbol; the
      evident intent is to test each child. */
  datatype Filter = LastSymbol | EachChild

  /** Whether `child`, a child built from right-hand side `rhs`, is queued. */
  predicate Queued(f: Filter, rhs: seq<Symbol>, child: Symbol)
    requires rhs != []
  {
    && !IsTerminal(child)
    && (if f == LastSymbol then rhs[|rhs| - 1] != Eps else child != Eps)
  }

  function Leaf<V>(s: Symbol): Node<V>
  {
    Node(s, None, [])
  }

  /** Pop the node for `sym` and expand it with production `i`, then its
      queued children in order; once the productions run out, the nodes still
      waiting stay leaves. The result is the subtree and the index of the
      next production. */
  function Expand<V>(f: Filter, ds: seq<Production>, sym: Symbol, i: nat): (r: Result<(Node<V>, nat), TreeError>)
    requires i <= |ds|
    ensures r.Ok? ==> i <= r.value.1 <= |ds| && r.value.0.symbol == sym
    ensures r.Err? ==> r.error.LhsMismatch?
    decreases |ds| - i, 0, 0
  {
    if i == |ds| then Ok((Leaf(sym), i))
    else if ds[i].lhs != sym then Err(LhsMismatch(sym, ds[i]))
    else
      match Children(f, ds, ds[i].rhs, 0, i + 1)
      case Err(e) => Err(e)
      case Ok((kids, j)) => Ok((Node(sym, None, kids), j))
  }

  /** The children for `rhs[k..]`, the queued ones expanded from production
      `i` on. */
  function Children<V>(f: Filter, ds: seq<Production>, rhs: seq<Symbol>, k: nat, i: nat): (r: Result<(seq<Node<V>>, nat), TreeError>)
    requires k <= |rhs| && i <= |ds|
    ensures r.Ok? ==> i <= r.value.1 <= |ds| && |r.value.0| == |rhs| - k
    ensures r.Ok? ==> forall m :: 0 <= m < |r.value.0| ==> r.value.0[m].symbol == rhs[k + m]
    ensures r.Err? ==> r.error.LhsMismatch?
    decreases |ds| - i, 1, |rhs| - k
  {
    if k == |rhs| then Ok(([], i))
    else
      var head: Result<(Node<V>, nat), TreeError> :=
        if Queued(f, rhs, rhs[k]) then Expand(f, ds, rhs[k], i) else Ok((Leaf(rhs[k]), i));
      match head
      case Err(e) => Err(e)
      case Ok((n, j)) =>
        match Children(f, ds, rhs, k + 1, j)
        case Err(e) => Err(e)
        case Ok((ns, j')) => Ok(([n] + ns, j'))
  }

  /** `generate_syntax_tree_symbols`, with the number of productions used. */
  function BuildTree<V>(f: Filter, ds: seq<Production>): (r: Result<(Node<V>, nat), TreeError>)
    ensures r.Ok? ==> 0 < r.value.1 <= |ds| && r.value.0.symbol == ds[0].lhs
    ensures r.Err? ==> (ds == [] <==> r.error == EmptyDerivation)
  {
    if ds == [] then Err(EmptyDerivation)
    else
      match Expand(f, ds, ds[0].lhs, 0)
      case Err(e) => Err(e)
      case Ok((t, j)) => Ok((t, j))
  }

  /** The symbols of the leaves, left to right: the sentential form the
      tree stands for. */
  function Yield<V>(n: Node<V>): seq<Symbol>
    decreases n
  {
    if n.children == [] then [n.symbol] else YieldAll(n.children)
  }

  function YieldAll<V>(ns: seq<Node<V>>): seq<Symbol>
    decreases ns
  {
    if ns == [] then [] else Yield(ns[0]) + YieldAll(ns[1..])
  }

  lemma YieldAllCons<V>(n: Node<V>, ns: seq<Node<V>>)
    ensures YieldAll([n] + ns) == Yield(n) + YieldAll(ns)
  {
    assert ([n] + ns)[0] == n && ([n] + ns)[1..] == ns;
  }

  /** Once the productions have run out, the remaining children are leaves. */
  lemma {:induction false} ExhaustedChildren<V>(f: Filter, ds: seq<Production>, rhs: seq<Symbol>, k: nat)
    requires k <= |rhs|
    ensures var r := Children<V>(f, ds, rhs, k, |ds|);
      r.Ok? && r.value.1 == |ds| && YieldAll(r.value.0) == rhs[k..]
    decreases |rhs| - k
  {
    if k < |rhs| {
      ExhaustedChildren<V>(f, ds, rhs, k + 1);
      var ns := Children<V>(f, ds, rhs, k + 1, |ds|).value.0;
      var n: Node<V> := Leaf(rhs[k]);
      assert Children<V>(f, ds, rhs, k, |ds|) == Ok(([n] + ns, |ds|));
      YieldAllCons(n, ns);
      assert rhs[k..] == [rhs[k]] + rhs[k + 1..];
    }
  }

  /** With the epsilon test on each child, expanding `sym` consumes the productions of a
      leftmost derivation of `[sym] + rest` up to the point where `sym` is fully
      derived (or the productions run out), and the subtree's leaves are what
      `sym` derives. The builder never fails on a leftmost derivation. */
  lemma {:induction false} ExpandDerives<V>(ds: seq<Production>, sym: Symbol, i: nat, rest: seq<Symbol>)
    requires i <= |ds| && sym.N? && Expanding(ds) && Derive([sym] + rest, ds[i..]).Some?
    ensures var r := Expand<V>(EachChild, ds, sym, i);
      && r.Ok?
      && Derive([sym] + rest, ds[i..r.value.1]) == Some(Yield(r.value.0) + rest)
      && (Settled(Yield(r.value.0)) || r.value.1 == |ds|)
    decreases |ds| - i, 0, 0, 0
  {
    if i == |ds| {
      assert ds[i..i] == [];
    } else {
      var rhs := ds[i].rhs;
      assert ds[i..] == ds[i..|ds|] && ds[i + 1..] == ds[i + 1..|ds|];
      DeriveNonTerminal(sym, rest, ds, i, |ds|);
      assert rhs[0..] == rhs;
      ChildrenDerive<V>(ds, rhs, 0, i + 1, rest);
      var kids, j := Children<V>(EachChild, ds, rhs, 0, i + 1).value.0, Children<V>(EachChild, ds, rhs, 0, i + 1).value.1;
      ExpandUnfold<V>(EachChild, ds, sym, i);
      assert Yield(Node(sym, None, kids)) == YieldAll(kids);
      DeriveNonTerminal(sym, rest, ds, i, j);
    }
  }

  lemma {:induction false} ChildrenDerive<V>(ds: seq<Production>, rhs: seq<Symbol>, k: nat, i: nat, rest: seq<Symbol>)
    requires k <= |rhs| && i <= |ds| && Expanding(ds) && Derive(rhs[k..] + rest, ds[i..]).Some?
    ensures var r := Children<V>(EachChild, ds, rhs, k, i);
      && r.Ok?
      && Derive(rhs[k..] + rest, ds[i..r.value.1]) == Some(YieldAll(r.value.0) + rest)
      && (Settled(YieldAll(r.value.0)) || r.value.1 == |ds|)
    decreases |ds| - i, 1, |rhs| - k, 1
  {
    if k == |rhs| {
      assert ds[i..i] == [];
      assert rhs[k..] + rest == rest;
    } else if rhs[k].N? {
      ChildrenDeriveQueued<V>(ds, rhs, k, i, rest);
    } else {
      ChildrenDeriveLeaf<V>(ds, rhs, k, i, rest);
    }
  }

  /** A terminal or epsilon child is a leaf and takes no production. */
  lemma {:induction false} ChildrenDeriveLeaf<V>(ds: seq<Production>, rhs: seq<Symbol>, k: nat, i: nat, rest: seq<Symbol>)
    requires k < |rhs| && i <= |ds| && Expanding(ds) && Derive(rhs[k..] + rest, ds[i..]).Some?
    requires !rhs[k].N?
    ensures var r := Children<V>(EachChild, ds, rhs, k, i);
      && r.Ok?
      && Derive(rhs[k..] + rest, ds[i..r.value.1]) == Some(YieldAll(r.value.0) + rest)
      && (Settled(YieldAll(r.value.0)) || r.value.1 == |ds|)
    decreases |ds| - i, 1, |rhs| - k, 0
  {
    var c := rhs[k];
    var tail := rhs[k + 1..] + rest;
    ConsTail(rhs, k, rest);
    assert Settled([c]);
    DeriveUnderSettled([c], tail, ds[i..]);
    ChildrenDerive<V>(ds, rhs, k + 1, i, rest);
    var ns, j := Children<V>(EachChild, ds, rhs, k + 1, i).value.0, Children<V>(EachChild, ds, rhs, k + 1, i).value.1;
    LeafUnfold<V>(EachChild, ds, rhs, k, i);
    LeafJoin(c, YieldAll(ns), tail, rest, ds[i..j]);
    YieldAllCons(Leaf<V>(c), ns);
  }

  /** A non-terminal child is expanded in full before its right sibling. */
  lemma {:induction false} ChildrenDeriveQueued<V>(ds: seq<Production>, rhs: seq<Symbol>, k: nat, i: nat, rest: seq<Symbol>)
    requires k < |rhs| && i <= |ds| && Expanding(ds) && Derive(rhs[k..] + rest, ds[i..]).Some?
    requires rhs[k].N?
    ensures var r := Children<V>(EachChild, ds, rhs, k, i);
      && r.Ok?
      && Derive(rhs[k..] + rest, ds[i..r.value.1]) == Some(YieldAll(r.value.0) + rest)
      && (Settled(YieldAll(r.value.0)) || r.value.1 == |ds|)
    decreases |ds| - i, 1, |rhs| - k, 0
  {
    var c := rhs[k];
    var tail := rhs[k + 1..] + rest;
    ConsTail(rhs, k, rest);
    ExpandDerives<V>(ds, c, i, tail);
    var t1, j1 := Expand<V>(EachChild, ds, c, i).value.0, Expand<V>(EachChild, ds, c, i).value.1;
    SiblingDerivable([c] + tail, Yield(t1), tail, ds, i, j1);
    ChildrenDerive<V>(ds, rhs, k + 1, j1, rest);
    var ns, j := Children<V>(EachChild, ds, rhs, k + 1, j1).value.0, Children<V>(EachChild, ds, rhs, k + 1, j1).value.1;
    QueuedUnfold<V>(EachChild, ds, rhs, k, i);
    YieldAllCons(t1, ns);
    if j1 < |ds| {
      SiblingJoin([c] + tail, Yield(t1), tail, YieldAll(ns), rest, ds, i, j1, j);
    } else {
      ExhaustedChildren<V>(EachChild, ds, rhs, k + 1);
      ExhaustedJoin([c] + tail, Yield(t1), rhs[k + 1..], rest, ds, i, j1, j);
    }
  }

  lemma ExpandUnfold<V>(f: Filter, ds: seq<Production>, sym: Symbol, i: nat)
    requires i < |ds| && ds[i].lhs == sym
    ensures Expand<V>(f, ds, sym, i) ==
      match Children<V>(f, ds, ds[i].rhs, 0, i + 1)
      case Err(e) => Err(e)
      case Ok((kids, j)) => Ok((Node(sym, None, kids), j))
  {
  }

  lemma LeafUnfold<V>(f: Filter, ds: seq<Production>, rhs: seq<Symbol>, k: nat, i: nat)
    requires k < |rhs| && i <= |ds| && !Queued(f, rhs, rhs[k])
    ensures Children<V>(f, ds, rhs, k, i) ==
      match Children<V>(f, ds, rhs, k + 1, i)
      case Err(e) => Err(e)
      case Ok((ns, j)) => Ok(([Leaf(rhs[k])] + ns, j))
  {
  }

  lemma QueuedUnfold<V>(f: Filter, ds: seq<Production>, rhs: seq<Symbol>, k: nat, i: nat)
    requires k < |rhs| && i <= |ds| && Queued(f, rhs, rhs[k])
    ensures Children<V>(f, ds, rhs, k, i) ==
      match Expand<V>(f, ds, rhs[k], i)
      case Err(e) => Err(e)
      case Ok((n, j1)) =>
        match Children<V>(f, ds, rhs, k + 1, j1)
        case Err(e) => Err(e)
        case Ok((ns, j)) => Ok(([n] + ns, j))
  {
  }

  /** A leftmost step on `[sym] + rest` rewrites `sym`. */
  lemma DeriveNonTerminal(sym: Symbol, rest: seq<Symbol>, ds: seq<Production>, i: nat, j: nat)
    requires i < j <= |ds| && sym.N?
    ensures Derive([sym] + rest, ds[i..j]) ==
      if ds[i].lhs == sym then Derive(ds[i].rhs + rest, ds[i + 1..j]) else None
  {
    var p := ds[i];
    DeriveFirst([sym] + rest, p, ds[i + 1..j]);
    assert [p] + ds[i + 1..j] == ds[i..j];
    assert [sym] + rest == [] + [sym] + rest;
    ApplyAfterSettled([], sym, rest, p);
    assert [] + p.rhs + rest == p.rhs + rest;
  }

  lemma LeafJoin(c: Symbol, y: seq<Symbol>, tail: seq<Symbol>, rest: seq<Symbol>, es: seq<Production>)
    requires !c.N? && Derive(tail, es) == Some(y + rest)
    ensures Derive([c] + tail, es) == Some([c] + y + rest)
  {
    DeriveUnderSettled([c], tail, es);
    assert [c] + (y + rest) == [c] + y + rest;
  }

  /** Once the first child's derivation ends settled, what follows it is
      still derivable. */
  lemma SiblingDerivable(form: seq<Symbol>, y: seq<Symbol>, tail: seq<Symbol>, ds: seq<Production>, i: nat, j1: nat)
    requires i <= j1 <= |ds| && Derive(form, ds[i..]).Some?
    requires Derive(form, ds[i..j1]) == Some(y + tail)
    requires Settled(y) || j1 == |ds|
    ensures Derive(tail, ds[j1..]).Some?
  {
    assert ds[i..] == ds[i..|ds|];
    DeriveSplit(form, y + tail, ds, i, j1, |ds|);
    assert ds[j1..] == ds[j1..|ds|];
    if j1 < |ds| {
      DeriveUnderSettled(y, tail, ds[j1..]);
    } else {
      assert ds[j1..] == [];
    }
  }

  lemma SiblingJoin(form: seq<Symbol>, y: seq<Symbol>, tail: seq<Symbol>, z: seq<Symbol>, rest: seq<Symbol>,
                    ds: seq<Production>, i: nat, j1: nat, j: nat)
    requires i <= j1 <= j <= |ds| && Settled(y)
    requires Derive(form, ds[i..j1]) == Some(y + tail)
    requires Derive(tail, ds[j1..j]) == Some(z + rest)
    requires Settled(z) || j == |ds|
    ensures Derive(form, ds[i..j]) == Some(y + z + rest)
    ensures Settled(y + z) || j == |ds|
  {
    DeriveSplit(form, y + tail, ds, i, j1, j);
    DeriveUnderSettled(y, tail, ds[j1..j]);
    assert y + (z + rest) == y + z + rest;
  }

  lemma ExhaustedJoin(form: seq<Symbol>, y: seq<Symbol>, z: seq<Symbol>, rest: seq<Symbol>,
                      ds: seq<Production>, i: nat, j1: nat, j: nat)
    requires i <= j1 == j == |ds|
    requires Derive(form, ds[i..j1]) == Some(y + (z + rest))
    ensures Derive(form, ds[i..j]) == Some(y + z + rest)
  {
    assert y + (z + rest) == y + z + rest;
  }

  lemma ConsSlice<X>(s: seq<X>, i: nat, j: nat)
    requires i < j <= |s|
    ensures [s[i]] + s[i + 1..j] == s[i..j]
  {
  }

  lemma JoinSlices<X>(s: seq<X>, i: nat, j: nat, k: nat)
    requires i <= j <= k <= |s|
    ensures s[i..j] + s[j..k] == s[i..k]
  {
  }

  lemma ConsTail(rhs: seq<Symbol>, k: nat, rest: seq<Symbol>)
    requires k < |rhs|
    ensures rhs[k..] + rest == [rhs[k]] + (rhs[k + 1..] + rest)
  {
    assert rhs[k..] == [rhs[k]] + rhs[k + 1..];
  }

  /** Deriving by `ds[i..k]` is deriving by `ds[i..j]`, then by `ds[j..k]`. */
  lemma DeriveSplit(form: seq<Symbol>, f: seq<Symbol>, ds: seq<Production>, i: nat, j: nat, k: nat)
    requires i <= j <= k <= |ds| && Derive(form, ds[i..j]) == Some(f)
    ensures Derive(form, ds[i..k]) == Derive(f, ds[j..k])
  {
    assert ds[i..k] == ds[i..j] + ds[j..k];
    DeriveAppend(form, ds[i..j], ds[j..k]);
  }


  /** A complete leftmost derivation from a non-terminal gives, with each
      child checked for epsilon, a tree that uses every production and whose leaves spell
      the derived sentence. */
  lemma {:induction false} TreeOfDerivation<V>(sym: Symbol, ds: seq<Production>, form: seq<Symbol>)
    requires sym.N? && Expanding(ds) && Derive([sym], ds) == Some(form) && Settled(form)
    ensures var r := BuildTree<V>(EachChild, ds);
      r.Ok? && r.value.1 == |ds| && r.value.0.symbol == sym && Yield(r.value.0) == form
  {
    UnsettledStart(sym, ds, form);
    assert [sym] + [] == [sym] && ds[0..] == ds && ds[0..|ds|] == ds;
    DeriveNonTerminal(sym, [], ds, 0, |ds|);
    ExpandDerives<V>(ds, sym, 0, []);
    var t, j := Expand<V>(EachChild, ds, sym, 0).value.0, Expand<V>(EachChild, ds, sym, 0).value.1;
    assert Yield(t) + [] == Yield(t);
    DerivationComplete(sym, ds, form, Yield(t), j);
  }

  /** A leftmost derivation that reaches a settled form has ended there. */
  lemma DerivationComplete(sym: Symbol, ds: seq<Production>, form: seq<Symbol>, y: seq<Symbol>, j: nat)
    requires j <= |ds| && Derive([sym], ds[0..j]) == Some(y) && (Settled(y) || j == |ds|)
    requires Derive([sym], ds) == Some(form) && Settled(form)
    ensures j == |ds| && y == form
  {
    assert ds[0..|ds|] == ds;
    DeriveSplit([sym], y, ds, 0, j, |ds|);
    SettledIsFinal(y, ds[j..|ds|]);
  }

  lemma UnsettledStart(sym: Symbol, ds: seq<Production>, form: seq<Symbol>)
    requires sym.N? && Derive([sym], ds) == Some(form) && Settled(form)
    ensures ds != []
  {
    assert Derive([sym], []) == Some([sym]);
    assert [sym][0] == sym;
  }

  /** The productions the tree's expanded nodes stand for, in preorder: a
      node with children `cs` stands for `symbol -> symbols of cs`. */
  function Expansions<V>(n: Node<V>): seq<Production>
    decreases n
  {
    if n.children == [] then [] else [Production(n.symbol, Symbols(n.children))] + ExpansionsAll(n.children)
  }

  function ExpansionsAll<V>(ns: seq<Node<V>>): seq<Production>
    decreases ns
  {
    if ns == [] then [] else Expansions(ns[0]) + ExpansionsAll(ns[1..])
  }

  function Symbols<V>(ns: seq<Node<V>>): (r: seq<Symbol>)
    ensures |r| == |ns|
  {
    seq(|ns|, m requires 0 <= m < |ns| => ns[m].symbol)
  }

  lemma ExpansionsAllCons<V>(n: Node<V>, ns: seq<Node<V>>)
    ensures ExpansionsAll([n] + ns) == Expansions(n) + ExpansionsAll(ns)
  {
    assert ([n] + ns)[0] == n && ([n] + ns)[1..] == ns;
  }

  /** Whichever filter is used, the tree gives back exactly the productions
      it consumed, in order: reading the expansions off the tree inverts
      building it. */
  lemma {:induction false} ExpandShape<V>(f: Filter, ds: seq<Production>, sym: Symbol, i: nat)
    requires i <= |ds| && Expanding(ds)
    ensures var r := Expand<V>(f, ds, sym, i);
      r.Ok? ==> Expansions(r.value.0) == ds[i..r.value.1]
    decreases |ds| - i, 0, 0
  {
    if i == |ds| {
      assert ds[i..i] == [];
    } else if ds[i].lhs == sym {
      var rhs := ds[i].rhs;
      ExpandUnfold<V>(f, ds, sym, i);
      ChildrenShape<V>(f, ds, rhs, 0, i + 1);
      var r := Children<V>(f, ds, rhs, 0, i + 1);
      if r.Ok? {
        var kids, j := r.value.0, r.value.1;
        assert Symbols(kids) == rhs;
        assert Production(sym, rhs) == ds[i];
        ConsSlice(ds, i, j);
      }
    }
  }

  lemma {:induction false} ChildrenShape<V>(f: Filter, ds: seq<Production>, rhs: seq<Symbol>, k: nat, i: nat)
    requires k <= |rhs| && i <= |ds| && Expanding(ds)
    ensures var r := Children<V>(f, ds, rhs, k, i);
      r.Ok? ==> ExpansionsAll(r.value.0) == ds[i..r.value.1]
    decreases |ds| - i, 1, |rhs| - k
  {
    if k == |rhs| {
      assert ds[i..i] == [];
    } else if Queued(f, rhs, rhs[k]) {
      QueuedUnfold<V>(f, ds, rhs, k, i);
      ExpandShape<V>(f, ds, rhs[k], i);
      var h := Expand<V>(f, ds, rhs[k], i);
      if h.Ok? {
        var n, j1 := h.value.0, h.value.1;
        ChildrenShape<V>(f, ds, rhs, k + 1, j1);
        var r := Children<V>(f, ds, rhs, k + 1, j1);
        if r.Ok? {
          ExpansionsAllCons(n, r.value.0);
          JoinSlices(ds, i, j1, r.value.1);
        }
      }
    } else {
      LeafUnfold<V>(f, ds, rhs, k, i);
      ChildrenShape<V>(f, ds, rhs, k + 1, i);
      var r := Children<V>(f, ds, rhs, k + 1, i);
      if r.Ok? {
        ExpansionsAllCons(Leaf<V>(rhs[k]), r.value.0);
      }
    }
  }

  /** A built tree records the productions it used, from the first one. */
  lemma BuildTreeShape<V>(f: Filter, ds: seq<Production>)
    requires Expanding(ds)
    ensures var r := BuildTree<V>(f, ds);
      r.Ok? ==> Expansions(r.value.0) == ds[..r.value.1]
  {
    if ds != [] {
      ExpandShape<V>(f, ds, ds[0].lhs, 0);
      var r := Expand<V>(f, ds, ds[0].lhs, 0);
      if r.Ok? {
        assert ds[0..r.value.1] == ds[..r.value.1];
      }
    }
  }

  /** Epsilon only ever forms a right-hand side on its own, as in the
      repository's grammars. */
  predicate EpsAlone(rhs: seq<Symbol>)
  {
    Eps in rhs ==> rhs == [Eps]
  }

  predicate EpsAloneAll(ds: seq<Production>)
  {
    forall k :: 0 <= k < |ds| ==> EpsAlone(ds[k].rhs)
  }

  /** When epsilon stands alone in its right-hand sides, testing only the last
      symbol of the right-hand side decides every child the same way, so the
      builder as written and the corrected one build the same tree. */
  lemma {:induction false} FiltersAgreeExpand<V>(ds: seq<Production>, sym: Symbol, i: nat)
    requires i <= |ds| && EpsAloneAll(ds)
    ensures Expand<V>(LastSymbol, ds, sym, i) == Expand<V>(EachChild, ds, sym, i)
    decreases |ds| - i, 0, 0
  {
    if i < |ds| && ds[i].lhs == sym {
      ExpandUnfold<V>(LastSymbol, ds, sym, i);
      ExpandUnfold<V>(EachChild, ds, sym, i);
      FiltersAgreeChildren<V>(ds, ds[i].rhs, 0, i + 1);
    }
  }

  lemma {:induction false} FiltersAgreeChildren<V>(ds: seq<Production>, rhs: seq<Symbol>, k: nat, i: nat)
    requires k <= |rhs| && i <= |ds| && EpsAloneAll(ds) && EpsAlone(rhs)
    ensures Children<V>(LastSymbol, ds, rhs, k, i) == Children<V>(EachChild, ds, rhs, k, i)
    decreases |ds| - i, 1, |rhs| - k
  {
    if k < |rhs| {
      var c := rhs[k];
      assert rhs[|rhs| - 1] in rhs;
      if c.N? {
        assert Queued(LastSymbol, rhs, c) && Queued(EachChild, rhs, c);
        QueuedUnfold<V>(LastSymbol, ds, rhs, k, i);
        QueuedUnfold<V>(EachChild, ds, rhs, k, i);
        FiltersAgreeExpand<V>(ds, c, i);
        var h := Expand<V>(EachChild, ds, c, i);
        if h.Ok? {
          FiltersAgreeChildren<V>(ds, rhs, k + 1, h.value.1);
        }
      } else {
        assert !Queued(LastSymbol, rhs, c) && !Queued(EachChild, rhs, c);
        LeafUnfold<V>(LastSymbol, ds, rhs, k, i);
        LeafUnfold<V>(EachChild, ds, rhs, k, i);
        FiltersAgreeChildren<V>(ds, rhs, k + 1, i);
      }
    }
  }

  /** `extract_terminal_children`: the terminal-labelled nodes, left to
      right, not looking below a terminal node. Epsilon nodes are not
      terminals, so none is ever collected. */
  function TerminalNodes<V>(n: Node<V>): seq<Node<V>>
    decreases n
  {
    if IsTerminal(n.symbol) then [n] else TerminalNodesAll(n.children)
  }

  function TerminalNodesAll<V>(ns: seq<Node<V>>): seq<Node<V>>
    decreases ns
  {
    if ns == [] then [] else TerminalNodes(ns[0]) + TerminalNodesAll(ns[1..])
  }

  lemma TerminalNodesAllCons<V>(n: Node<V>, ns: seq<Node<V>>)
    ensures TerminalNodesAll([n] + ns) == TerminalNodes(n) + TerminalNodesAll(ns)
  {
    assert ([n] + ns)[0] == n && ([n] + ns)[1..] == ns;
  }

  /** Why tokenising stops: `tokens[i]` does not exist (`IndexError`), or the
      `i`-th terminal's tag is not the `i`-th token's (`AssertionError`). */
  datatype AttachError = MissingToken(index: nat) | TagMismatch(index: nat)

  /** The loop of `tokenise_syntax_tree_terminals` over the collected
      terminals, the first of them the `i`-th: each gets the token with its
      own index once the tags agree. */
  function Label<V>(leaves: seq<Node<V>>, tokens: seq<Token<V>>, i: nat): (r: Result<seq<Node<V>>, AttachError>)
    ensures r.Ok? ==> |r.value| == |leaves|
    decreases |leaves|
  {
    if leaves == [] then Ok([])
    else if i >= |tokens| then Err(MissingToken(i))
    else if leaves[0].symbol != T(tokens[i].tag) then Err(TagMismatch(i))
    else
      match Label(leaves[1..], tokens, i + 1)
      case Err(e) => Err(e)
      case Ok(rest) => Ok([leaves[0].(token := Some(tokens[i]))] + rest)
  }

  /** The first `n` collected terminals are, in order, the terminals of the
      tokens from the `i`-th on. */
  predicate Agrees<V>(leaves: seq<Node<V>>, tokens: seq<Token<V>>, i: nat, n: nat)
    requires n <= |leaves|
  {
    && (n > 0 ==> i + n <= |tokens|)
    && forall k :: 0 <= k < n ==> leaves[k].symbol == T(tokens[i + k].tag)
  }

  predicate Fits<V>(leaves: seq<Node<V>>, tokens: seq<Token<V>>, i: nat)
  {
    Agrees(leaves, tokens, i, |leaves|)
  }

  lemma {:induction false} AgreesCons<V>(leaves: seq<Node<V>>, tokens: seq<Token<V>>, i: nat, n: nat)
    requires 0 < n <= |leaves|
    ensures Agrees(leaves, tokens, i, n) <==>
      i < |tokens| && leaves[0].symbol == T(tokens[i].tag) && Agrees(leaves[1..], tokens, i + 1, n - 1)
  {
    if i < |tokens| && leaves[0].symbol == T(tokens[i].tag) && Agrees(leaves[1..], tokens, i + 1, n - 1) {
      forall k | 0 <= k < n
        ensures leaves[k].symbol == T(tokens[i + k].tag)
      {
        if k > 0 {
          assert leaves[k] == leaves[1..][k - 1];
        }
      }
    }
    if Agrees(leaves, tokens, i, n) {
      assert leaves[0].symbol == T(tokens[i + 0].tag);
      forall k | 0 <= k < n - 1
        ensures leaves[1..][k].symbol == T(tokens[i + 1 + k].tag)
      {
        assert leaves[1..][k] == leaves[k + 1];
      }
    }
  }

  /** Labelling succeeds exactly when the terminals fit the tokens, and then
      gives each terminal its token and changes nothing else; otherwise it
      names the first terminal without a fitting token, and why. */
  lemma {:induction false} LabelSpec<V>(leaves: seq<Node<V>>, tokens: seq<Token<V>>, i: nat)
    ensures var r := Label(leaves, tokens, i);
      && (r.Ok? <==> Fits(leaves, tokens, i))
      && (r.Ok? ==> forall k :: 0 <= k < |leaves| ==> r.value[k] == leaves[k].(token := Some(tokens[i + k])))
      && (r.Err? ==>
            && i <= r.error.index < i + |leaves|
            && Agrees(leaves, tokens, i, r.error.index - i)
            && (r.error.MissingToken? <==> r.error.index >= |tokens|))
    decreases |leaves|
  {
    if leaves != [] {
      AgreesCons(leaves, tokens, i, |leaves|);
      if i < |tokens| && leaves[0].symbol == T(tokens[i].tag) {
        LabelSpec(leaves[1..], tokens, i + 1);
        var r := Label(leaves[1..], tokens, i + 1);
        if r.Ok? {
          assert Label(leaves, tokens, i).value == [leaves[0].(token := Some(tokens[i]))] + r.value;
        } else {
          assert Label(leaves, tokens, i) == r;
          AgreesCons(leaves, tokens, i, r.error.index - i);
        }
      }
    }
  }

  /** Labelling `a + b` labels `a`, then `b` from where `a` stopped. */
  lemma {:induction false} LabelAppend<V>(a: seq<Node<V>>, b: seq<Node<V>>, tokens: seq<Token<V>>, i: nat)
    ensures Label(a + b, tokens, i) ==
      match Label(a, tokens, i)
      case Err(e) => Err(e)
      case Ok(x) =>
        match Label(b, tokens, i + |a|)
        case Err(e) => Err(e)
        case Ok(y) => Ok(x + y)
    decreases |a|
  {
    if a == [] {
      assert a + b == b;
      match Label(b, tokens, i)
      case Err(_) =>
      case Ok(y) => assert [] + y == y;
    } else {
      assert (a + b)[0] == a[0] && (a + b)[1..] == a[1..] + b;
      LabelAppend(a[1..], b, tokens, i + 1);
      match Label(a, tokens, i)
      case Err(_) =>
      case Ok(x) =>
        match Label(b, tokens, i + |a|)
        case Err(_) =>
        case Ok(y) =>
          var x' := Label(a[1..], tokens, i + 1).value;
          assert x == [x[0]] + x';
          assert [x[0]] + x' + y == [x[0]] + (x' + y);
    }
  }

  /** The tree with its tokens forgotten. */
  function Strip<V>(n: Node<V>): Node<V>
    decreases n
  {
    Node(n.symbol, None, StripAll(n.children))
  }

  function StripAll<V>(ns: seq<Node<V>>): seq<Node<V>>
    decreases ns
  {
    if ns == [] then [] else [Strip(ns[0])] + StripAll(ns[1..])
  }

  /** `tokenise_syntax_tree_terminals` as it acts on the tree: the Python code
      sets the token fields of the collected nodes in place; here the tree is
      rebuilt with those fields set, from the `i`-th token on. */
  function Attach<V>(n: Node<V>, tokens: seq<Token<V>>, i: nat): Result<(Node<V>, nat), AttachError>
    decreases n
  {
    if IsTerminal(n.symbol) then
      if i >= |tokens| then Err(MissingToken(i))
      else if n.symbol != T(tokens[i].tag) then Err(TagMismatch(i))
      else Ok((n.(token := Some(tokens[i])), i + 1))
    else
      match AttachAll(n.children, tokens, i)
      case Err(e) => Err(e)
      case Ok((cs, j)) => Ok((n.(children := cs), j))
  }

  function AttachAll<V>(ns: seq<Node<V>>, tokens: seq<Token<V>>, i: nat): Result<(seq<Node<V>>, nat), AttachError>
    decreases ns
  {
    if ns == [] then Ok(([], i))
    else
      match Attach(ns[0], tokens, i)
      case Err(e) => Err(e)
      case Ok((c, j)) =>
        match AttachAll(ns[1..], tokens, j)
        case Err(e) => Err(e)
        case Ok((cs, j')) => Ok(([c] + cs, j'))
  }

  /** `tokenise_syntax_tree_terminals(root, tokens)`. */
  function Tokenise<V>(root: Node<V>, tokens: seq<Token<V>>): Result<Node<V>, AttachError>
  {
    match Attach(root, tokens, 0)
    case Err(e) => Err(e)
    case Ok((t, _)) => Ok(t)
  }

  /** Rebuilding the tree agrees with the loop over the collected terminals:
      the same error, or the same labelled terminals in a tree that differs
      from the original only in its tokens, having used one token per
      terminal. */
  lemma {:induction false} AttachIsLabel<V>(n: Node<V>, tokens: seq<Token<V>>, i: nat)
    ensures var r := Attach(n, tokens, i);
      var l := Label(TerminalNodes(n), tokens, i);
      && (r.Ok? <==> l.Ok?)
      && (r.Err? ==> r.error == l.error)
      && (r.Ok? ==> && r.value.1 == i + |TerminalNodes(n)|
                    && TerminalNodes(r.value.0) == l.value
                    && Strip(r.value.0) == Strip(n))
    decreases n
  {
    if IsTerminal(n.symbol) {
      assert [n][1..] == [];
    } else {
      AttachAllIsLabel(n.children, tokens, i);
    }
  }

  lemma {:induction false} AttachAllIsLabel<V>(ns: seq<Node<V>>, tokens: seq<Token<V>>, i: nat)
    ensures var r := AttachAll(ns, tokens, i);
      var l := Label(TerminalNodesAll(ns), tokens, i);
      && (r.Ok? <==> l.Ok?)
      && (r.Err? ==> r.error == l.error)
      && (r.Ok? ==> && r.value.1 == i + |TerminalNodesAll(ns)|
                    && TerminalNodesAll(r.value.0) == l.value
                    && StripAll(r.value.0) == StripAll(ns))
    decreases ns
  {
    if ns != [] {
      var a, b := TerminalNodes(ns[0]), TerminalNodesAll(ns[1..]);
      AttachIsLabel(ns[0], tokens, i);
      LabelAppend(a, b, tokens, i);
      var h := Attach(ns[0], tokens, i);
      if h.Ok? {
        var c, j := h.value.0, h.value.1;
        AttachAllIsLabel(ns[1..], tokens, j);
        var r := AttachAll(ns[1..], tokens, j);
        if r.Ok? {
          TerminalNodesAllCons(c, r.value.0);
          StripAllCons(c, r.value.0);
        }
      }
    }
  }

  lemma StripAllCons<V>(n: Node<V>, ns: seq<Node<V>>)
    ensures StripAll([n] + ns) == [Strip(n)] + StripAll(ns)
  {
    assert ([n] + ns)[0] == n && ([n] + ns)[1..] == ns;
  }

  /** Terminal nodes have no children, here and below. */
  predicate TerminalLeaves<V>(n: Node<V>)
    decreases n
  {
    (IsTerminal(n.symbol) ==> n.children == []) && TerminalLeavesAll(n.children)
  }

  predicate TerminalLeavesAll<V>(ns: seq<Node<V>>)
    decreases ns
  {
    ns == [] || (TerminalLeaves(ns[0]) && TerminalLeavesAll(ns[1..]))
  }

  /** Every step rewrites a non-terminal. */
  predicate NonTerminalLhs(ds: seq<Production>)
  {
    forall k :: 0 <= k < |ds| ==> ds[k].lhs.N?
  }

  /** The builder never gives a terminal node children when every production
      rewrites a non-terminal. */
  lemma {:induction false} ExpandTerminalLeaves<V>(f: Filter, ds: seq<Production>, sym: Symbol, i: nat)
    requires i <= |ds| && NonTerminalLhs(ds)
    ensures var r := Expand<V>(f, ds, sym, i); r.Ok? ==> TerminalLeaves(r.value.0)
    decreases |ds| - i, 0, 0
  {
    if i < |ds| && ds[i].lhs == sym {
      ExpandUnfold<V>(f, ds, sym, i);
      ChildrenTerminalLeaves<V>(f, ds, ds[i].rhs, 0, i + 1);
    }
  }

  lemma {:induction false} ChildrenTerminalLeaves<V>(f: Filter, ds: seq<Production>, rhs: seq<Symbol>, k: nat, i: nat)
    requires k <= |rhs| && i <= |ds| && NonTerminalLhs(ds)
    ensures var r := Children<V>(f, ds, rhs, k, i); r.Ok? ==> TerminalLeavesAll(r.value.0)
    decreases |ds| - i, 1, |rhs| - k
  {
    if k < |rhs| {
      if Queued(f, rhs, rhs[k]) {
        QueuedUnfold<V>(f, ds, rhs, k, i);
        ExpandTerminalLeaves<V>(f, ds, rhs[k], i);
        var h := Expand<V>(f, ds, rhs[k], i);
        if h.Ok? {
          ChildrenTerminalLeaves<V>(f, ds, rhs, k + 1, h.value.1);
          var r := Children<V>(f, ds, rhs, k + 1, h.value.1);
          if r.Ok? {
            assert ([h.value.0] + r.value.0)[1..] == r.value.0;
          }
        }
      } else {
        LeafUnfold<V>(f, ds, rhs, k, i);
        ChildrenTerminalLeaves<V>(f, ds, rhs, k + 1, i);
        var r := Children<V>(f, ds, rhs, k + 1, i);
        if r.Ok? {
          assert ([Leaf<V>(rhs[k])] + r.value.0)[1..] == r.value.0;
        }
      }
    }
  }

  lemma BuildTreeTerminalLeaves<V>(f: Filter, ds: seq<Production>)
    requires NonTerminalLhs(ds)
    ensures var r := BuildTree<V>(f, ds); r.Ok? ==> TerminalLeaves(r.value.0)
  {
    if ds != [] {
      ExpandTerminalLeaves<V>(f, ds, ds[0].lhs, 0);
    }
  }

  /** When the leaves are all terminals or epsilons and terminal nodes are
      leaves, the collected terminals spell the tree's sentence with its
      epsilons dropped. */
  lemma {:induction false} TerminalsSpellYield<V>(n: Node<V>)
    requires TerminalLeaves(n) && Settled(Yield(n))
    ensures Symbols(TerminalNodes(n)) == WithoutEps(Yield(n))
    decreases n
  {
    if n.children == [] {
      assert [n.symbol][0] == n.symbol;
      if IsTerminal(n.symbol) {
        assert [n.symbol][1..] == [];
      } else {
        assert WithoutEps([n.symbol]) == WithoutEps([]);
      }
    } else {
      TerminalsSpellYieldAll(n.children);
    }
  }

  lemma {:induction false} TerminalsSpellYieldAll<V>(ns: seq<Node<V>>)
    requires TerminalLeavesAll(ns) && Settled(YieldAll(ns))
    ensures Symbols(TerminalNodesAll(ns)) == WithoutEps(YieldAll(ns))
    decreases ns
  {
    if ns != [] {
      var a, b := Yield(ns[0]), YieldAll(ns[1..]);
      SettledSplit(a, b);
      TerminalsSpellYield(ns[0]);
      TerminalsSpellYieldAll(ns[1..]);
      WithoutEpsAppend(a, b);
      SymbolsAppend(TerminalNodes(ns[0]), TerminalNodesAll(ns[1..]));
    }
  }

  lemma SettledSplit(a: seq<Symbol>, b: seq<Symbol>)
    requires Settled(a + b)
    ensures Settled(a) && Settled(b)
  {
    forall k | 0 <= k < |a|
      ensures !a[k].N?
    {
      assert a[k] == (a + b)[k];
    }
    forall k | 0 <= k < |b|
      ensures !b[k].N?
    {
      assert b[k] == (a + b)[|a| + k];
    }
  }

  lemma SymbolsAppend<V>(a: seq<Node<V>>, b: seq<Node<V>>)
    ensures Symbols(a + b) == Symbols(a) + Symbols(b)
  {
  }
}
